=== FILE: README.md ===
# Antigravity for-loop, modelled in Dafny

This project models the decision logic of the "Antigravity For Loop" VS Code extension.
The extension drives an AI coding agent in a loop:

- It injects a directive into the agent's chat panel over the Chrome DevTools Protocol (CDP).
- It waits for the reply to settle or to carry a completion promise.
- It optionally runs a test command.
- It repeats until success or until the iteration budget is spent.

Around that loop sit several smaller pieces:

- The detection of a project's test command.
- The continuation prompt, the classification of a check script's output, and the reset of a stale state file.
- The state file's location and its read/write result mapping.
- The CDP manager's bookkeeping, prompt escaping, port scan and page-target choice.
- The page-side auto-accept classifier and click counter.
- The sidebar's HTML escaping and its message dispatch table.

Everything outside the program is an input of the model:

- the CDP channel, the clock and the status snapshots the page reports;
- the test runner's outcome and the user's pause/resume/cancel calls;
- the file system, the workspace and the page's DOM.

Modules:

| module | file | models |
|---|---|---|
| `Text` | text.dfy | string helpers: occurrence search, `toLowerCase`, `trim`, decimal printing, line joining, the one-character and first-occurrence `replace` forms |
| `Json` | json.dfy | JSON values, truthiness, property lookup and `String(v)` |
| `Config` | config.dfy | the `RalphLoop` constructor's option defaulting |
| `LogBuffer` | log_buffer.dfy | the 50-entry log |
| `Prompt` | prompt.dfy | `buildPrompt` |
| `Detector` | detector.dfy | `waitForAICompletion` |
| `Ralph` | ralph.dfy | the `RalphLoop` state machine and `start()` |
| `Continuation` | continuation.dfy | `generateContinuationPrompt`, `handleCheckResult`, `resetStaleState` |
| `Detect` | detect.dfy | `detectTestCommand`, `detectAllCommands` |
| `StateStore` | state_store.dfy | `StateManager` |
| `Cdp` | cdp.dfy | `CDPManager` bookkeeping, escaping, port scan, target filter, guarded calls |
| `Accept` | accept.dfy | the helper script's `isAcceptButton` and `clickAcceptButtons` |
| `Sidebar` | sidebar.dfy | the webview's `escapeHtml` and the `onDidReceiveMessage` dispatch |

Quirks of the code that the model keeps as written:

- The `aiTimeout` default is 3000000 ms.
- The CDP port range is 9001–9003.
- A failed injection still uses up an iteration.
- A cancelled loop reports the "Max iterations (N) reached" failure.
- A loop that exhausts its budget reports `maxIterations + 1` iterations.
- The auto-accept timer clicks while the loop is paused.
- The aria-label is lower-cased but not trimmed.
- `isAcceptButton` never decides on `className`, but it still lower-cases it. So it throws for an element whose `className` is not a string, such as an SVG element matched by `[class*="anysphere"]`. In the click loop that throw ends `clickAcceptButtons` after the clicks made so far.
- The continuation template carries mis-decoded characters on its second line.

Where the unit tests expect different values, the model follows the code:

- They expect an `aiTimeout` of 300000.
- They expect the port range `[9000, 9003]`.
- One test expects no clicks while the loop is paused.

## Model

| member | source | states |
|---|---|---|
| Config.MakeOptions | lib/ralph-loop.js:20-30 | Each option given with a truthy value is kept, and a falsy or missing one takes its default: 10 iterations, "DONE", an empty task, 2000 ms poll, 3000000 ms AI timeout, 500 ms auto-accept interval. `testCommand` and `customInstructions` are set exactly when a non-empty one is given, and then to the value given. |
| LogBuffer.Append | lib/ralph-loop.js:45-56 | The new entry is last. Below capacity it is simply appended; at capacity the oldest entry is dropped. A buffer within 50 entries stays within 50. |
| LogBuffer.AppendAll | lib/ralph-loop.js:45-56 | Any number of appends keeps a buffer within its 50-entry capacity. |
| LogBuffer.AppendAllKeepsNewest | lib/ralph-loop.js:45-56 | After any sequence of appends, the buffer equals the last 50 entries of everything logged, in order. |
| Prompt.Truncate | lib/ralph-loop.js:78 | The quoted error is a prefix of the error, at most 2000 characters long, and the whole error when it is short enough. |
| Prompt.BuildPrompt | lib/ralph-loop.js:61-110 | The directive starts with `[ITERATION i/max]` and ends with the completion sentence carrying the completion promise. |
| Prompt.LinesLength | lib/ralph-loop.js:61-110 | The number of lines is fixed by which optional blocks are present: task, failure, test steps, custom rules. |
| Prompt.LinesFrame | lib/ralph-loop.js:61-110 | The first lines are the header and a blank line, the last line is the completion sentence, and "INSTRUCTIONS:" follows right after the optional blocks. |
| Prompt.LinesTask | lib/ralph-loop.js:69-72 | The line after the header is a "TASK: " line exactly when a task description is set, and then it carries that description. |
| Prompt.LinesError | lib/ralph-loop.js:75-83 | The failure block is present exactly when the last error is non-empty and the iteration is past the first. When present, it quotes the truncated error between two code fences. |
| Prompt.LinesTest | lib/ralph-loop.js:89-92 | The "3. Run: <command>" step is present exactly when a test command is set. |
| Prompt.PromptQuotesError | lib/ralph-loop.js:75-83 | When the failure block is shown, the joined directive contains the heading, the fences and the first 2000 characters of the error as consecutive lines. |
| Detector.PollFrom | lib/ralph-loop.js:151-178 | The wait loop returns null exactly on a timeout. Otherwise it returns the message of its last read, which carries the promise when the promise ended the wait. It never reads past the ticks given. |
| Detector.WaitForCompletion | lib/ralph-loop.js:143-179 | The wait makes at most one read per tick and returns null exactly on a timeout. Otherwise it returns the message of its last read, and a wait ended by the promise returns a message carrying it. |
| Detector.PollFromSpec | lib/ralph-loop.js:143-179 | From any read on, the wait ends at the first admitted read that is the third unchanged read with the agent idle or that carries the promise, and returns that read's message. If the budget runs out first it returns null. Every read made was within the budget. |
| Detector.WaitSpec | lib/ralph-loop.js:143-179 | The whole wait returns the message of the first read that settles or signals, and null only when no admitted read did. |
| Detector.PromiseEndsWait | lib/ralph-loop.js:171-174 | A first read carrying the promise ends the wait at once, with that message, whatever the stability counter says. |
| Detector.RunSettles | lib/ralph-loop.js:158-168 | A read settles exactly when its message count is unchanged, the run of unchanged reads before it brings the counter to 3, and the agent is not typing. |
| Ralph.RunTest | lib/ralph-loop.js:112-136 | Without a command the run passes with exit code 0. Otherwise it passes exactly when `exec` reported no error. Success holds exactly when the exit code is 0, so a failure never reports 0. A failure's error text is stderr, or stdout when stderr is empty. |
| Ralph.NewLoop | lib/ralph-loop.js:17-40 | A new loop is not running, not paused, has no timer, is at iteration 0 with no error and no logs, and has well-formed options. |
| Ralph.GetStatus | lib/ralph-loop.js:464-470 | The status reports the running flag, the current iteration, the configured `maxIterations` and the last error of the loop. |
| Ralph.StatusAfterStop | lib/ralph-loop.js:425-470 | After a cancel or a completion the status reports a stopped loop and is otherwise unchanged. After a completion it agrees with the reported result on the iteration and `maxIterations`. |
| Ralph.StartAutoAccept | lib/ralph-loop.js:227-241 | A timer always exists afterwards. An existing timer leaves the loop unchanged; otherwise the timer is installed and logged. |
| Ralph.StopAutoAccept | lib/ralph-loop.js:245-251 | No timer exists afterwards, and the stop is logged either way. |
| Ralph.StartAutoAcceptIdempotent | lib/ralph-loop.js:227-241 | Starting the timer twice is the same as starting it once. |
| Ralph.TickClicksWhilePaused | lib/ralph-loop.js:230-236 | The timer's tick tests only the running flag, so a running, paused loop still clicks accept buttons. |
| Ralph.Pause | lib/ralph-loop.js:263-270 | Pause succeeds exactly when the loop is running and not paused, and then sets the flag and logs. Otherwise it changes nothing. |
| Ralph.Resume | lib/ralph-loop.js:275-282 | Resume succeeds exactly when the loop is running and paused, and then clears the flag and logs. Otherwise it changes nothing. |
| Ralph.PauseThenResume | lib/ralph-loop.js:263-282 | A successful pause followed by resume restores the flags and keeps everything but the log. |
| Ralph.Cancel | lib/ralph-loop.js:455-459 | Cancel clears the running flag and the timer. It keeps the pause flag, the iteration, the last error and the options. |
| Ralph.CancelDisablesPauseResume | lib/ralph-loop.js:263-282 | After a cancel, neither pause nor resume succeeds and the timer's tick no longer clicks. |
| Ralph.WaitForResume | lib/ralph-loop.js:287-291 | The wait returns only once the loop is not both running and paused, consuming the user's calls until then. Options, iteration and last error are unchanged. |
| Ralph.Complete | lib/ralph-loop.js:425-450 | The single exit path leaves the loop stopped without a timer and leaves the pause flag alone. It logs the outcome and reports the given outcome, the current iteration, `maxIterations` and the logs as `onComplete` sees them. |
| Ralph.Finally | lib/ralph-loop.js:416-419 | The `finally` block leaves the loop stopped without a timer. It adds exactly one "Auto-accept stopped" entry to the log and keeps the pause flag, the iteration and the options. |
| Ralph.Top | lib/ralph-loop.js:327-338 | The top of an iteration records the counter and proceeds exactly when the loop is not left running and paused. An unpaused loop proceeds at once. |
| Ralph.Attempt | lib/ralph-loop.js:355-404 | A failed injection goes on to the next iteration and keeps the last error. A completion is a success with one of the three success messages. After a successful injection the test gate decides. A passing test completes: "Task completed successfully!" when the reply carried the promise, "All tests pass!" otherwise. A failing test never completes and records its error text as the last error. Without a test command, a signalled reply completes with "AI signaled DONE". |
| Ralph.AfterInjection | lib/ralph-loop.js:374-404 | After a successful injection, a passing test completes: "Task completed successfully!" when the reply carried the promise, "All tests pass!" otherwise. A failing test never completes, and its stderr, or stdout when stderr is empty, becomes the last error. Otherwise the last error is kept. Without a test command, a reply carrying the promise completes with "AI signaled DONE". Any completion leaves the loop stopped. |
| Ralph.AfterInjectionCalls | lib/ralph-loop.js:374-404 | The pause, resume and cancel calls made while the reply or the test run is awaited take effect before the iteration ends, also when it completes. The pause flag left is the one those calls leave, and so is the running flag when the loop goes on. |
| Ralph.AttemptCalls | lib/ralph-loop.js:355-404 | The same holds for a whole attempt, a failed injection included. |
| Ralph.PauseDuringCompletingIteration | lib/ralph-loop.js:374-394 | A pause made while the reply is awaited, followed by a reply that completes the loop, leaves the loop completed, stopped and paused, because `complete` does not clear `isPaused`. |
| Ralph.Iterate | lib/ralph-loop.js:327-408 | One pass of the loop records `k` and injects exactly when it neither breaks on cancel nor stays paused, using the prompt built from the previous last error. Its completions are successes reporting `k`. Failed injections and failing tests never complete. After an injection a passing test completes with the tested success message, and a failing test leaves its error text as the last error for the next prompt. Otherwise the last error is kept. |
| Ralph.RunFrom | lib/ralph-loop.js:327-411 | The loop keeps the options, and it is left without completing only when the counter has passed `maxIterations` or after a cancel. |
| Ralph.RunFromLength | lib/ralph-loop.js:327-411 | At most one prompt per remaining iteration is injected. A loop left without completing is left at the iteration after its last prompt. |
| Ralph.RunFromCompletion | lib/ralph-loop.js:379-404 | A completion is a success that reports the iteration of the last injected prompt, carries a success message and leaves the loop stopped without a timer. |
| Ralph.RunFromLogBound | lib/ralph-loop.js:45-56 | The log stays within 50 entries across a whole run. |
| Ralph.QuietRunEnds | lib/ralph-loop.js:327-411 | Without user calls, a running loop never parks. If it does not complete, it has injected a prompt in every iteration, failed injections included. |
| Ralph.FailingTestsNeverComplete | lib/ralph-loop.js:383-404 | With a test command whose every run fails, the loop never completes, even when the agent claims completion. |
| Ralph.FailedInjectionsNeverComplete | lib/ralph-loop.js:359-372 | When no injection succeeds the loop never completes; each failure uses up an iteration. |
| Ralph.FirstPassingTestCompletes | lib/ralph-loop.js:383-399 | With a test command, a first injection whose test passes completes the run in iteration 1 after one prompt. The message is "Task completed successfully!" when the reply carried the promise, and "All tests pass!" otherwise. |
| Ralph.FailedTestFeedsNextPrompt | lib/ralph-loop.js:385-403 | With a test command, a failing test after the first injection goes on to iteration 2. The second prompt is built from that test's error text. |
| Ralph.FirstSignalCompletes | lib/ralph-loop.js:379-394 | With no test command, a first reply carrying the promise completes the run in iteration 1 with "Task completed (AI signaled DONE)" after one prompt. |
| Ralph.Iterations | lib/ralph-loop.js:327-411 | The `for` loop computed iteration by iteration gives exactly the exit, state and prompts of the recursive description. |
| Ralph.Launch | lib/ralph-loop.js:302-317 | The loop is entered at iteration 0 with no last error and the options kept. Without user calls during connect, it is running, unpaused and with the timer on. |
| Ralph.Start | lib/ralph-loop.js:296-421 | A running loop is rejected unchanged but for a log line. A failed connection finishes with the connect error before any injection. A finished run leaves the loop stopped without a timer and injects at most `maxIterations` prompts. A success reports the number of prompts. A failure after connecting is "Max iterations (N) reached" and reports one more iteration than prompts, also after a cancel. The returned `logs` is the buffer as `start()` returns, after the `finally` block's entry. |
| Continuation.OrDefault | extension.js:530-534 | A truthy state value is printed as the slot's text; otherwise the default is used. |
| Continuation.GenerateContinuationPrompt | extension.js:526-535 | There is no prompt exactly when the state is falsy. |
| Continuation.PromptFillsSlots | extension.js:134-149 | When the values hold no `$` and no `{`, the five chained first-occurrence replacements yield the template with each placeholder replaced by its value. |
| Continuation.DefaultsFill | extension.js:526-535 | An empty state with no error text gives the template filled with the defaults 1, 10, "Fix all errors", "npm test", "Tests still failing". |
| Continuation.HandleCheckResult | extension.js:570-598 | "done" records DONE. "stuck" and "continue" record stderr, or stdout when stderr is empty. Anything else keeps the previous result. The enforcer fires exactly on "continue" with the enforcer enabled and a state present. |
| Continuation.FirstKeyword | extension.js:570-598 | The reference classifier answers Unknown exactly when no keyword occurs. |
| Continuation.VerdictByPrecedence | extension.js:570-598 | The verdict is the first of done, stuck, continue found in the lower-cased stdout. |
| Continuation.VerdictIgnoresStderr | extension.js:570-598 | The error output never changes the verdict. |
| Continuation.ResetStaleState | extension.js:203-211 | A state is rewritten exactly when it is "running" or "paused". The rewrite sets status "failed", the fixed message and last_error, and keeps every other field. |
| Continuation.ResetSettles | extension.js:203-211 | A reset state is not reset again. |
| Detect.Insert | extension.js:997-999 | Inserting into a priority-descending list keeps it descending, adds exactly the element, and places it after every element of higher priority. |
| Detect.SortByPriority | extension.js:997-999 | The sort gives a priority-descending permutation of the candidates. |
| Detect.SortStable | extension.js:997-999 | For each priority, the candidates of that priority keep their push order. |
| Detect.BestIndex | extension.js:997-999 | The reference choice is the earliest candidate of maximal priority. |
| Detect.SortedHead | extension.js:997-999 | The head of the sorted list is the earliest candidate of maximal priority. |
| Detect.DetectTestCommand | extension.js:790-1000 | The result is null exactly when no rule pushes a candidate. Otherwise it is a pushed candidate of maximal priority. |
| Detect.Choose | extension.js:997-1000 | `detectTestCommand` returns null exactly when no rule pushed a candidate. Otherwise the choice is a candidate of maximal priority, namely the earliest pushed among those. |
| Detect.NpmTest | extension.js:806-818 | The JavaScript rules push "npm test" exactly when package.json exists with a test script other than the npm placeholder. An unparsable manifest or the placeholder script yields none. |
| Detect.OnlyNpmRule | extension.js:790-1000 | No rule outside the JavaScript group pushes "npm test". |
| Detect.NoNpmTestWithoutScript | extension.js:792-818 | Without a parsable package.json carrying a real test script, no candidate is "npm test". |
| Detect.PythonOneRunner | extension.js:827-838 | A Python project contributes exactly one runner. It is pytest at priority 10 if pytest.ini or pyproject.toml exists, else tox at priority 10 if tox.ini exists, else "python -m pytest" at priority 8. A non-Python project contributes none. |
| Detect.RubyOneRunner | extension.js:865-873 | A project with a Gemfile contributes exactly one runner: rspec with .rspec or spec, else "rake test" with a Rakefile, else "rake". |
| Detect.DartRunners | extension.js:902-911 | With pubspec.yaml: "dart analyze" is always pushed. "flutter test" needs a test directory and android or ios. "dart test" needs a test directory otherwise. |
| Detect.ScriptEntries | extension.js:1024-1029 | Every collected entry is a script named test, build, lint, typecheck or check, with its own value. Every script with one of those names is collected. |
| Detect.ScriptEntriesAppend | extension.js:1024-1029 | The entries keep the order of `Object.entries`: those of an earlier part of `scripts` come before those of a later part. |
| Detect.WithPrimary | extension.js:1033-1036 | The primary detection is prepended only when no collected entry has its command, so the result always lists the primary command. |
| Detect.PrimaryNeverDuplicated | extension.js:1033-1036 | Prepending the primary keeps the commands distinct. |
| Detect.DetectAllCommands | extension.js:1005-1039 | The list is the collected script entries, preceded by the primary detection when it was not already there. Whenever a primary command is detected, it is listed. |
| Detect.AllCommandsDistinct | extension.js:1005-1039 | With distinct script names, the listed commands are pairwise distinct. |
| StateStore.ConfiguredPath | lib/state-manager.js:21-23 | A configured path is used exactly when it is a string with something besides whitespace. |
| StateStore.StateFilePath | lib/state-manager.js:13-50 | There is no state file path exactly when there is no workspace folder. |
| StateStore.PathChoice | lib/state-manager.js:19-49 | A usable configured path is returned as given when absolute and joined onto the first folder when relative. Anything else gives `<root>/.antigravity/for-loop-state.json`. |
| StateStore.SaveAt | lib/state-manager.js:55-68 | With no path nothing is written. A write that throws returns null. If it throws before opening the file, the disk is left as it was. If it throws after the truncating open, the file holds text that does not parse. Otherwise the state is stored at the path and returned. No other file changes. |
| StateStore.ReadAt | lib/state-manager.js:73-87 | No path, a missing file, a throwing read and unparsable content each give null. Otherwise the parsed content is returned. |
| StateStore.SaveState | lib/state-manager.js:55-68 | Without a workspace folder, saving returns undefined and writes nothing. A write that throws returns null. It changes nothing if it threw before opening the file. If it threw after the open, the state file then reads as null. Otherwise it returns the state, and the state file then holds it. |
| StateStore.ReadState | lib/state-manager.js:73-87 | Reading gives null without a workspace folder or when the read throws. |
| StateStore.FailedWriteLosesState | lib/state-manager.js:59-60 | A save whose write fails after the truncating open returns null and loses the state saved before, because the state file then reads as null. Other files are untouched. |
| StateStore.SaveThenRead | lib/state-manager.js:55-87 | What a successful save writes, a later read returns. |
| StateStore.NoFolderNoFile | lib/state-manager.js:14-17 | Without a workspace folder, saving writes nothing and reading returns null. |
| Cdp.FirstAnswering | lib/cdp-manager.js:63-70 | The reference scan returns a port in range that answers, with no answering port before it; none means no port in range answers. |
| Cdp.FindAvailablePort | lib/cdp-manager.js:63-70 | The scan probes 9001, 9002, 9003 in ascending order, stops at the first answering port and returns it, else null. |
| Cdp.Pick | lib/cdp-manager.js:110-113 | The filter throws exactly for a null entry, or for an entry with a debugger URL and page or webview type whose title is neither a string nor an array. It accepts only such entries whose title is a string or an array. |
| Cdp.FindPageTarget | lib/cdp-manager.js:104-115 | A reply that is not an array is an error. There is no target exactly when every entry is rejected without error, and a target found is an entry the filter accepts. |
| Cdp.FindFromFirst | lib/cdp-manager.js:110-114 | The chosen target is the first entry accepted by the filter, and every earlier entry was rejected without error. A thrown error comes from the first entry whose filter throws. |
| Cdp.FindFromNone | lib/cdp-manager.js:110-114 | No target is chosen exactly when every entry is rejected without error. |
| Cdp.PickedTarget | lib/cdp-manager.js:110-114 | A chosen target has a debugger URL, is of type page or webview, and its title does not contain "Launchpad". |
| Cdp.EscapeTemplate | lib/cdp-manager.js:767 | The escaping puts one backslash before each backslash, backtick and dollar, and keeps every other character in order. |
| Cdp.EscapeSpec | lib/cdp-manager.js:767 | The three passes together put one backslash before each backslash, backtick and dollar, and leave every other character as it is. |
| Cdp.DollarReplacementVerbatim | lib/cdp-manager.js:767 | The replacement text of the dollar pass has no special `$` pattern, so it is inserted verbatim. |
| Cdp.NormalizeNewlines | lib/cdp-manager.js:767-770 | Turning CR LF and lone CR into LF leaves no CR, and leaves text without CR unchanged. |
| Cdp.EscapeRoundTrip | lib/cdp-manager.js:767-770 | The template literal built from the escaped text reads back as the prompt text with CR LF and lone CR turned into LF. This is exactly the prompt text when it holds no CR. |
| Cdp.CarriageReturnCooked | lib/cdp-manager.js:767-770 | A prompt with a CR LF or a lone CR line break, as a quoted test error can hold, reaches the page with LF in its place. |
| Cdp.EscapedDelimiters | lib/cdp-manager.js:767-770 | In the escaped text every backtick and dollar follows a backslash, so none can end the literal or open a substitution. |
| Cdp.SendCommand | lib/cdp-manager.js:719-726 | Without an open socket the command is rejected and nothing changes. Otherwise it is sent with the current id, the id counter grows, and nothing else changes. |
| Cdp.Dispose | lib/cdp-manager.js:862-869 | Dispose drops the socket and clears both flags, keeping the id counter. |
| Cdp.IdsIncrease | lib/cdp-manager.js:719-726 | Across any sequence of commands, disposals and reconnections, the ids sent are strictly increasing and never reused. |
| Cdp.TryConnect | lib/cdp-manager.js:26-58 | An already open, active connection is reused as it is. Otherwise the call succeeds exactly when the socket opens and the helper is already marked injected or its command succeeds. An opened socket stays active even when the helper fails. The helper's command takes one message id, and a socket that failed to open leaves a closed socket and the counter unchanged. |
| Cdp.Evaluate | lib/cdp-manager.js:765-778 | The call's command is sent exactly when the socket is open. It is sent with the current id and the expression of the call, and only the counter changes. Otherwise the reply carries "WebSocket not open". |
| Cdp.Invoke | lib/cdp-manager.js:758-849 | Only an inactive manager tries to connect, and a failed connection replies with the connect error without sending. The call's command is sent exactly when the manager is active with an open socket, or the connection succeeds. Its id is one past the counter when the helper had to be injected first. A socket that opened stays connected whatever the call's outcome. |
| Cdp.NotConnectedReplies | lib/cdp-manager.js:758-838 | When the connection cannot be made, each of the four calls sends nothing and returns an error object with the connect error. `clickAcceptButtons` reports 0 clicks and `injectPrompt` reports no success. The manager is unchanged only when no endpoint was reached. It is left active exactly when the socket opened, with the counter advanced by at most the helper's id. |
| Cdp.FailedHelperNotRetried | lib/cdp-manager.js:36-55 | When the helper's command fails after the socket opened, the call fails, but the manager is left connected with the helper unmarked. The next call skips `tryConnect()` and sends its command with the id after the helper's. |
| Cdp.InvokeReplies | lib/cdp-manager.js:758-849 | A failing evaluation is answered with an object carrying its message, never by throwing. An injection sends the escaped prompt inside the `injectAndSubmit` call. |
| Cdp.ErrorReplyCarries | lib/cdp-manager.js:777-848 | Every error object carries its message under `error`. |
| Accept.AnyNear | lib/cdp-manager.js:592 | Some accept pattern occurs in the text or the aria-label with fewer than 3 characters to spare. |
| Accept.AnyIn | lib/cdp-manager.js:600 | Some deny pattern occurs in the text or the aria-label. |
| Accept.IsAcceptButton | lib/cdp-manager.js:582-603 | `isAcceptButton` throws exactly when `className` is not a string. Otherwise it accepts exactly as Classify decides on the trimmed lower-case text and the lower-case aria-label. |
| Accept.Classify | lib/cdp-manager.js:582-603 | Applied by `isAcceptButton` to the trimmed lower-case text and the lower-case aria-label: a button is accepted exactly when no deny pattern occurs in either, and some accept pattern is within 2 characters of the whole of one of them. |
| Accept.DenyWins | lib/cdp-manager.js:599-603 | A deny pattern in the text or the aria-label rejects the button, whatever accept pattern it also holds. |
| Accept.AcceptAllAccepted | lib/cdp-manager.js:591 | "accept all" is accepted through its own pattern, though "accept" alone is too short for it. |
| Accept.AddAll | lib/cdp-manager.js:621-623 | Adding one selector's matches keeps the list free of repeats and keeps what was there as a prefix. An element is in the result exactly when it was there before or is a match. |
| Accept.Matched | lib/cdp-manager.js:619-626 | The passes over all accept selectors add exactly the elements some selector matched, without repeats, after what was found before. |
| Accept.AddButtons | lib/cdp-manager.js:627-632 | The button pass keeps the list free of repeats and keeps what was there as a prefix. It adds only accept buttons. |
| Accept.AddButtonsSpec | lib/cdp-manager.js:627-632 | The button pass throws exactly when some button not already found throws in `isAcceptButton`. Every accept button before any throwing one is added. |
| Accept.FoundSound | lib/cdp-manager.js:608-652 | The found list has no repeats and holds only elements matched by an accept selector or accepted among the buttons, in the chat panel or the main document. |
| Accept.FoundSelected | lib/cdp-manager.js:608-652 | Every element an accept selector matched, in the chat panel or the main document, is found, whatever `isAcceptButton` does. |
| Accept.FoundThrows | lib/cdp-manager.js:608-652 | Gathering throws only when a button of the main document throws in `isAcceptButton`. A throw in the chat panel is caught. |
| Accept.FoundExact | lib/cdp-manager.js:608-652 | When no button of either document throws, gathering ends normally. The found list is then exactly the selector matches and the accept buttons. |
| Accept.ClickFound | lib/cdp-manager.js:655-666 | The loop throws exactly when some found element throws in `isAcceptButton`. Without a throw, the count is the number of found accept buttons whose click does not throw. With a throw, it counts those before the first throwing element. |
| Accept.ClickAcceptButtons | lib/cdp-manager.js:607-669 | A throw while gathering ends the call before any click. Otherwise the call returns exactly when no found element throws in `isAcceptButton`. It then returns the length of the found list and the number of accept buttons whose click succeeded. A throw in the click loop comes after the clicks on elements before the throwing one. |
| Sidebar.Entity | lib/sidebar-provider.js:303-310 | A character other than `& < > " '` is kept; each of those becomes an entity beginning with `&` and ending with `;`. |
| Sidebar.EscapeHtml | lib/sidebar-provider.js:303-310 | Each `&`, `<`, `>`, `"` and `'` becomes its entity, and every other character is kept in order. |
| Sidebar.EscapeHtmlSpec | lib/sidebar-provider.js:303-310 | The five passes replace each character by its entity independently, keeping all other characters in order. |
| Sidebar.NoRawMarkup | lib/sidebar-provider.js:303-310 | The escaped text contains no raw `<`, `>`, `"` or `'`. |
| Sidebar.AmpersandsBeginEntities | lib/sidebar-provider.js:305 | Because `&` is replaced first, every `&` in the output begins one of the five entities. |
| Sidebar.EscapedLength | lib/sidebar-provider.js:303-310 | The output is longer than the input by 4 per `&`, 3 per `<` and `>`, and 5 per `"` and `'`. |
| Sidebar.UnescapeEscape | lib/sidebar-provider.js:303-310 | Decoding the five entities recovers the original text, so the escaping loses nothing. |
| Sidebar.Dispatch | lib/sidebar-provider.js:23-58 | A null message throws. Only `updatePrompt` forwards an argument. |
| Sidebar.DispatchTable | lib/sidebar-provider.js:23-58 | Each of the eight message types executes its own fixed command, and `updatePrompt` forwards `data.prompt`. |
| Sidebar.DispatchIgnores | lib/sidebar-provider.js:23-58 | A message of any other type is ignored. |
| Sidebar.TableOneToOne | lib/sidebar-provider.js:23-58 | Different message types map to different commands. |

## Left out

- Log timestamps and formatting: a log entry is an abstract value, because `toLocaleTimeString` depends on the locale and the clock. The VS Code output channel is not modelled.
- The `onProgress` and `onComplete` callbacks are not modelled. They are taken to return normally, so the `catch` block of `start()` (lib/ralph-loop.js:413-415) is reached only by the connect failure thrown at lib/ralph-loop.js:323.
- Calls to `pause`, `resume` and `cancel` are modelled at the points where the loop awaits, and those made during one iteration take effect before it ends, also before a completing `complete()`. Their order relative to log lines inside one iteration is not modelled, since the body never reads the flags.
- Ralph.Start: the returned `logs` is the live array, which later `start()` calls keep extending. The model returns its value at the moment `start()` returns, after the `finally` block.
- The `sleep` delays, the 2 s and 5 s transport timeouts and the auto-accept interval are not modelled; they are abstract ticks or are dropped.
- `waitForAICompletion` takes its clock readings and status snapshots as an input sequence. `getAIStatus` and its page script are not modelled.
- `runTestCommand` keeps only the mapping from the `exec` outcome; the child process is not modelled.
- Ralph.RunFromLength and the other run lemmas assume one `Pass` is given per iteration (`maxIterations <= |passes|`), because the environment is an input.
- Strings are sequences of characters. `length` counts characters rather than UTF-16 code units, and `toLowerCase` lower-cases ASCII letters only.
- Paths are POSIX paths. `path.join` is modelled as concatenation with `/`, without normalising `..` or repeated separators, and `path.isAbsolute` as a leading `/`.
- StateStore.SaveAt: a write that fails after the open is taken to leave text that does not parse. A partial write of a state that is a bare number could leave a shorter number, which would parse.
- The `workspacePath` option (`process.cwd()` by default) is not modelled. It only sets the directory the test command runs in.
- Directory creation in `getStateFilePath` (`mkdirSync`, lib/state-manager.js:28-48), which both `saveState` and `readState` reach, is not modelled. A failed `mkdirSync` is caught and logged there. The write or read that follows then fails, which the model counts as a throwing write or a missing file.
- JSON text is not parsed. A stored file is either a parsed value or text that does not parse.
- Json.Json: numbers are integers only. Fractional numbers and numbers past 2^53 are not modelled, nor how `String(v)` prints them ("1.5", "1e+21", rounded digits). This matters where Continuation.OrDefault prints a state value.
- Cdp.Cooked reads only the escape sequences the escaping produces (a backslash and the next character) and the CR LF and CR line breaks. The other escape forms of JavaScript template literals and the U+2028/U+2029 line terminators are not modelled.
- The CDP transport is not modelled: `checkPort`, the WebSocket connection, and the message routing and response matching in `sendCommand`. How a connection attempt ends (Cdp.Connect) and the evaluation results are inputs.
- Cdp.TryConnect: socket events that arrive after `tryConnect()` has resolved are not modelled as part of it. Examples are a socket opening after the 5 s timeout, or a `close` following an `error`. They are separate Cdp.Event steps. The loop's own `tryConnect()` call (lib/ralph-loop.js:321) is an input `connected`, not this function.
- The helper script's DOM heuristics are not modelled: `findChatInput`, `findSubmitButton`, the page-side `injectAndSubmit`, `isElementVisible` and `debugListInputs`/`debugListButtons`. Page queries are inputs; a selector whose query throws matches nothing.
- Accept.ClickFound: the page is taken as unchanged by clicks. `describe` is one fixed view of every element, although an earlier `el.click()` can change the text, aria-label or className that the re-check before each click reads.
- Accept.Button: only whether `className` is a string is kept. Its lower-cased text never decides the result, so the model leaves it out.
- Accept.ClickAcceptButtons: the extension side receives a throw in the page as an evaluation without a value, so it reports no clicks. Cdp.Invoke models that as its input, not as a call into this method.
- Detect: `existsSync` and `readdirSync` are independent inputs. A project is a set of present names and a directory listing.
- Detect.AllCommandsDistinct assumes the `scripts` object has distinct keys, as any object parsed by `JSON.parse` does.
- The test-only features are not part of the code and are not modelled: phase prompts, `checkPrompt` verification, quota waiting, `{{…}}` templating in the loop and `DEFAULT_PROMPT_TEMPLATE`.
- The VS Code user interface is not modelled: status bar, quick picks, notifications, input boxes and the sidebar's HTML and CSS. The same goes for extension.js's own copies of `getStateFilePath`, `saveState` and `readState`.
- `autoInjectPrompt`'s AppleScript, PowerShell and xdotool fallbacks and `runCheckScript` run foreign processes and are not modelled.

=== FILE: accept.dfy ===
/** The auto-accept part of the helper script that lib/cdp-manager.js
    injects into the page: `isAcceptButton`, which decides from a button's
    text and aria-label whether to click it, and `clickAcceptButtons`, which
    gathers candidate elements without repeats and clicks the accept
    buttons among them. The page is an input: what each query returns, what
    each element shows, and which clicks throw. */
module Accept {
  import opened Text

  /** What `isAcceptButton` reads from an element: `textContent` and the
      `aria-label` attribute, each "" when null or absent, and whether
      `className` is a string. An HTML element's `className` is one; an SVG
      element's is an `SVGAnimatedString` object, which is truthy and has no
      `toLowerCase`, so `(el.className || '').toLowerCase()` throws for it.
      The lower-cased class name itself never decides anything. */
  datatype Button = Button(text: string, ariaLabel: string, classIsString: bool)

  const AcceptPatterns: seq<string> := ["accept", "run", "confirm", "approve", "yes", "ok", "continue", "proceed", "accept all"]
  const DenyPatterns: seq<string> := ["cancel", "reject", "no", "deny", "stop", "close", "dismiss", "select", "upgrade"]

  /** `(el.textContent || '').toLowerCase().trim()`. */
  function ButtonText(b: Button): string {
    Trim(ToLower(b.text))
  }

  /** `(el.getAttribute('aria-label') || '').toLowerCase()`: not trimmed. */
  function AriaText(b: Button): string {
    ToLower(b.ariaLabel)
  }

  /** `s.includes(p) && s.length - p.length < 3`: the pattern is nearly all of
      the text. */
  predicate Near(s: string, p: string) {
    Contains(s, p) && |s| - |p| < 3
  }

  /** `acceptPatterns.some(p => text.includes(p) && text.length-p.length<3
      || ariaLabel.includes(p) && ariaLabel.length-p.length<3)`. */
  function AnyNear(text: string, aria: string, ps: seq<string>): (r: bool)
    ensures r <==> exists i :: 0 <= i < |ps| && (Near(text, ps[i]) || Near(aria, ps[i]))
  {
    if |ps| == 0 then false
    else if Near(text, ps[0]) || Near(aria, ps[0]) then true
    else
      var r := AnyNear(text, aria, ps[1..]);
      assert forall i :: 1 <= i < |ps| ==> ps[i] == ps[1..][i - 1];
      r
  }

  /** `denyPatterns.some(p => text.includes(p) || ariaLabel.includes(p))`. */
  function AnyIn(text: string, aria: string, ps: seq<string>): (r: bool)
    ensures r <==> exists i :: 0 <= i < |ps| && (Contains(text, ps[i]) || Contains(aria, ps[i]))
  {
    if |ps| == 0 then false
    else if Contains(text, ps[0]) || Contains(aria, ps[0]) then true
    else
      var r := AnyIn(text, aria, ps[1..]);
      assert forall i :: 1 <= i < |ps| ==> ps[i] == ps[1..][i - 1];
      r
  }

  /** The decision `isAcceptButton` takes on the lower-cased, trimmed text
      and the lower-cased aria-label: no deny pattern anywhere in either, and
      some accept pattern that makes up all but at most two characters of
      one of them. */
  function Classify(text: string, aria: string): (r: bool)
    ensures r <==>
      && (forall i :: 0 <= i < |DenyPatterns| ==>
            !Contains(text, DenyPatterns[i]) && !Contains(aria, DenyPatterns[i]))
      && (exists i :: 0 <= i < |AcceptPatterns| &&
            (Near(text, AcceptPatterns[i]) || Near(aria, AcceptPatterns[i])))
  {
    if AnyIn(text, aria, DenyPatterns) then false
    else AnyNear(text, aria, AcceptPatterns)
  }

  /** `isAcceptButton(el)`: `None` when the call throws. It throws exactly
      when `className` is not a string, since that read comes before any
      decision; otherwise it decides as `Classify` says on the lower-cased,
      trimmed text and the lower-cased aria-label. */
  function IsAcceptButton(b: Button): (r: Option<bool>)
    ensures r.None? <==> !b.classIsString
    ensures r.Some? ==> (r.value <==> Classify(ButtonText(b), AriaText(b)))
  {
    if !b.classIsString then None else Some(Classify(ButtonText(b), AriaText(b)))
  }

  /** Deny wins: a text or label holding a deny pattern is never clicked,
      whatever accept pattern it also holds. */
  lemma DenyWins(text: string, aria: string, i: nat)
    requires i < |DenyPatterns|
    requires Contains(text, DenyPatterns[i]) || Contains(aria, DenyPatterns[i])
    ensures !Classify(text, aria)
  {
  }

  /** A button that reads "Accept all" is accepted through its own pattern,
      though "accept" alone is four characters short of it. */
  lemma AcceptAllAccepted()
    ensures Near("accept all", AcceptPatterns[8])
    ensures !Near("accept all", AcceptPatterns[0])
  {
    assert AcceptPatterns[8] == "accept all";
    assert "accept all"[0..10] == "accept all";
    assert OccursAt("accept all", "accept all", 0);
  }

  // ---- clickAcceptButtons ----

  /** Elements of the page, by identity. */
  type El = int

  /** What one document yields: for each accept selector the elements it
      matches (a selector whose query throws matches nothing), and its
      `button` elements. */
  datatype Queries = Queries(selected: seq<seq<El>>, buttons: seq<El>)

  /** The page: the chat panel's `#cascade` document when the panel iframe
      is reachable, the main document with its other frames, and what each
      element shows. */
  datatype Page = Page(frame: Option<Queries>, main: Queries, describe: El -> Button)

  /** Some accept selector of the document matches `x`. */
  predicate Selected(q: Queries, x: El) {
    exists k :: 0 <= k < |q.selected| && x in q.selected[k]
  }

  /** `x` is one of the document's `button` elements and an accept button. */
  predicate AcceptedButton(q: Queries, check: El -> Option<bool>, x: El) {
    x in q.buttons && check(x) == Some(true)
  }

  /** What the document contributes when nothing throws. */
  predicate InDocument(q: Queries, check: El -> Option<bool>, x: El) {
    Selected(q, x) || AcceptedButton(q, check, x)
  }

  /** No `button` of the document throws in `isAcceptButton`. */
  predicate ChecksAll(q: Queries, check: El -> Option<bool>) {
    forall x :: x in q.buttons ==> check(x).Some?
  }

  predicate NoDup(s: seq<El>) {
    forall i, j :: 0 <= i < j < |s| ==> s[i] != s[j]
  }

  /** Whatever a list starts with, it holds. */
  lemma PrefixIn(a: seq<El>, b: seq<El>)
    requires |a| <= |b| && b[..|a|] == a
    ensures forall x :: x in a ==> x in b
  {
    forall x | x in a
      ensures x in b
    {
      var i :| 0 <= i < |a| && a[i] == x;
      assert b[i] == x;
    }
  }

  /** `els.forEach(el => { if (!found.includes(el)) found.push(el); })`: the
      pass over one accept selector's matches. */
  function AddAll(found: seq<El>, els: seq<El>): (r: seq<El>)
    ensures NoDup(found) ==> NoDup(r)
    ensures |found| <= |r| && r[..|found|] == found
    ensures forall x :: x in r <==> x in found || x in els
    decreases |els|
  {
    if |els| == 0 then found
    else
      var next := if els[0] in found then found else found + [els[0]];
      var r := AddAll(next, els[1..]);
      assert forall x :: x in els <==> x == els[0] || x in els[1..];
      assert r[..|found|] == next[..|found|];
      r
  }

  /** The passes over every accept selector of one document, in order. */
  function Matched(found: seq<El>, q: Queries): (r: seq<El>)
    ensures NoDup(found) ==> NoDup(r)
    ensures |found| <= |r| && r[..|found|] == found
    ensures forall x :: x in r <==> x in found || Selected(q, x)
    decreases |q.selected|
  {
    if |q.selected| == 0 then found
    else
      var next := AddAll(found, q.selected[0]);
      var r := Matched(next, q.(selected := q.selected[1..]));
      assert forall k :: 1 <= k < |q.selected| ==> q.selected[k] == q.selected[1..][k - 1];
      assert forall x :: Selected(q, x) <==> x in q.selected[0] || Selected(q.(selected := q.selected[1..]), x);
      assert r[..|found|] == next[..|found|];
      r
  }

  /** The `found` list so far, and whether an `isAcceptButton` call threw
      and so ended the gathering. */
  datatype Gathered = Gathered(found: seq<El>, threw: bool)

  /** `els.forEach(el => { if (!found.includes(el) && this.isAcceptButton(el))
      found.push(el); })`, `check` being `isAcceptButton`. An element already
      found is not checked again, and the first check that throws ends the
      `forEach`, keeping what was pushed before it. */
  function AddButtons(found: seq<El>, els: seq<El>, check: El -> Option<bool>): (r: Gathered)
    ensures NoDup(found) ==> NoDup(r.found)
    ensures |found| <= |r.found| && r.found[..|found|] == found
    ensures forall x :: x in r.found ==> x in found || (x in els && check(x) == Some(true))
    decreases |els|
  {
    if |els| == 0 then Gathered(found, false)
    else if els[0] !in found && check(els[0]).None? then Gathered(found, true)
    else
      var next := if els[0] !in found && check(els[0]) == Some(true) then found + [els[0]] else found;
      var r := AddButtons(next, els[1..], check);
      assert forall x :: x in els[1..] ==> x in els;
      assert r.found[..|found|] == next[..|found|];
      r
  }

  /** The button pass throws exactly when some element not found before it
      throws in `isAcceptButton`; every accept button that comes before any
      throwing element ends up in the list. */
  lemma {:induction false} AddButtonsSpec(found: seq<El>, els: seq<El>, check: El -> Option<bool>)
    ensures var r := AddButtons(found, els, check);
      && (r.threw <==> exists k :: 0 <= k < |els| && els[k] !in found && check(els[k]).None?)
      && (forall k :: 0 <= k < |els| && check(els[k]) == Some(true) ==>
            (forall j :: 0 <= j < k ==> els[j] in found || check(els[j]).Some?) ==> els[k] in r.found)
    decreases |els|
  {
    var r := AddButtons(found, els, check);
    if |els| > 0 {
      var tail := els[1..];
      assert forall k :: 1 <= k < |els| ==> els[k] == tail[k - 1];
      if els[0] !in found && check(els[0]).None? {
        assert els[0] !in found && check(els[0]).None?;
      } else {
        var next := if els[0] !in found && check(els[0]) == Some(true) then found + [els[0]] else found;
        AddButtonsSpec(next, tail, check);
        assert r == AddButtons(next, tail, check);
        PrefixIn(next, r.found);
        assert forall x :: x in next ==> x in found || (x == els[0] && check(x) == Some(true));
        if r.threw {
          var k :| 0 <= k < |tail| && tail[k] !in next && check(tail[k]).None?;
          assert els[k + 1] !in found && check(els[k + 1]).None?;
        }
        forall k | 0 <= k < |els| && check(els[k]) == Some(true) &&
            (forall j :: 0 <= j < k ==> els[j] in found || check(els[j]).Some?)
          ensures els[k] in r.found
        {
          if k == 0 {
            assert els[0] in next;
          } else {
            assert forall j :: 0 <= j < k - 1 ==> tail[j] in next || check(tail[j]).Some?;
            assert tail[k - 1] == els[k];
          }
        }
      }
    }
  }

  /** Every query of one document in the order the script runs them: the
      accept selectors, whose matches are all taken, then the buttons, which
      are taken only when `isAcceptButton` says so. */
  function AddDocument(found: seq<El>, q: Queries, check: El -> Option<bool>): Gathered {
    AddButtons(Matched(found, q), q.buttons, check)
  }

  /** `isAcceptButton` on the element as the page shows it. */
  function Checks(page: Page): El -> Option<bool> {
    x => IsAcceptButton(page.describe(x))
  }

  /** The `found` list: the panel document first (when reachable), then the
      main document. A throw in the panel document is caught and keeps what
      it found; a throw in the main document ends `clickAcceptButtons`. */
  function Found(page: Page): (r: Gathered)
    ensures NoDup(r.found)
  {
    var fromFrame := if page.frame.Some? then AddDocument([], page.frame.value, Checks(page)).found else [];
    AddDocument(fromFrame, page.main, Checks(page))
  }

  /** The elements of `s` that `p` holds for, in order. */
  function Filter(s: seq<El>, p: El -> bool): (r: seq<El>)
    ensures |r| <= |s|
  {
    if |s| == 0 then [] else (if p(s[0]) then [s[0]] else []) + Filter(s[1..], p)
  }

  lemma {:induction false} FilterAppend(a: seq<El>, b: seq<El>, p: El -> bool)
    ensures Filter(a + b, p) == Filter(a, p) + Filter(b, p)
  {
    if |a| > 0 {
      assert (a + b)[1..] == a[1..] + b;
      FilterAppend(a[1..], b, p);
    } else {
      assert a + b == b;
    }
  }

  /** An element whose click counts: an accept button whose `click()` does
      not throw. */
  function Clicks(page: Page, throws: El -> bool): El -> bool {
    x => Checks(page)(x) == Some(true) && !throws(x)
  }

  /** The click loop: each found element is checked again; an accept button
      is clicked, and counted unless its `click()` throws (that throw is
      caught). A check that throws is not caught: it ends the loop after the
      clicks made so far. Returns the clicks counted and whether it ended by
      a throw. */
  method ClickFound(page: Page, found: seq<El>, throws: El -> bool) returns (clicked: nat, threw: bool)
    ensures threw <==> exists k :: 0 <= k < |found| && Checks(page)(found[k]).None?
    ensures !threw ==> clicked == |Filter(found, Clicks(page, throws))|
    ensures threw ==> exists n ::
      && 0 <= n < |found| && Checks(page)(found[n]).None?
      && (forall j :: 0 <= j < n ==> Checks(page)(found[j]).Some?)
      && clicked == |Filter(found[..n], Clicks(page, throws))|
    ensures clicked <= |found|
  {
    var check := Checks(page);
    var ok := Clicks(page, throws);
    clicked := 0;
    threw := false;
    var i := 0;
    while i < |found|
      invariant 0 <= i <= |found|
      invariant clicked == |Filter(found[..i], ok)|
      invariant forall j :: 0 <= j < i ==> check(found[j]).Some?
    {
      if check(found[i]).None? {
        threw := true;
        assert Checks(page)(found[i]).None?;
        return;
      }
      CountStep(found, i, ok);
      if ok(found[i]) {
        clicked := clicked + 1;
      }
      i := i + 1;
    }
    assert found[..|found|] == found;
  }

  /** Counting one more element of `found` adds one exactly when it passes. */
  lemma CountStep(found: seq<El>, i: nat, ok: El -> bool)
    requires i < |found|
    ensures |Filter(found[..i + 1], ok)| == |Filter(found[..i], ok)| + (if ok(found[i]) then 1 else 0)
  {
    FilterAppend(found[..i], [found[i]], ok);
    assert found[..i + 1] == found[..i] + [found[i]];
  }

  /** What `clickAcceptButtons()` leaves in the page: it returns
      `{clicked, found: found.length}`, or it throws after `clicked` clicks.
      A throw reaches the extension as an evaluation without a value. */
  datatype Outcome = Returned(clicked: nat, found: nat) | Threw(clicked: nat)

  /** `clickAcceptButtons()` in the page. */
  method ClickAcceptButtons(page: Page, throws: El -> bool) returns (r: Outcome)
    ensures Found(page).threw ==> r == Threw(0)
    ensures !Found(page).threw ==>
      (r.Returned? <==> forall x :: x in Found(page).found ==> Checks(page)(x).Some?)
    ensures r.Returned? ==> r == Returned(|Filter(Found(page).found, Clicks(page, throws))|, |Found(page).found|)
    ensures r.Threw? && !Found(page).threw ==> exists n ::
      && 0 <= n < |Found(page).found| && Checks(page)(Found(page).found[n]).None?
      && r.clicked == |Filter(Found(page).found[..n], Clicks(page, throws))|
    ensures r.clicked <= |Found(page).found|
  {
    var g := Found(page);
    if g.threw {
      return Threw(0);
    }
    var clicked, threw := ClickFound(page, g.found, throws);
    if threw {
      r := Threw(clicked);
    } else {
      r := Returned(clicked, |g.found|);
    }
  }

  /** Whether `x` is found when nothing throws: the panel document's
      contribution (when reachable), then the main document's. */
  predicate OnPage(page: Page, x: El) {
    InDocument(page.main, Checks(page), x) || (page.frame.Some? && InDocument(page.frame.value, Checks(page), x))
  }

  /** The found list holds each element at most once, and only elements an
      accept selector matched or accept buttons among the `button`
      elements. */
  lemma FoundSound(page: Page)
    ensures NoDup(Found(page).found)
    ensures forall x :: x in Found(page).found ==> OnPage(page, x)
  {
    var check := Checks(page);
    var fromFrame := if page.frame.Some? then AddDocument([], page.frame.value, check).found else [];
    var m := Matched(fromFrame, page.main);
    assert Found(page) == AddButtons(m, page.main.buttons, check);
  }

  /** Every element an accept selector matched is found, in either
      document, whatever `isAcceptButton` does. */
  lemma FoundSelected(page: Page)
    ensures forall x :: Selected(page.main, x) ==> x in Found(page).found
    ensures page.frame.Some? ==> forall x :: Selected(page.frame.value, x) ==> x in Found(page).found
  {
    var check := Checks(page);
    var fromFrame := if page.frame.Some? then AddDocument([], page.frame.value, check).found else [];
    if page.frame.Some? {
      var mf := Matched([], page.frame.value);
      PrefixIn(mf, fromFrame);
    }
    var m := Matched(fromFrame, page.main);
    var g := AddButtons(m, page.main.buttons, check);
    assert g == Found(page);
    PrefixIn(fromFrame, m);
    PrefixIn(m, g.found);
  }

  /** `clickAcceptButtons` throws while gathering only when a `button` of
      the main document throws in `isAcceptButton`. */
  lemma FoundThrows(page: Page)
    ensures Found(page).threw ==> !ChecksAll(page.main, Checks(page))
  {
    var fromFrame := if page.frame.Some? then AddDocument([], page.frame.value, Checks(page)).found else [];
    var m := Matched(fromFrame, page.main);
    var g := AddButtons(m, page.main.buttons, Checks(page));
    assert g == Found(page);
    AddButtonsSpec(m, page.main.buttons, Checks(page));
    if g.threw {
      var k :| 0 <= k < |page.main.buttons| && page.main.buttons[k] !in m && Checks(page)(page.main.buttons[k]).None?;
      var x := page.main.buttons[k];
      assert x in page.main.buttons && Checks(page)(x).None?;
    }
  }

  lemma EveryButtonChecked(q: Queries, check: El -> Option<bool>)
    requires ChecksAll(q, check)
    ensures forall k :: 0 <= k < |q.buttons| ==> check(q.buttons[k]).Some?
  {
    forall k | 0 <= k < |q.buttons|
      ensures check(q.buttons[k]).Some?
    {
      var x := q.buttons[k];
      assert x in q.buttons;
      assert x in q.buttons ==> check(x).Some?;
    }
  }

  /** When no `button` of either document throws, the gathering ends
      normally and the found list is exactly the selector matches and the
      accept buttons. */
  lemma FoundExact(page: Page)
    requires ChecksAll(page.main, Checks(page))
    requires page.frame.Some? ==> ChecksAll(page.frame.value, Checks(page))
    ensures !Found(page).threw
    ensures forall x :: x in Found(page).found <==> OnPage(page, x)
  {
    var check := Checks(page);
    var fromFrame := if page.frame.Some? then AddDocument([], page.frame.value, check).found else [];
    if page.frame.Some? {
      var mf := Matched([], page.frame.value);
      AddButtonsSpec(mf, page.frame.value.buttons, check);
      EveryButtonChecked(page.frame.value, check);
      PrefixIn(mf, fromFrame);
    }
    var m := Matched(fromFrame, page.main);
    var g := AddButtons(m, page.main.buttons, check);
    assert g == Found(page);
    AddButtonsSpec(m, page.main.buttons, check);
    EveryButtonChecked(page.main, check);
    PrefixIn(fromFrame, m);
    PrefixIn(m, g.found);
    FoundSound(page);
  }
}

=== FILE: cdp.dfy ===
/** lib/cdp-manager.js, the parts of `CDPManager` that do not touch the
    transport: the port scan, the choice of page target, the escaping of a
    prompt for the injected template literal, command ids, `dispose`, and
    the replies of the four guarded calls. HTTP probes, WebSocket traffic
    and the answers of the page are inputs. */
module Cdp {
  import opened Text
  import opened Json

  /** `portRange` as the constructor sets it. */
  const PortLow: int := 9001
  const PortHigh: int := 9003

  /** The manager's fields: `isConnectorActive`, `connectedSocket` (`None`
      for `null`, otherwise whether its `readyState` is OPEN), `msgId` and
      `scriptInjected`. */
  datatype Manager = Manager(active: bool, socket: Option<bool>, msgId: int, scriptInjected: bool)

  /** The state the constructor leaves. */
  const Initial: Manager := Manager(false, None, 1, false)

  // ---- findAvailableCDPPort ----

  /** Reference reading of the scan: the first port from `p` to the top of
      the range whose probe answers. */
  function FirstAnswering(answers: int -> bool, p: int): (r: Option<int>)
    ensures r.Some? ==>
      && p <= r.value <= PortHigh && answers(r.value)
      && forall q :: p <= q < r.value ==> !answers(q)
    ensures r.None? ==> forall q :: p <= q <= PortHigh ==> !answers(q)
    decreases PortHigh - p
  {
    if p > PortHigh then None
    else if answers(p) then Some(p)
    else FirstAnswering(answers, p + 1)
  }

  /** `findAvailableCDPPort()`: probes the ports in ascending order and stops
      at the first that answers. `answers(p)` is what `checkPort(p)`
      resolves to. Also returns the ports probed, in order. */
  method FindAvailablePort(answers: int -> bool) returns (port: Option<int>, probed: seq<int>)
    ensures port == FirstAnswering(answers, PortLow)
    ensures port.Some? ==> PortLow <= port.value <= PortHigh && answers(port.value)
    ensures port.None? ==> forall q :: PortLow <= q <= PortHigh ==> !answers(q)
    ensures |probed| == (if port.Some? then port.value - PortLow + 1 else PortHigh - PortLow + 1)
    ensures forall i :: 0 <= i < |probed| ==> probed[i] == PortLow + i
  {
    var p := PortLow;
    probed := [];
    while p <= PortHigh
      invariant PortLow <= p <= PortHigh + 1
      invariant FirstAnswering(answers, PortLow) == FirstAnswering(answers, p)
      invariant |probed| == p - PortLow
      invariant forall i :: 0 <= i < |probed| ==> probed[i] == PortLow + i
      decreases PortHigh - p
    {
      probed := probed + [p];
      if answers(p) {
        return Some(p), probed;
      }
      p := p + 1;
    }
    return None, probed;
  }

  // ---- findPageTarget ----

  /** What `findPageTarget` resolves or rejects with. */
  datatype Found = Target(target: Json) | NoTarget | ListError

  /** The entry has a debugger URL and is a page or a webview. */
  predicate Debuggable(t: Json) {
    && Truthy(Get(Some(t), "webSocketDebuggerUrl"))
    && Get(Some(t), "type") in {Some(JStr("page")), Some(JStr("webview"))}
  }

  /** The entry's `title` has an `includes` method: a string or an array. */
  predicate SearchableTitle(t: Json) {
    Get(Some(t), "title").Some? && (Get(Some(t), "title").value.JStr? || Get(Some(t), "title").value.JArr?)
  }

  /** The `find` predicate for one entry: `Some(b)` is its value, `None`
      means evaluating it throws (a `null` entry, or a `title` that is
      neither a string nor an array and so has no `includes`). */
  function Pick(t: Json): (r: Option<bool>)
    ensures r.None? <==> t.JNull? || (Debuggable(t) && !SearchableTitle(t))
    ensures r == Some(true) ==> Debuggable(t) && SearchableTitle(t)
  {
    if t.JNull? then None
    else if !Truthy(Get(Some(t), "webSocketDebuggerUrl")) then Some(false)
    else if Get(Some(t), "type") != Some(JStr("page")) && Get(Some(t), "type") != Some(JStr("webview")) then Some(false)
    else match Get(Some(t), "title")
      case Some(JStr(s)) => Some(!Contains(s, "Launchpad"))
      case Some(JArr(items)) => Some(JStr("Launchpad") !in items)
      case _ => None
  }

  /** `targets.find(...)` over the entries from `i` on. */
  function FindFrom(items: seq<Json>, i: nat): (r: Found)
    requires i <= |items|
    decreases |items| - i
  {
    if i == |items| then NoTarget
    else match Pick(items[i])
      case Some(true) => Target(items[i])
      case Some(false) => FindFrom(items, i + 1)
      case None => ListError
  }

  /** `findPageTarget(port)` given the parsed `/json/list` reply: anything
      but an array makes the iteration or `find` throw. It resolves to no
      target exactly when every entry is rejected without an error, and a
      target it resolves to is an entry the filter accepts. */
  function FindPageTarget(list: Json): (r: Found)
    ensures !list.JArr? ==> r == ListError
    ensures list.JArr? ==> (r.NoTarget? <==> forall j :: 0 <= j < |list.items| ==> Pick(list.items[j]) == Some(false))
    ensures r.Target? ==> r.target in list.items && Pick(r.target) == Some(true)
  {
    if list.JArr? then
      FindFromNone(list.items, 0);
      FindFromFirst(list.items, 0);
      FindFrom(list.items, 0)
    else ListError
  }

  /** The entry chosen is the first whose predicate holds, and every entry
      before it was rejected without an error; an error likewise comes from
      the first entry whose predicate throws. */
  lemma {:induction false} FindFromFirst(items: seq<Json>, i: nat)
    requires i <= |items|
    ensures var r := FindFrom(items, i);
      !r.NoTarget? ==> exists k :: (
        && i <= k < |items|
        && (forall j :: i <= j < k ==> Pick(items[j]) == Some(false))
        && (if r.Target? then items[k] == r.target && Pick(items[k]) == Some(true) else Pick(items[k]).None?))
    decreases |items| - i
  {
    if i < |items| && Pick(items[i]) == Some(false) {
      FindFromFirst(items, i + 1);
    }
  }

  /** No entry is chosen exactly when every entry is rejected without an
      error. */
  lemma {:induction false} FindFromNone(items: seq<Json>, i: nat)
    requires i <= |items|
    ensures FindFrom(items, i).NoTarget? <==> forall j :: i <= j < |items| ==> Pick(items[j]) == Some(false)
    decreases |items| - i
  {
    if i < |items| && Pick(items[i]) == Some(false) {
      FindFromNone(items, i + 1);
    }
  }

  /** A chosen target always carries a debugger URL, is a page or a webview,
      and has a string title without "Launchpad" or an array title without
      that element. */
  lemma PickedTarget(t: Json)
    requires Pick(t) == Some(true)
    ensures Truthy(Get(Some(t), "webSocketDebuggerUrl"))
    ensures Get(Some(t), "type") in {Some(JStr("page")), Some(JStr("webview"))}
    ensures match Get(Some(t), "title")
      case Some(JStr(s)) => !Contains(s, "Launchpad")
      case Some(JArr(items)) => JStr("Launchpad") !in items
      case _ => false
  {
  }

  // ---- Escaping the prompt for the template literal ----

  /** `text.replace(/\\/g, '\\\\').replace(/`/g, '\\`').replace(/\$/g, '\\$')`. */
  function TemplatePasses(text: string): string {
    ReplaceChar(ReplaceChar(ReplaceChar(text, '\\', "\\\\"), '`', "\\`"), '$', "\\$")
  }

  /** The replacement `'\\$'` ends in a `$` with nothing after it, which
      `replace` keeps as a literal `$`: the pass inserts it verbatim. */
  lemma DollarReplacementVerbatim(matched: string, before: string, after: string)
    ensures Substitute("\\$", matched, before, after) == "\\$"
  {
    assert "\\$"[1..] == "$";
    assert "$"[1..] == "";
  }

  predicate Special(c: char) {
    c == '\\' || c == '`' || c == '$'
  }

  /** The effect of the three passes on one character. */
  function EscapeChar(c: char): string {
    if Special(c) then ['\\', c] else [c]
  }

  /** The three passes escape each backslash, backtick and dollar with one
      backslash and leave every other character as it is. */
  lemma EscapeSpec(text: string)
    ensures TemplatePasses(text) == FlatMap(text, EscapeChar)
  {
    var f0: char -> string := x => [x];
    var f1: char -> string := x => ReplaceChar(f0(x), '\\', "\\\\");
    var f2: char -> string := x => ReplaceChar(f1(x), '`', "\\`");
    var f3: char -> string := x => ReplaceChar(f2(x), '$', "\\$");
    FlatMapId(text);
    FlatMapFuse(text, f0, '\\', "\\\\");
    FlatMapFuse(text, f1, '`', "\\`");
    FlatMapFuse(text, f2, '$', "\\$");
    forall i | 0 <= i < |text|
      ensures f3(text[i]) == EscapeChar(text[i])
    {
      var c := text[i];
      ReplaceCharSingle(c, '\\', "\\\\");
      if c == '\\' {
        ReplaceCharAbsent("\\\\", '`', "\\`");
        ReplaceCharAbsent("\\\\", '$', "\\$");
      } else {
        ReplaceCharSingle(c, '`', "\\`");
        if c == '`' {
          ReplaceCharAbsent("\\`", '$', "\\$");
        } else {
          ReplaceCharSingle(c, '$', "\\$");
        }
      }
    }
    FlatMapExt(text, f3, EscapeChar);
  }

  /** The escaping `injectPrompt` applies before putting the prompt into a
      template literal: a backslash before each backslash, backtick and
      dollar, every character otherwise kept, in order. */
  function EscapeTemplate(text: string): (r: string)
    ensures r == FlatMap(text, EscapeChar)
  {
    EscapeSpec(text);
    TemplatePasses(text)
  }

  /** How a template literal's cooked value reads what the escaped text can
      hold: a backslash and the character after it stand for that character,
      and a raw line break written as CR LF or as a lone CR reads as LF
      (ECMA-262 gives a template's CR LF and CR line terminator sequences
      the value LF, in both the cooked and the raw string). */
  function Cooked(e: string): string
    decreases |e|
  {
    if |e| == 0 then ""
    else if e[0] == '\\' && |e| >= 2 then [e[1]] + Cooked(e[2..])
    else if e[0] == '\r' then "\n" + Cooked(if |e| >= 2 && e[1] == '\n' then e[2..] else e[1..])
    else [e[0]] + Cooked(e[1..])
  }

  /** The text with every CR LF pair and every lone CR turned into LF. */
  function NormalizeNewlines(s: string): (r: string)
    ensures '\r' !in r
    ensures '\r' !in s ==> r == s
    decreases |s|
  {
    if |s| == 0 then ""
    else if s[0] == '\r' then "\n" + NormalizeNewlines(if |s| >= 2 && s[1] == '\n' then s[2..] else s[1..])
    else
      var rest := NormalizeNewlines(s[1..]);
      assert '\r' !in s ==> '\r' !in s[1..];
      [s[0]] + rest
  }

  /** The page receives the prompt text with its line breaks normalised to
      LF: exactly the prompt text when it holds no CR. */
  lemma {:induction false} EscapeRoundTrip(text: string)
    ensures Cooked(FlatMap(text, EscapeChar)) == NormalizeNewlines(text)
    ensures '\r' !in text ==> Cooked(FlatMap(text, EscapeChar)) == text
    decreases |text|
  {
    if |text| > 0 {
      var e := FlatMap(text, EscapeChar);
      var rest := FlatMap(text[1..], EscapeChar);
      assert e == EscapeChar(text[0]) + rest;
      if Special(text[0]) {
        EscapeRoundTrip(text[1..]);
        assert e[2..] == rest;
      } else if text[0] == '\r' {
        if |text| >= 2 && text[1] == '\n' {
          var rest2 := FlatMap(text[2..], EscapeChar);
          assert text[1..][1..] == text[2..];
          assert rest == EscapeChar(text[1]) + rest2;
          assert e[2..] == rest2;
          EscapeRoundTrip(text[2..]);
        } else {
          EscapeRoundTrip(text[1..]);
          assert e[1..] == rest;
          if |text| >= 2 {
            assert rest == EscapeChar(text[1]) + FlatMap(text[2..], EscapeChar);
            assert rest[0] == EscapeChar(text[1])[0];
          }
        }
      } else {
        EscapeRoundTrip(text[1..]);
        assert e[1..] == rest;
      }
    }
  }

  /** A prompt quoting an error with a CR LF line break reaches the page
      with a bare LF in its place. */
  lemma CarriageReturnCooked()
    ensures Cooked(FlatMap("a\r\nb", EscapeChar)) == "a\nb"
    ensures Cooked(FlatMap("a\rb", EscapeChar)) == "a\nb"
  {
    EscapeRoundTrip("a\r\nb");
    EscapeRoundTrip("a\rb");
    assert "a\r\nb"[1..][2..] == "b";
    assert "a\rb"[1..][1..] == "b";
  }

  /** Every backtick and dollar in `e` directly follows a backslash. */
  predicate Guarded(e: string) {
    forall i :: 0 <= i < |e| && (e[i] == '`' || e[i] == '$') ==> i > 0 && e[i - 1] == '\\'
  }

  /** In the escaped text, every backtick and dollar directly follows a
      backslash, so neither can end the literal or open `${`. */
  lemma {:induction false} EscapedDelimiters(text: string)
    ensures Guarded(FlatMap(text, EscapeChar))
  {
    if |text| > 0 {
      var e := FlatMap(text, EscapeChar);
      var h := EscapeChar(text[0]);
      var rest := FlatMap(text[1..], EscapeChar);
      assert e == h + rest;
      EscapedDelimiters(text[1..]);
      forall i | 0 <= i < |e| && (e[i] == '`' || e[i] == '$')
        ensures i > 0 && e[i - 1] == '\\'
      {
        if i >= |h| {
          var k := i - |h|;
          assert rest[k] == e[i];
          assert k > 0 && rest[k - 1] == '\\';
          assert e[i - 1] == rest[k - 1];
        } else {
          assert e[i] == h[i];
        }
      }
    }
  }

  /** The expression `injectPrompt` evaluates in the page. */
  function InjectExpression(text: string): string {
    "window.__antigravityForLoop.injectAndSubmit(`" + EscapeTemplate(text) + "`)"
  }

  // ---- Commands and connection bookkeeping ----

  /** `sendCommand` either rejects at once or sends a message with an id. */
  datatype Send = Rejected(error: string) | Sent(id: int)

  /** `sendCommand(method, params)` up to sending: without an open socket it
      rejects with "WebSocket not open"; otherwise it takes `msgId` as the
      message id and advances it. */
  function SendCommand(m: Manager): (r: (Send, Manager))
    ensures m.socket != Some(true) ==> r == (Rejected("WebSocket not open"), m)
    ensures m.socket == Some(true) ==> r.0 == Sent(m.msgId) && r.1.msgId > m.msgId
    ensures r.1.(msgId := m.msgId) == m
  {
    if m.socket != Some(true) then (Rejected("WebSocket not open"), m)
    else (Sent(m.msgId), m.(msgId := m.msgId + 1))
  }

  /** `dispose()`: drops the socket and clears both flags; `msgId` is kept. */
  function Dispose(m: Manager): (r: Manager)
    ensures r.socket.None? && !r.active && !r.scriptInjected
    ensures r.msgId == m.msgId
  {
    Manager(false, None, m.msgId, false)
  }

  /** Events that change the manager: a command, `dispose()`, the socket
      opening (`connectToWebSocket` resolving), failing or closing, and the
      helper script being injected. */
  datatype Event = SendEvent | DisposeEvent | Opened | Failed | Closed | HelperInjected

  function Apply(m: Manager, e: Event): Manager {
    match e
    case SendEvent => SendCommand(m).1
    case DisposeEvent => Dispose(m)
    case Opened => m.(socket := Some(true), active := true)
    case Failed => m.(socket := Some(false), active := false)
    case Closed => m.(socket := Some(false), active := false, scriptInjected := false)
    case HelperInjected => m.(scriptInjected := true)
  }

  /** The ids of the messages sent along a run of events, and the manager
      after it. */
  function IdsSent(m: Manager, es: seq<Event>): (seq<int>, Manager)
    decreases |es|
  {
    if |es| == 0 then ([], m)
    else
      var next := Apply(m, es[0]);
      var r := IdsSent(next, es[1..]);
      match (if es[0].SendEvent? then SendCommand(m).0 else Rejected(""))
      case Sent(id) => ([id] + r.0, r.1)
      case Rejected(_) => r
  }

  /** Whatever happens to the connection, message ids only grow: each id
      sent is fresh, larger than every earlier one and below the final
      `msgId`. */
  lemma {:induction false} IdsIncrease(m: Manager, es: seq<Event>)
    ensures var r := IdsSent(m, es);
      && (forall i, j :: 0 <= i < j < |r.0| ==> r.0[i] < r.0[j])
      && (forall i :: 0 <= i < |r.0| ==> m.msgId <= r.0[i] < r.1.msgId)
      && m.msgId <= r.1.msgId
    decreases |es|
  {
    if |es| > 0 {
      var next := Apply(m, es[0]);
      IdsIncrease(next, es[1..]);
      assert m.msgId <= next.msgId;
    }
  }

  // ---- The guarded calls ----

  /** The four calls that first make sure a connection exists. */
  datatype Call = InjectCall(text: string) | ClickCall | ListInputsCall | ListButtonsCall

  /** How the evaluation ended once sent: the command failed with a message,
      or resolved with `result?.result?.value` (`None` for `undefined`). */
  datatype Eval = Threw(message: string) | Value(v: Option<Json>)

  /** The reply object, the expression sent (if any) with its id, and the
      manager afterwards. */
  datatype Reply = Reply(reply: Json, sent: Option<(int, string)>, m: Manager)

  const NotConnected: string := "Could not connect to CDP"

  /** The object a call returns when something failed with `message`. */
  function ErrorReply(c: Call, message: string): Json {
    match c
    case InjectCall(_) => JObj([("success", JBool(false)), ("error", JStr(message))])
    case ClickCall => JObj([("clicked", JInt(0)), ("found", JInt(0)), ("error", JStr(message))])
    case _ => JObj([("error", JStr(message))])
  }

  /** Every error object carries its message under `error`. */
  lemma ErrorReplyCarries(c: Call, message: string)
    ensures Lookup(ErrorReply(c, message).fields, "error") == Some(JStr(message))
  {
    var f := ErrorReply(c, message).fields;
    if c.ClickCall? {
      assert Lookup(f, "error") == Lookup(f[1..], "error");
      assert Lookup(f[1..], "error") == Lookup(f[1..][1..], "error");
      assert f[1..][1..] == [("error", JStr(message))];
    } else if c.InjectCall? {
      assert f[1..] == [("error", JStr(message))];
    }
  }

  /** What a call makes of the value the page returned. */
  function ValueReply(c: Call, v: Option<Json>): Json {
    if Truthy(v) then v.value
    else match c
      case InjectCall(_) => JObj([("success", JBool(false)), ("error", JStr("No result from injection"))])
      case ClickCall => JObj([("clicked", JInt(0)), ("found", JInt(0))])
      case _ => JObj([])
  }

  function Expression(c: Call): string {
    match c
    case InjectCall(text) => InjectExpression(text)
    case ClickCall => "window.__antigravityForLoop.clickAcceptButtons()"
    case ListInputsCall => "window.__antigravityForLoop.debugListInputs()"
    case ListButtonsCall => "window.__antigravityForLoop.debugListButtons()"
  }

  // ---- tryConnect ----

  /** An open socket on an active manager: the state `tryConnect()` accepts
      as already connected. */
  predicate Connected(m: Manager) {
    m.active && m.socket == Some(true)
  }

  /** How the environment answers `tryConnect()`: no port answered or no
      debuggable target came back (or listing the targets failed); the
      WebSocket reported an error before opening; it did not open within the
      timeout; or it opened, after which the helper script's own command
      succeeds (`helperOk`) or fails if it is sent at all. */
  datatype Connect = Unreachable | SocketError | SocketTimeout | SocketOpened(helperOk: bool)

  /** `tryConnect()`: whether it resolves to true, and the manager it leaves.
      The socket is created before it opens, so a failed attempt can still
      replace it; an opened socket stays open and active even when the
      helper's command then fails, and that command takes a message id. */
  function TryConnect(m: Manager, c: Connect): (r: (bool, Manager))
    ensures Connected(m) ==> r == (true, m)
    ensures !Connected(m) ==> (r.0 <==> c.SocketOpened? && (m.scriptInjected || c.helperOk))
    ensures r.0 ==> Connected(r.1)
    ensures r.0 && !Connected(m) ==> r.1.scriptInjected
    ensures !Connected(m) && c.SocketOpened? ==> Connected(r.1)
    ensures !Connected(m) && (c.SocketError? || c.SocketTimeout?) ==> r.1.socket == Some(false) && r.1.msgId == m.msgId
    ensures !Connected(m) && c.SocketError? ==> !r.1.active
    ensures c.Unreachable? ==> r.1 == m
    ensures r.1.msgId == (if !Connected(m) && c.SocketOpened? && !m.scriptInjected then m.msgId + 1 else m.msgId)
  {
    if Connected(m) then (true, m)
    else match c
      case Unreachable => (false, m)
      case SocketError => (false, m.(socket := Some(false), active := false))
      case SocketTimeout => (false, m.(socket := Some(false)))
      case SocketOpened(ok) =>
        var m1 := m.(socket := Some(true), active := true);
        if m1.scriptInjected then (true, m1)
        else
          var m2 := SendCommand(m1).1;
          if ok then (true, m2.(scriptInjected := true)) else (false, m2)
  }

  /** The command a call sends once connected: the reply, the expression
      with its id if it was sent, and the manager afterwards. */
  function Evaluate(m: Manager, c: Call, eval: Eval): (r: Reply)
    ensures r.sent.Some? <==> m.socket == Some(true)
    ensures r.sent.Some? ==> r.sent.value == (m.msgId, Expression(c)) && r.m == m.(msgId := m.msgId + 1)
    ensures r.sent.None? ==> r == Reply(ErrorReply(c, "WebSocket not open"), None, m)
  {
    match SendCommand(m).0
    case Rejected(e) => Reply(ErrorReply(c, e), None, m)
    case Sent(id) =>
      var m1 := SendCommand(m).1;
      match eval
      case Threw(e) => Reply(ErrorReply(c, e), Some((id, Expression(c))), m1)
      case Value(v) => Reply(ValueReply(c, v), Some((id, Expression(c))), m1)
  }

  /** `injectPrompt`, `clickAcceptButtons`, `debugListInputs` and
      `debugListButtons`: only an inactive manager calls `tryConnect()`
      first, answering with the connect error when it resolves to false.
      A connection that had to inject the helper sends the call's command
      with the id after the helper's. */
  function Invoke(m: Manager, c: Call, conn: Connect, eval: Eval): (r: Reply)
    ensures !m.active && !(conn.SocketOpened? && (m.scriptInjected || conn.helperOk)) ==>
      r.sent.None? && r.reply == ErrorReply(c, NotConnected)
    ensures r.sent.Some? <==>
      (if m.active then m.socket == Some(true) else conn.SocketOpened? && (m.scriptInjected || conn.helperOk))
    ensures r.sent.Some? ==>
      && r.sent.value.1 == Expression(c)
      && r.sent.value.0 == (if !m.active && !m.scriptInjected then m.msgId + 1 else m.msgId)
      && r.m.msgId == r.sent.value.0 + 1
    ensures !m.active && conn.SocketOpened? ==> Connected(r.m)
    ensures !m.active && !conn.SocketOpened? ==> !r.m.active && r.m.msgId == m.msgId
    ensures m.active ==> r.m.(msgId := m.msgId) == m
  {
    if m.active then Evaluate(m, c, eval)
    else
      var t := TryConnect(m, conn);
      if !t.0 then Reply(ErrorReply(c, NotConnected), None, t.1)
      else Evaluate(t.1, c, eval)
  }

  /** A call that cannot connect sends nothing and answers with an error
      object naming the failure; `clickAcceptButtons` reports no clicks. An
      unreachable endpoint leaves the manager as it was, a failed socket
      leaves it inactive, and a socket that opened before the helper
      failed leaves it connected. */
  lemma NotConnectedReplies(m: Manager, c: Call, conn: Connect, eval: Eval)
    requires !m.active && !TryConnect(m, conn).0
    ensures var r := Invoke(m, c, conn, eval);
      && r.reply.JObj? && r.sent.None?
      && Lookup(r.reply.fields, "error") == Some(JStr(NotConnected))
      && (c.ClickCall? ==> Lookup(r.reply.fields, "clicked") == Some(JInt(0)))
      && (c.InjectCall? ==> Lookup(r.reply.fields, "success") == Some(JBool(false)))
      && (conn.Unreachable? ==> r.m == m)
      && (r.m.active <==> conn.SocketOpened?)
      && m.msgId <= r.m.msgId <= m.msgId + 1
  {
    ErrorReplyCarries(c, NotConnected);
  }

  /** The helper's command failing after the socket opened makes the call
      fail, yet leaves the manager active with the helper still unmarked, so
      the next call skips `tryConnect()` and sends its command straight
      away, with the id after the helper's, without the helper ever being
      injected. */
  lemma FailedHelperNotRetried(m: Manager, c: Call, eval: Eval, c2: Call, conn2: Connect, eval2: Eval)
    requires !m.active && !m.scriptInjected
    ensures var r := Invoke(m, c, SocketOpened(false), eval);
      && r.sent.None? && r.reply == ErrorReply(c, NotConnected)
      && Connected(r.m) && !r.m.scriptInjected
      && Invoke(r.m, c2, conn2, eval2).sent == Some((m.msgId + 1, Expression(c2)))
  {
  }

  /** Every failing call answers with an object carrying the error, never by
      throwing; a successful send carries the escaped prompt for
      `injectPrompt`. */
  lemma InvokeReplies(m: Manager, c: Call, conn: Connect, eval: Eval)
    ensures var r := Invoke(m, c, conn, eval);
      && (eval.Threw? && r.sent.Some? ==> Lookup(r.reply.fields, "error") == Some(JStr(eval.message)))
      && (c.InjectCall? && r.sent.Some? ==>
            r.sent.value.1 == "window.__antigravityForLoop.injectAndSubmit(`" + FlatMap(c.text, EscapeChar) + "`)")
  {
    if eval.Threw? {
      ErrorReplyCarries(c, eval.message);
    }
  }
}

=== FILE: config.dfy ===
/** The options a `RalphLoop` is constructed with (lib/ralph-loop.js,
    constructor): every option falls back to its default through `||`, so a
    falsy value (missing, `0`, empty string) takes the default as well. */
module Config {
  import opened Text

  /** Options as the caller passes them; `None` is a missing option. */
  datatype RawOptions = RawOptions(
    maxIterations: Option<int>,
    testCommand: Option<string>,
    completionPromise: Option<string>,
    taskDescription: Option<string>,
    pollInterval: Option<int>,
    aiTimeout: Option<int>,
    autoAcceptInterval: Option<int>,
    customInstructions: Option<string>)

  /** Options after defaulting. `testCommand` and `customInstructions` are
      `None` for JavaScript's `null`. */
  datatype Options = Options(
    maxIterations: int,
    testCommand: Option<string>,
    completionPromise: string,
    taskDescription: string,
    pollInterval: int,
    aiTimeout: int,
    autoAcceptInterval: int,
    customInstructions: Option<string>)

  const DefaultMaxIterations: int := 10
  const DefaultCompletionPromise: string := "DONE"
  const DefaultPollInterval: int := 2000
  /** The code's value: 3000000 ms, fifty minutes, although the comment beside
      it says five minutes and the unit test expects 300000. */
  const DefaultAiTimeout: int := 3000000
  const DefaultAutoAcceptInterval: int := 500

  const NoOptions: RawOptions := RawOptions(None, None, None, None, None, None, None, None)

  /** `value || fallback` for a number. */
  function OrInt(v: Option<int>, fallback: int): int {
    if v.Some? && v.value != 0 then v.value else fallback
  }

  /** `value || fallback` for a string. */
  function OrStr(v: Option<string>, fallback: string): string {
    if v.Some? && v.value != "" then v.value else fallback
  }

  /** `value || null` for a string. */
  function OrNull(v: Option<string>): Option<string> {
    if v.Some? && v.value != "" then v else None
  }

  predicate WellFormed(o: Options) {
    && o.maxIterations != 0
    && o.completionPromise != ""
    && (o.testCommand.Some? ==> o.testCommand.value != "")
    && (o.customInstructions.Some? ==> o.customInstructions.value != "")
  }

  /** A number option given with a truthy value. */
  predicate GivenInt(v: Option<int>) {
    v.Some? && v.value != 0
  }

  /** A string option given with a truthy value. */
  predicate GivenStr(v: Option<string>) {
    v.Some? && v.value != ""
  }

  /** The constructor's defaulting: a given truthy option is kept, anything
      falsy takes the default, so the result is never empty where the loop
      relies on a value. */
  function MakeOptions(raw: RawOptions): (o: Options)
    ensures WellFormed(o)
    ensures GivenInt(raw.maxIterations) ==> o.maxIterations == raw.maxIterations.value
    ensures !GivenInt(raw.maxIterations) ==> o.maxIterations == 10
    ensures GivenStr(raw.completionPromise) ==> o.completionPromise == raw.completionPromise.value
    ensures !GivenStr(raw.completionPromise) ==> o.completionPromise == "DONE"
    ensures GivenStr(raw.taskDescription) ==> o.taskDescription == raw.taskDescription.value
    ensures !GivenStr(raw.taskDescription) ==> o.taskDescription == ""
    ensures GivenInt(raw.pollInterval) ==> o.pollInterval == raw.pollInterval.value
    ensures !GivenInt(raw.pollInterval) ==> o.pollInterval == 2000
    ensures GivenInt(raw.aiTimeout) ==> o.aiTimeout == raw.aiTimeout.value
    ensures !GivenInt(raw.aiTimeout) ==> o.aiTimeout == 3000000
    ensures GivenInt(raw.autoAcceptInterval) ==> o.autoAcceptInterval == raw.autoAcceptInterval.value
    ensures !GivenInt(raw.autoAcceptInterval) ==> o.autoAcceptInterval == 500
    ensures o.testCommand.Some? <==> GivenStr(raw.testCommand)
    ensures o.testCommand.Some? ==> o.testCommand == raw.testCommand
    ensures o.customInstructions.Some? <==> GivenStr(raw.customInstructions)
    ensures o.customInstructions.Some? ==> o.customInstructions == raw.customInstructions
  {
    Options(
      OrInt(raw.maxIterations, DefaultMaxIterations),
      OrNull(raw.testCommand),
      OrStr(raw.completionPromise, DefaultCompletionPromise),
      OrStr(raw.taskDescription, ""),
      OrInt(raw.pollInterval, DefaultPollInterval),
      OrInt(raw.aiTimeout, DefaultAiTimeout),
      OrInt(raw.autoAcceptInterval, DefaultAutoAcceptInterval),
      OrNull(raw.customInstructions))
  }
}

=== FILE: continuation.dfy ===
/** extension.js: the continuation prompt offered when a check says the work
    is not finished, the classification of the check script's output, and
    the clean-up of a state file left behind by an interrupted session.
    The state is the JSON value read from the state file. */
module Continuation {
  import opened Text
  import opened Json

  // ---- The continuation template ----
  // The template text is kept in short pieces: each piece is shown free of
  // '{' on its own, which is what makes the first occurrence of each
  // placeholder the placeholder itself.

  const IterationToken: string := "{{ITERATION}}"
  const MaxToken: string := "{{MAX}}"
  const TaskToken: string := "{{TASK}}"
  const TestCmdToken: string := "{{TEST_CMD}}"
  const ErrorToken: string := "{{ERROR}}"

  const Opening: string := "[SYSTEM - LOOP CONTINUATION " + "REQUIRED - ITERATION "
  const Slash: string := "/"
  /** The second line starts with the characters U+00E2 U+0161 U+00A0 U+00EF
      U+00B8: a warning sign whose UTF-8 bytes were decoded as Windows-1252
      when the file was written. They are part of the prompt as shipped. */
  const Warning: string := "]\n\n" + "\U{00E2}\U{0161}\U{00A0}\U{00EF}\U{00B8}"
    + " The test has NOT passed yet." + " You MUST continue working."
  const RulesHeading: string := "\n\nIMPORTANT RULES:\n"
  const Rule1: string := "1. DO NOT stop - " + "the task is NOT complete\n"
  const Rule2: string := "2. Review your previous " + "changes\n"
  const Rule3: string := "3. Fix the remaining issues\n"
  const Rule4: string := "4. After making changes, " + "run: bash ./commands/" + "check-completion.sh\n"
  const Rule5: string := "5. Only stop when you see " + "\"DONE\" output\n\n"
  const TaskLine: string := "Current Task: "
  const TestLine: string := "\nTest Command: "
  const ErrorLine: string := "\nLast Error: "
  const Closing: string := "\n\nContinue fixing the code " + "now. Do not ask for permission."

  /** Everything between `{{MAX}}` and `{{TASK}}`. */
  const Directions: string := Warning + (RulesHeading + (Rule1 + (Rule2 + (Rule3 + (Rule4 + (Rule5 + TaskLine))))))

  /** `CONTINUATION_PROMPT_TEMPLATE`. */
  const Template: string := Opening + (IterationToken + (Slash + (MaxToken + (Directions + (TaskToken
    + (TestLine + (TestCmdToken + (ErrorLine + (ErrorToken + Closing)))))))))

  lemma OpeningPlain()
    ensures '{' !in Opening
  {
  }

  lemma WarningPlain()
    ensures '{' !in Warning
  {
  }

  lemma Rule1Plain()
    ensures '{' !in Rule1
  {
  }

  lemma Rule2Plain()
    ensures '{' !in Rule2
  {
  }

  lemma Rule3Plain()
    ensures '{' !in Rule3
  {
  }

  lemma Rule4Plain()
    ensures '{' !in Rule4
  {
  }

  lemma Rule5Plain()
    ensures '{' !in Rule5
  {
  }

  lemma DirectionsPlain()
    ensures '{' !in Directions
  {
    WarningPlain();
    Rule1Plain();
    Rule2Plain();
    Rule3Plain();
    Rule4Plain();
    Rule5Plain();
  }

  /** The five values put into the template, in template order. */
  datatype Slots = Slots(iteration: string, max: string, task: string, testCommand: string, error: string)

  /** `v || fallback` passed as a replacement, which `replace` turns into a
      string. */
  function OrDefault(v: Option<Json>, fallback: string): (r: string)
    ensures Truthy(v) ==> r == ToStr(v.value)
    ensures !Truthy(v) ==> r == fallback
  {
    if Truthy(v) then ToStr(v.value) else fallback
  }

  /** The values for a state: `iteration`, `max_iterations`,
      `original_prompt` and `test_command` of the state, the error text given
      by the caller (`null` is `None`), each with its default. */
  function SlotValues(state: Json, errorInfo: Option<string>): Slots {
    Slots(
      OrDefault(Get(Some(state), "iteration"), "1"),
      OrDefault(Get(Some(state), "max_iterations"), "10"),
      OrDefault(Get(Some(state), "original_prompt"), "Fix all errors"),
      OrDefault(Get(Some(state), "test_command"), "npm test"),
      if errorInfo.Some? && errorInfo.value != "" then errorInfo.value else "Tests still failing")
  }

  /** The five chained `replace` calls, each replacing the first occurrence
      of its placeholder in the text the previous one produced. */
  function Fill(t: string, v: Slots): string {
    var t1 := ReplaceFirst(t, IterationToken, v.iteration);
    var t2 := ReplaceFirst(t1, MaxToken, v.max);
    var t3 := ReplaceFirst(t2, TaskToken, v.task);
    var t4 := ReplaceFirst(t3, TestCmdToken, v.testCommand);
    ReplaceFirst(t4, ErrorToken, v.error)
  }

  /** `generateContinuationPrompt(state, errorInfo)`: `null` for a falsy
      state, otherwise the filled template. */
  function GenerateContinuationPrompt(state: Option<Json>, errorInfo: Option<string>): (r: Option<string>)
    ensures r.None? <==> !Truthy(state)
  {
    if !Truthy(state) then None else Some(Fill(Template, SlotValues(state.value, errorInfo)))
  }

  /** The prompt as a reader expects it: each value standing where its
      placeholder was. */
  function Layout(v: Slots): string {
    Opening + (v.iteration + (Slash + (v.max + (Directions + (v.task
      + (TestLine + (v.testCommand + (ErrorLine + (v.error + Closing)))))))))
  }

  /** Values that `replace` inserts verbatim (no `$` pattern) and that cannot
      be mistaken for a later placeholder. */
  predicate Clean(v: Slots) {
    && '$' !in v.iteration && '$' !in v.max && '$' !in v.task && '$' !in v.testCommand && '$' !in v.error
    && '{' !in v.iteration && '{' !in v.max && '{' !in v.task && '{' !in v.testCommand
  }

  /** Replacing the first occurrence of a placeholder that starts with '{'
      after a prefix without '{'. */
  lemma ReplaceAfterPlain(p: string, t: string, r: string, v: string)
    requires |t| > 0 && t[0] == '{' && '{' !in p && '$' !in v
    ensures ReplaceFirst(p + (t + r), t, v) == p + (v + r)
  {
    var x := p + (t + r);
    assert x[|p|..|p| + |t|] == t;
    forall j | 0 <= j < |p|
      ensures !OccursAt(x, t, j)
    {
      if j + |t| <= |x| {
        assert x[j..j + |t|][0] == p[j];
      }
    }
    var i := IndexOf(x, t);
    assert OccursAt(x, t, |p|);
    assert i.Some? && i.value <= |p|;
    assert i.value == |p|;
    ReplaceFirstSpec(x, t, v);
    assert x[..|p|] == p;
    assert x[|p| + |t|..] == r;
  }

  /** Moves a value and the text after it from the tail onto the prefix. */
  lemma Shift(p: string, v: string, s: string, rest: string)
    ensures p + (v + (s + rest)) == (p + (v + s)) + rest
  {
    ConcatAssoc(v, s, rest);
    ConcatAssoc(p, v + s, rest);
  }

  /** The chained replacements over any text laid out like the template. */
  lemma FillLayout(a: string, b: string, c: string, d: string, e: string, f: string, v: Slots)
    requires '{' !in a && '{' !in b && '{' !in c && '{' !in d && '{' !in e
    requires Clean(v)
    ensures Fill(a + (IterationToken + (b + (MaxToken + (c + (TaskToken + (d + (TestCmdToken + (e + (ErrorToken + f))))))))), v)
         == a + (v.iteration + (b + (v.max + (c + (v.task + (d + (v.testCommand + (e + (v.error + f)))))))))
  {
    var r4 := e + (ErrorToken + f);
    var r3 := d + (TestCmdToken + r4);
    var r2 := c + (TaskToken + r3);
    var r1 := b + (MaxToken + r2);
    var p2 := a + (v.iteration + b);
    var p3 := p2 + (v.max + c);
    var p4 := p3 + (v.task + d);
    var p5 := p4 + (v.testCommand + e);
    ReplaceAfterPlain(a, IterationToken, r1, v.iteration);
    Shift(a, v.iteration, b, MaxToken + r2);
    ReplaceAfterPlain(p2, MaxToken, r2, v.max);
    Shift(p2, v.max, c, TaskToken + r3);
    ReplaceAfterPlain(p3, TaskToken, r3, v.task);
    Shift(p3, v.task, d, TestCmdToken + r4);
    ReplaceAfterPlain(p4, TestCmdToken, r4, v.testCommand);
    Shift(p4, v.testCommand, e, ErrorToken + f);
    ReplaceAfterPlain(p5, ErrorToken, f, v.error);
    var w5 := v.error + f;
    var w4 := v.testCommand + (e + w5);
    var w3 := v.task + (d + w4);
    var w2 := v.max + (c + w3);
    Shift(p4, v.testCommand, e, w5);
    Shift(p3, v.task, d, w4);
    Shift(p2, v.max, c, w3);
    Shift(a, v.iteration, b, w2);
  }

  /** With values free of `$` and '{', the prompt is the template with each
      placeholder replaced by its value. */
  lemma PromptFillsSlots(state: Json, errorInfo: Option<string>)
    requires Truthy(Some(state))
    requires Clean(SlotValues(state, errorInfo))
    ensures GenerateContinuationPrompt(Some(state), errorInfo) == Some(Layout(SlotValues(state, errorInfo)))
  {
    OpeningPlain();
    DirectionsPlain();
    FillLayout(Opening, Slash, Directions, TestLine, ErrorLine, Closing, SlotValues(state, errorInfo));
  }

  /** A decimal number contains neither `$` nor '{'. */
  lemma IntToStringClean(n: int)
    ensures '$' !in IntToString(n) && '{' !in IntToString(n)
  {
    var s := NatToString(if n < 0 then -n else n);
    assert '$' !in s && '{' !in s;
  }

  /** The values every default stands for. */
  const DefaultSlots: Slots := Slots("1", "10", "Fix all errors", "npm test", "Tests still failing")

  lemma DefaultsClean()
    ensures Clean(DefaultSlots)
  {
  }

  /** An empty state object and no error text select every default. */
  lemma EmptyStateSlots(errorInfo: Option<string>)
    requires errorInfo.None? || errorInfo.value == ""
    ensures SlotValues(JObj([]), errorInfo) == DefaultSlots
  {
  }

  /** An empty state object and no error text give the template filled with
      the defaults. */
  lemma DefaultsFill(errorInfo: Option<string>)
    requires errorInfo.None? || errorInfo.value == ""
    ensures GenerateContinuationPrompt(Some(JObj([])), errorInfo) == Some(Layout(DefaultSlots))
  {
    EmptyStateSlots(errorInfo);
    DefaultsClean();
    PromptFillsSlots(JObj([]), errorInfo);
  }

  // ---- The check script's verdict ----

  datatype Verdict = Done | Stuck | Continue | Unknown

  /** The verdict, the new value of the module-level `lastCheckResult`
      (`None` for `null`) and whether the continuation enforcer fires. */
  datatype CheckOutcome = CheckOutcome(verdict: Verdict, lastCheckResult: Option<string>, triggered: bool)

  /** `handleCheckResult(stdout, stderr, state)`: looks for the keywords in
      the lower-cased standard output. `hasState` is the truthiness of
      `state`, `enforcer` the module flag `continuationEnforcerEnabled`,
      `last` the previous `lastCheckResult`. */
  function HandleCheckResult(stdout: string, stderr: string, hasState: bool, enforcer: bool, last: Option<string>): (r: CheckOutcome)
    ensures r.verdict == Done ==> r.lastCheckResult == Some("DONE")
    ensures r.verdict in {Stuck, Continue} ==>
      r.lastCheckResult == Some(if stderr != "" then stderr else stdout)
    ensures r.verdict == Unknown ==> r.lastCheckResult == last
    ensures r.triggered <==> r.verdict == Continue && enforcer && hasState
  {
    var output := ToLower(stdout);
    if Contains(output, "done") then CheckOutcome(Done, Some("DONE"), false)
    else if Contains(output, "stuck") then CheckOutcome(Stuck, Some(if stderr != "" then stderr else stdout), false)
    else if Contains(output, "continue") then
      CheckOutcome(Continue, Some(if stderr != "" then stderr else stdout), enforcer && hasState)
    else CheckOutcome(Unknown, last, false)
  }

  /** The keywords in order of precedence and the verdict each stands for. */
  const Keywords: seq<(string, Verdict)> := [("done", Done), ("stuck", Stuck), ("continue", Continue)]

  /** Reference reading: the verdict of the first keyword in the list that
      occurs in the text, `Unknown` if none does. */
  function FirstKeyword(text: string, ks: seq<(string, Verdict)>): (v: Verdict)
    ensures v == Unknown <==> forall i :: 0 <= i < |ks| && ks[i].1 != Unknown ==> !Contains(text, ks[i].0)
  {
    if |ks| == 0 then Unknown
    else if Contains(text, ks[0].0) && ks[0].1 != Unknown then ks[0].1
    else
      var v := FirstKeyword(text, ks[1..]);
      assert forall i :: 1 <= i < |ks| ==> ks[i] == ks[1..][i - 1];
      v
  }

  /** The verdict is the first keyword, in the order done, stuck, continue,
      found in the lower-cased standard output; the error output never
      changes it. */
  lemma VerdictByPrecedence(stdout: string, stderr: string, hasState: bool, enforcer: bool, last: Option<string>)
    ensures HandleCheckResult(stdout, stderr, hasState, enforcer, last).verdict == FirstKeyword(ToLower(stdout), Keywords)
  {
    var t := ToLower(stdout);
    var k2 := [("stuck", Stuck), ("continue", Continue)];
    var k3 := [("continue", Continue)];
    assert Keywords[1..] == k2 && k2[1..] == k3 && k3[1..] == [];
    assert FirstKeyword(t, k3) == if Contains(t, "continue") then Continue else Unknown;
    assert FirstKeyword(t, k2) == if Contains(t, "stuck") then Stuck else FirstKeyword(t, k3);
  }

  /** Two calls that differ only in the error output reach the same verdict. */
  lemma VerdictIgnoresStderr(stdout: string, e1: string, e2: string, hasState: bool, enforcer: bool, last: Option<string>)
    ensures HandleCheckResult(stdout, e1, hasState, enforcer, last).verdict
         == HandleCheckResult(stdout, e2, hasState, enforcer, last).verdict
  {
    VerdictByPrecedence(stdout, e1, hasState, enforcer, last);
    VerdictByPrecedence(stdout, e2, hasState, enforcer, last);
  }

  // ---- Stale state on start-up ----

  const StaleMessage: string := "Loop stopped unexpectedly (window reload?)"
  const StaleError: string := "Session interrupted"

  /** A state left `running` or `paused` by a session that did not end. */
  predicate Stale(state: Option<Json>) {
    Truthy(state) && (Get(state, "status") == Some(JStr("running")) || Get(state, "status") == Some(JStr("paused")))
  }

  /** `resetStaleState()` given what `readState()` returned: the state it
      saves, or `None` when it saves nothing. */
  function ResetStaleState(state: Option<Json>): (r: Option<Json>)
    ensures r.Some? <==> Stale(state)
    ensures r.Some? ==>
      && state.value.JObj? && r.value.JObj?
      && Lookup(r.value.fields, "status") == Some(JStr("failed"))
      && Lookup(r.value.fields, "message") == Some(JStr(StaleMessage))
      && Lookup(r.value.fields, "last_error") == Some(JStr(StaleError))
      && (forall k :: k !in ["status", "message", "last_error"] ==>
            Lookup(r.value.fields, k) == Lookup(state.value.fields, k))
  {
    if Stale(state) then
      var f1 := Put(state.value.fields, "status", JStr("failed"));
      var f2 := Put(f1, "message", JStr(StaleMessage));
      Some(JObj(Put(f2, "last_error", JStr(StaleError))))
    else None
  }

  /** A reset state is no longer stale: a second start-up writes nothing. */
  lemma ResetSettles(state: Option<Json>)
    requires Stale(state)
    ensures ResetStaleState(ResetStaleState(state)).None?
  {
    var r := ResetStaleState(state).value;
    assert Get(Some(r), "status") == Some(JStr("failed"));
  }
}

=== FILE: detect.dfy ===
/** `detectTestCommand` and `detectAllCommands` in extension.js: a table of
    rules over what the workspace root holds, each rule pushing candidate
    commands with a priority, and a stable sort that puts the highest
    priority first. The file system is an input: which names exist at the
    root, the root's listing, and what the two JSON manifests parse to. */
module Detect {
  import opened Text
  import opened Json

  /** What the rules can see of the workspace root: the names `existsSync`
      finds there (files and directories alike), the names `readdirSync`
      lists (`None` when it throws), and what `package.json` and
      `composer.json` parse to (`JNull` when missing or unparsable, as
      `readJson` returns `null` then). */
  datatype Project = Project(
    present: set<string>,
    listing: Option<seq<string>>,
    package: Json,
    composer: Json)

  /** One pushed candidate: `{cmd, type, lang, priority}`. */
  datatype Candidate = Candidate(cmd: string, kind: string, lang: string, priority: int)

  predicate Exists(p: Project, name: string) {
    name in p.present
  }

  predicate EndsWith(s: string, suffix: string) {
    |suffix| <= |s| && s[|s| - |suffix|..] == suffix
  }

  /** `findFile(/\.ext$/)`: some listed name ends in the extension. */
  predicate FindFile(p: Project, ext: string) {
    p.listing.Some? && exists i :: 0 <= i < |p.listing.value| && EndsWith(p.listing.value[i], ext)
  }

  /** `pkg?.scripts?.<name>` */
  function Script(manifest: Json, name: string): Option<Json> {
    Get(Get(Some(manifest), "scripts"), name)
  }

  const Placeholder: string := "echo \"Error: no test specified\" && exit 1"

  /** A `test` script that is set and is not the one `npm init` writes. */
  predicate RealTestScript(manifest: Json) {
    Truthy(Script(manifest, "test")) && Script(manifest, "test") != Some(JStr(Placeholder))
  }

  // ---- The rule groups, in the order the function runs them ----

  function JavaScript(p: Project): seq<Candidate> {
    if !Exists(p, "package.json") then []
    else
      (if RealTestScript(p.package) then [Candidate("npm test", "npm", "JavaScript/TypeScript", 10)] else [])
      + (if Truthy(Script(p.package, "build")) then [Candidate("npm run build", "build", "JavaScript/TypeScript", 5)] else [])
      + (if Truthy(Script(p.package, "lint")) then [Candidate("npm run lint", "lint", "JavaScript/TypeScript", 3)] else [])
  }

  function DenoBun(p: Project): seq<Candidate> {
    (if Exists(p, "deno.json") || Exists(p, "deno.jsonc") then [Candidate("deno test", "deno", "Deno", 10)] else [])
    + (if Exists(p, "bun.lockb") then [Candidate("bun test", "bun", "Bun", 10)] else [])
  }

  predicate PythonProject(p: Project) {
    Exists(p, "pyproject.toml") || Exists(p, "setup.py") || Exists(p, "requirements.txt") || Exists(p, "Pipfile")
  }

  function Python(p: Project): seq<Candidate> {
    if !PythonProject(p) then []
    else
      [if Exists(p, "pytest.ini") || Exists(p, "pyproject.toml") then Candidate("pytest", "pytest", "Python", 10)
       else if Exists(p, "tox.ini") then Candidate("tox", "tox", "Python", 10)
       else Candidate("python -m pytest", "python", "Python", 8)]
      + (if Exists(p, "mypy.ini") || Exists(p, "pyproject.toml") then [Candidate("mypy .", "mypy", "Python", 5)] else [])
  }

  function RustGo(p: Project): seq<Candidate> {
    (if Exists(p, "Cargo.toml") then
       [Candidate("cargo test", "cargo", "Rust", 10), Candidate("cargo build", "cargo-build", "Rust", 5),
        Candidate("cargo clippy", "clippy", "Rust", 3)]
     else [])
    + (if Exists(p, "go.mod") then
         [Candidate("go test ./...", "go", "Go", 10), Candidate("go build ./...", "go-build", "Go", 5),
          Candidate("golangci-lint run", "golint", "Go", 3)]
       else [])
  }

  function Jvm(p: Project): seq<Candidate> {
    (if Exists(p, "pom.xml") then
       [Candidate("mvn test", "maven", "Java/Kotlin", 10), Candidate("mvn compile", "maven-build", "Java/Kotlin", 5)]
     else [])
    + (if Exists(p, "build.gradle") || Exists(p, "build.gradle.kts") then
         [Candidate("./gradlew test", "gradle", "Java/Kotlin", 10), Candidate("./gradlew build", "gradle-build", "Java/Kotlin", 5)]
       else [])
  }

  function Ruby(p: Project): seq<Candidate> {
    if !Exists(p, "Gemfile") then []
    else if Exists(p, ".rspec") || Exists(p, "spec") then [Candidate("bundle exec rspec", "rspec", "Ruby", 10)]
    else if Exists(p, "Rakefile") then [Candidate("bundle exec rake test", "rake", "Ruby", 10)]
    else [Candidate("bundle exec rake", "ruby", "Ruby", 8)]
  }

  function DotNetPhp(p: Project): seq<Candidate> {
    (if FindFile(p, ".sln") || FindFile(p, ".csproj") || FindFile(p, ".fsproj") then
       [Candidate("dotnet test", "dotnet", ".NET", 10), Candidate("dotnet build", "dotnet-build", ".NET", 5)]
     else [])
    + (if !Exists(p, "composer.json") then []
       else
         (if Exists(p, "phpunit.xml") || Exists(p, "phpunit.xml.dist") then
            [Candidate("./vendor/bin/phpunit", "phpunit", "PHP", 10)] else [])
         + (if Truthy(Script(p.composer, "test")) then [Candidate("composer test", "composer", "PHP", 9)] else []))
  }

  function Apple(p: Project): seq<Candidate> {
    (if Exists(p, "Package.swift") then
       [Candidate("swift test", "swift", "Swift", 10), Candidate("swift build", "swift-build", "Swift", 5)]
     else [])
    + (if FindFile(p, ".xcodeproj") || FindFile(p, ".xcworkspace") then
         [Candidate("xcodebuild test", "xcode", "Swift/ObjC", 8)]
       else [])
  }

  function Dart(p: Project): seq<Candidate> {
    if !Exists(p, "pubspec.yaml") then []
    else
      (if !Exists(p, "test") then []
       else if Exists(p, "android") || Exists(p, "ios") then [Candidate("flutter test", "flutter", "Flutter", 10)]
       else [Candidate("dart test", "dart", "Dart", 10)])
      + [Candidate("dart analyze", "dart-analyze", "Dart", 5)]
  }

  function Functional(p: Project): seq<Candidate> {
    (if Exists(p, "mix.exs") then [Candidate("mix test", "elixir", "Elixir", 10)] else [])
    + (if Exists(p, "rebar.config") then [Candidate("rebar3 eunit", "erlang", "Erlang", 10)] else [])
    + (if Exists(p, "stack.yaml") then [Candidate("stack test", "stack", "Haskell", 10)] else [])
    + (if Exists(p, "cabal.project") || FindFile(p, ".cabal") then [Candidate("cabal test", "cabal", "Haskell", 9)] else [])
    + (if Exists(p, "build.sbt") then [Candidate("sbt test", "sbt", "Scala", 10)] else [])
    + (if Exists(p, "project.clj") then [Candidate("lein test", "lein", "Clojure", 10)] else [])
    + (if Exists(p, "deps.edn") then [Candidate("clj -X:test", "clojure", "Clojure", 9)] else [])
  }

  function Native(p: Project): seq<Candidate> {
    (if Exists(p, "CMakeLists.txt") then
       [Candidate("cmake --build build && ctest --test-dir build", "cmake", "C/C++", 10)] else [])
    + (if Exists(p, "meson.build") then [Candidate("meson test -C build", "meson", "C/C++", 10)] else [])
    + (if Exists(p, "conanfile.txt") || Exists(p, "conanfile.py") then
         [Candidate("conan build . && ctest", "conan", "C/C++", 8)] else [])
    + (if Exists(p, "build.zig") then [Candidate("zig build test", "zig", "Zig", 10)] else [])
    + (if FindFile(p, ".nimble") then [Candidate("nimble test", "nim", "Nim", 10)] else [])
    + (if Exists(p, "v.mod") then [Candidate("v test .", "vlang", "V", 10)] else [])
    + (if Exists(p, "dune-project") then [Candidate("dune runtest", "dune", "OCaml", 10)] else [])
  }

  function BuildTools(p: Project): seq<Candidate> {
    (if Exists(p, "Makefile") || Exists(p, "makefile") || Exists(p, "GNUmakefile") then
       [Candidate("make test", "make", "Make", 6), Candidate("make", "make-build", "Make", 4)] else [])
    + (if Exists(p, "justfile") || Exists(p, "Justfile") then [Candidate("just test", "just", "Just", 7)] else [])
    + (if Exists(p, "Taskfile.yml") || Exists(p, "Taskfile.yaml") then [Candidate("task test", "task", "Task", 7)] else [])
    + (if Exists(p, "Earthfile") then [Candidate("earthly +test", "earthly", "Earthly", 7)] else [])
    + (if Exists(p, "BUILD.bazel") || Exists(p, "WORKSPACE") then [Candidate("bazel test //...", "bazel", "Bazel", 8)] else [])
    + (if Exists(p, "pants.toml") then [Candidate("pants test ::", "pants", "Pants", 8)] else [])
  }

  /** The `detected` list before sorting, in push order. */
  function Candidates(p: Project): seq<Candidate> {
    JavaScript(p) + DenoBun(p) + Python(p) + RustGo(p) + Jvm(p) + Ruby(p) + DotNetPhp(p)
    + Apple(p) + Dart(p) + Functional(p) + Native(p) + BuildTools(p)
  }

  // ---- The stable sort ----

  /** Descending by priority. */
  predicate Descending(s: seq<Candidate>) {
    forall i, j :: 0 <= i < j < |s| ==> s[i].priority >= s[j].priority
  }

  /** Puts `x` after everything of higher priority in `t` and before
      everything else: `x` was pushed before all of `t`, so it goes first
      among equals. */
  function Insert(x: Candidate, t: seq<Candidate>): (r: seq<Candidate>)
    requires Descending(t)
    ensures Descending(r)
    ensures multiset(r) == multiset(t) + multiset{x}
    ensures |t| == 0 || t[0].priority <= x.priority ==> r == [x] + t
    ensures |t| > 0 && t[0].priority > x.priority ==> r[0] == t[0]
  {
    if |t| == 0 || t[0].priority <= x.priority then [x] + t
    else
      DescendingTail(t);
      var rest := Insert(x, t[1..]);
      assert t == [t[0]] + t[1..];
      InsertHeads(x, t, rest);
      [t[0]] + rest
  }

  /** `t[0]` may go in front of the insertion into the rest of `t`. */
  lemma InsertHeads(x: Candidate, t: seq<Candidate>, rest: seq<Candidate>)
    requires Descending(t) && |t| > 0 && t[0].priority > x.priority
    requires Descending(rest) && multiset(rest) == multiset(t[1..]) + multiset{x}
    ensures Descending([t[0]] + rest)
  {
    forall j | 0 <= j < |rest|
      ensures t[0].priority >= rest[j].priority
    {
      assert rest[j] in multiset(rest);
      if rest[j] != x {
        assert rest[j] in multiset(t[1..]);
        var k :| 0 <= k < |t[1..]| && t[1..][k] == rest[j];
        assert t[k + 1] == rest[j];
      }
    }
    var r := [t[0]] + rest;
    forall i, j | 0 <= i < j < |r|
      ensures r[i].priority >= r[j].priority
    {
      assert r[j] == rest[j - 1];
      if i > 0 {
        assert r[i] == rest[i - 1];
      }
    }
  }

  /** `detected.sort((a, b) => b.priority - a.priority)`, which is stable. */
  function SortByPriority(s: seq<Candidate>): (r: seq<Candidate>)
    ensures Descending(r)
    ensures multiset(r) == multiset(s)
  {
    if |s| == 0 then []
    else
      assert s == [s[0]] + s[1..];
      Insert(s[0], SortByPriority(s[1..]))
  }

  /** The reference reading of "first after a stable descending sort": the
      position of the earliest candidate of the highest priority. */
  function BestIndex(s: seq<Candidate>): (i: nat)
    requires |s| > 0
    ensures i < |s|
    ensures forall j :: 0 <= j < |s| ==> s[j].priority <= s[i].priority
    ensures forall j :: 0 <= j < i ==> s[j].priority < s[i].priority
  {
    if |s| == 1 then 0
    else
      var k := BestIndex(s[1..]);
      assert forall j :: 1 <= j < |s| ==> s[j] == s[1..][j - 1];
      if s[0].priority >= s[k + 1].priority then 0 else k + 1
  }

  function Best(s: seq<Candidate>): Candidate
    requires |s| > 0
  {
    s[BestIndex(s)]
  }

  /** The head of the sorted list is `Best`: equal priorities keep their
      push order. */
  lemma {:induction false} SortedHead(s: seq<Candidate>)
    requires |s| > 0
    ensures SortByPriority(s)[0] == Best(s)
  {
    if |s| > 1 {
      SortedHead(s[1..]);
    }
  }

  /** The choice `detectTestCommand` makes: `null` without candidates, else
      the head of the sorted list, which is the earliest pushed candidate of
      the highest priority. */
  function Choose(s: seq<Candidate>): (r: Option<Candidate>)
    ensures r.None? <==> |s| == 0
    ensures r.Some? ==> r.value in s && forall c :: c in s ==> c.priority <= r.value.priority
    ensures |s| > 0 ==> r == Some(Best(s))
  {
    if |s| == 0 then None
    else
      SortedHead(s);
      Some(SortByPriority(s)[0])
  }

  /** `detectTestCommand(workspacePath)`: `null` exactly when no rule
      fires, and otherwise a pushed candidate of the highest priority (by
      `Choose`, the earliest such). */
  function DetectTestCommand(p: Project): (r: Option<Candidate>)
    ensures r.None? <==> |Candidates(p)| == 0
    ensures r.Some? ==> r.value in Candidates(p) && forall c :: c in Candidates(p) ==> c.priority <= r.value.priority
  {
    Choose(Candidates(p))
  }


  /** The candidates of one priority, in order. */
  function OfPriority(s: seq<Candidate>, q: int): (r: seq<Candidate>)
    ensures forall i :: 0 <= i < |r| ==> r[i].priority == q
  {
    if |s| == 0 then [] else (if s[0].priority == q then [s[0]] else []) + OfPriority(s[1..], q)
  }

  lemma DescendingTail(t: seq<Candidate>)
    requires Descending(t) && |t| > 0
    ensures Descending(t[1..])
  {
  }

  lemma OfPriorityCons(c: Candidate, rest: seq<Candidate>, q: int)
    ensures OfPriority([c] + rest, q) == (if c.priority == q then [c] else []) + OfPriority(rest, q)
  {
    assert ([c] + rest)[1..] == rest;
  }

  lemma {:induction false} InsertKeepsOrder(x: Candidate, t: seq<Candidate>, q: int)
    requires Descending(t)
    ensures OfPriority(Insert(x, t), q) == (if x.priority == q then [x] else []) + OfPriority(t, q)
  {
    if |t| == 0 || t[0].priority <= x.priority {
      OfPriorityCons(x, t, q);
    } else {
      DescendingTail(t);
      var r1 := Insert(x, t[1..]);
      InsertKeepsOrder(x, t[1..], q);
      assert Insert(x, t) == [t[0]] + r1;
      OfPriorityCons(t[0], r1, q);
      assert t == [t[0]] + t[1..];
      OfPriorityCons(t[0], t[1..], q);
      if x.priority == q {
        assert OfPriority(Insert(x, t), q) == OfPriority(r1, q);
        assert OfPriority(t, q) == OfPriority(t[1..], q);
      } else {
        assert OfPriority(r1, q) == OfPriority(t[1..], q);
      }
    }
  }

  /** The sort is stable: the candidates of each priority keep their push
      order. */
  lemma {:induction false} SortStable(s: seq<Candidate>, q: int)
    ensures OfPriority(SortByPriority(s), q) == OfPriority(s, q)
  {
    if |s| > 0 {
      SortStable(s[1..], q);
      InsertKeepsOrder(s[0], SortByPriority(s[1..]), q);
    }
  }

  // ---- What single rule groups promise ----

  /** Some candidate of `s` has the command `cmd`. */
  predicate Pushes(s: seq<Candidate>, cmd: string) {
    exists i :: 0 <= i < |s| && s[i].cmd == cmd
  }

  /** "npm test" is pushed exactly when `package.json` exists and has a test
      script other than the placeholder: an unparsable manifest reads as
      `null` and pushes nothing. */
  lemma NpmTest(p: Project)
    ensures Pushes(JavaScript(p), "npm test") <==> Exists(p, "package.json") && RealTestScript(p.package)
    ensures p.package == JNull || Script(p.package, "test") == Some(JStr(Placeholder)) ==>
      !Pushes(JavaScript(p), "npm test")
  {
    if Pushes(JavaScript(p), "npm test") {
      var i :| 0 <= i < |JavaScript(p)| && JavaScript(p)[i].cmd == "npm test";
      assert "npm run build"[4] != "npm test"[4] && "npm run lint"[4] != "npm test"[4];
    }
    if Exists(p, "package.json") && RealTestScript(p.package) {
      assert JavaScript(p)[0].cmd == "npm test";
    }
  }

  /** `Pushes` distributes over the concatenation of rule groups. */
  lemma PushesAppend(a: seq<Candidate>, b: seq<Candidate>, cmd: string)
    ensures Pushes(a + b, cmd) <==> Pushes(a, cmd) || Pushes(b, cmd)
  {
    if Pushes(a + b, cmd) {
      var i :| 0 <= i < |a + b| && (a + b)[i].cmd == cmd;
      if i >= |a| {
        assert b[i - |a|].cmd == cmd;
      }
    }
    if Pushes(b, cmd) {
      var i :| 0 <= i < |b| && b[i].cmd == cmd;
      assert (a + b)[|a| + i].cmd == cmd;
    }
    if Pushes(a, cmd) {
      var i :| 0 <= i < |a| && a[i].cmd == cmd;
      assert (a + b)[i].cmd == cmd;
    }
  }

  /** No rule but the npm one pushes "npm test". */
  lemma OnlyNpmRule(p: Project)
    ensures Pushes(Candidates(p), "npm test") <==> Pushes(JavaScript(p), "npm test")
  {
    NoNpmTestDenoBun(p);
    NoNpmTestPython(p);
    NoNpmTestRustGo(p);
    NoNpmTestJvm(p);
    NoNpmTestRuby(p);
    NoNpmTestDotNetPhp(p);
    NoNpmTestApple(p);
    NoNpmTestDart(p);
    NoNpmTestFunctional(p);
    NoNpmTestNative(p);
    NoNpmTestBuildTools(p);
    PushesAppend(JavaScript(p), DenoBun(p), "npm test");
    PushesAppend(JavaScript(p) + DenoBun(p), Python(p), "npm test");
    PushesAppend(JavaScript(p) + DenoBun(p) + Python(p), RustGo(p), "npm test");
    PushesAppend(JavaScript(p) + DenoBun(p) + Python(p) + RustGo(p), Jvm(p), "npm test");
    PushesAppend(JavaScript(p) + DenoBun(p) + Python(p) + RustGo(p) + Jvm(p), Ruby(p), "npm test");
    PushesAppend(JavaScript(p) + DenoBun(p) + Python(p) + RustGo(p) + Jvm(p) + Ruby(p), DotNetPhp(p), "npm test");
    PushesAppend(JavaScript(p) + DenoBun(p) + Python(p) + RustGo(p) + Jvm(p) + Ruby(p) + DotNetPhp(p), Apple(p), "npm test");
    PushesAppend(JavaScript(p) + DenoBun(p) + Python(p) + RustGo(p) + Jvm(p) + Ruby(p) + DotNetPhp(p) + Apple(p), Dart(p), "npm test");
    PushesAppend(JavaScript(p) + DenoBun(p) + Python(p) + RustGo(p) + Jvm(p) + Ruby(p) + DotNetPhp(p) + Apple(p) + Dart(p), Functional(p), "npm test");
    PushesAppend(JavaScript(p) + DenoBun(p) + Python(p) + RustGo(p) + Jvm(p) + Ruby(p) + DotNetPhp(p) + Apple(p) + Dart(p) + Functional(p), Native(p), "npm test");
    PushesAppend(JavaScript(p) + DenoBun(p) + Python(p) + RustGo(p) + Jvm(p) + Ruby(p) + DotNetPhp(p) + Apple(p) + Dart(p) + Functional(p) + Native(p), BuildTools(p), "npm test");
  }

  lemma NoNpmTestDenoBun(p: Project)
    ensures !Pushes(DenoBun(p), "npm test")
  {
  }

  lemma NoNpmTestPython(p: Project)
    ensures !Pushes(Python(p), "npm test")
  {
  }

  lemma NoNpmTestRustGo(p: Project)
    ensures !Pushes(RustGo(p), "npm test")
  {
  }

  lemma NoNpmTestJvm(p: Project)
    ensures !Pushes(Jvm(p), "npm test")
  {
  }

  lemma NoNpmTestRuby(p: Project)
    ensures !Pushes(Ruby(p), "npm test")
  {
  }

  lemma NoNpmTestDotNetPhp(p: Project)
    ensures !Pushes(DotNetPhp(p), "npm test")
  {
  }

  lemma NoNpmTestApple(p: Project)
    ensures !Pushes(Apple(p), "npm test")
  {
  }

  lemma NoNpmTestDart(p: Project)
    ensures !Pushes(Dart(p), "npm test")
  {
  }

  lemma NoNpmTestFunctional(p: Project)
    ensures !Pushes(Functional(p), "npm test")
  {
  }

  lemma NoNpmTestNative(p: Project)
    ensures !Pushes(Native(p), "npm test")
  {
  }

  lemma NoNpmTestBuildTools(p: Project)
    ensures !Pushes(BuildTools(p), "npm test")
  {
  }

  /** A placeholder test script or an unparsable `package.json` leaves
      "npm test" out of the whole candidate list. */
  lemma NoNpmTestWithoutScript(p: Project)
    requires p.package == JNull || Script(p.package, "test") == Some(JStr(Placeholder))
    ensures !Pushes(Candidates(p), "npm test")
  {
    NpmTest(p);
    OnlyNpmRule(p);
  }

  const PythonRunners: set<string> := {"pytest", "tox", "python -m pytest"}

  /** A Python project pushes exactly one test runner, first: pytest when
      `pytest.ini` or `pyproject.toml` exists, else tox when `tox.ini`
      does, else `python -m pytest` at priority 8. Other projects push
      nothing here. */
  lemma PythonOneRunner(p: Project)
    ensures !PythonProject(p) ==> Python(p) == []
    ensures PythonProject(p) ==>
      && |Python(p)| >= 1
      && Python(p)[0].cmd in PythonRunners
      && (forall i :: 1 <= i < |Python(p)| ==> Python(p)[i].cmd !in PythonRunners)
      && (Python(p)[0].cmd == "pytest" <==> Exists(p, "pytest.ini") || Exists(p, "pyproject.toml"))
      && (Python(p)[0].cmd == "tox" <==>
            !Exists(p, "pytest.ini") && !Exists(p, "pyproject.toml") && Exists(p, "tox.ini"))
      && (Python(p)[0].priority == 8 <==> Python(p)[0].cmd == "python -m pytest")
  {
    assert "mypy ." !in PythonRunners by {
      assert "mypy ."[0] != "pytest"[0] && "mypy ."[0] != "tox"[0] && "mypy ."[0] != "python -m pytest"[0];
    }
    assert "tox" != "pytest" && "python -m pytest" != "pytest" && "python -m pytest" != "tox";
  }

  /** A Ruby project pushes exactly one command: rspec when `.rspec` or
      `spec` exists, else `rake test` when a Rakefile does, else `rake` at
      priority 8. */
  lemma RubyOneRunner(p: Project)
    ensures |Ruby(p)| == (if Exists(p, "Gemfile") then 1 else 0)
    ensures Exists(p, "Gemfile") ==>
      && (Ruby(p)[0].cmd == "bundle exec rspec" <==> Exists(p, ".rspec") || Exists(p, "spec"))
      && (Ruby(p)[0].cmd == "bundle exec rake test" <==>
            !Exists(p, ".rspec") && !Exists(p, "spec") && Exists(p, "Rakefile"))
      && (Ruby(p)[0].priority == 8 <==> Ruby(p)[0].cmd == "bundle exec rake")
  {
    assert "bundle exec rake test" != "bundle exec rspec";
    assert "bundle exec rake" != "bundle exec rspec" && "bundle exec rake" != "bundle exec rake test";
  }

  /** A `pubspec.yaml` project always gets `dart analyze`; with a `test`
      directory it also gets `flutter test` when `android` or `ios` exists
      and `dart test` otherwise. */
  lemma DartRunners(p: Project)
    ensures Pushes(Dart(p), "dart analyze") <==> Exists(p, "pubspec.yaml")
    ensures Pushes(Dart(p), "flutter test") <==>
      Exists(p, "pubspec.yaml") && Exists(p, "test") && (Exists(p, "android") || Exists(p, "ios"))
    ensures Pushes(Dart(p), "dart test") <==>
      Exists(p, "pubspec.yaml") && Exists(p, "test") && !Exists(p, "android") && !Exists(p, "ios")
  {
    var d := Dart(p);
    var analyze := Candidate("dart analyze", "dart-analyze", "Dart", 5);
    var flutter := Candidate("flutter test", "flutter", "Flutter", 10);
    var dart := Candidate("dart test", "dart", "Dart", 10);
    assert "dart analyze" != "flutter test" && "dart analyze" != "dart test" && "flutter test" != "dart test";
    if !Exists(p, "pubspec.yaml") {
      assert d == [];
    } else if !Exists(p, "test") {
      assert d == [analyze];
      assert d[0].cmd == "dart analyze";
    } else if Exists(p, "android") || Exists(p, "ios") {
      assert d == [flutter, analyze];
      assert d[0].cmd == "flutter test" && d[1].cmd == "dart analyze";
    } else {
      assert d == [dart, analyze];
      assert d[0].cmd == "dart test" && d[1].cmd == "dart analyze";
    }
  }

  // ---- detectAllCommands ----

  /** An entry of the list `detectAllCommands` returns: an npm script
      (`{cmd: 'npm run <name>', type: name, lang: 'npm', script}`) or the
      primary detection. */
  datatype Listed = ScriptEntry(name: string, script: Json) | Detected(candidate: Candidate)

  function ListedCmd(l: Listed): string {
    match l
    case ScriptEntry(name, _) => "npm run " + name
    case Detected(c) => c.cmd
  }

  const ScriptNames: seq<string> := ["test", "build", "lint", "typecheck", "check"]

  /** `Object.entries(pkg.scripts)`, keeping the five script names: every
      entry kept is a script of one of the five names with its value, and
      every script of one of those names is kept; `ScriptEntriesAppend`
      gives the order. */
  function ScriptEntries(fields: seq<(string, Json)>): (r: seq<Listed>)
    ensures |r| <= |fields|
    ensures forall i :: 0 <= i < |r| ==>
      r[i].ScriptEntry? && r[i].name in ScriptNames && (r[i].name, r[i].script) in fields
    ensures forall k :: 0 <= k < |fields| && fields[k].0 in ScriptNames ==>
      ScriptEntry(fields[k].0, fields[k].1) in r
  {
    if |fields| == 0 then []
    else
      var rest := ScriptEntries(fields[1..]);
      assert forall k :: 1 <= k < |fields| ==> fields[k] == fields[1..][k - 1];
      (if fields[0].0 in ScriptNames then [ScriptEntry(fields[0].0, fields[0].1)] else []) + rest
  }

  /** The entries keep the order of the scripts: those of an earlier part
      of `scripts` come before those of a later part. */
  lemma {:induction false} ScriptEntriesAppend(a: seq<(string, Json)>, b: seq<(string, Json)>)
    ensures ScriptEntries(a + b) == ScriptEntries(a) + ScriptEntries(b)
    decreases |a|
  {
    if |a| > 0 {
      assert (a + b)[1..] == a[1..] + b;
      ScriptEntriesAppend(a[1..], b);
    } else {
      assert a + b == b;
    }
  }

  /** The entries collected from `package.json`. Only an object has entries
      named like the five scripts: `Object.entries` of an array or a string
      yields index keys, of anything else nothing. */
  function Collected(p: Project): seq<Listed> {
    if !Exists(p, "package.json") then []
    else match Get(Some(p.package), "scripts")
      case Some(JObj(fields)) => ScriptEntries(fields)
      case _ => []
  }

  /** `if (primary && !detected.find(d => d.cmd === primary.cmd))
      detected.unshift(primary)`. */
  function WithPrimary(collected: seq<Listed>, primary: Option<Candidate>): (r: seq<Listed>)
    ensures primary.None? ==> r == collected
    ensures primary.Some? ==> exists i :: 0 <= i < |r| && ListedCmd(r[i]) == primary.value.cmd
    ensures r == collected || (primary.Some? && r == [Detected(primary.value)] + collected)
  {
    if primary.Some? && !(exists i :: 0 <= i < |collected| && ListedCmd(collected[i]) == primary.value.cmd) then
      var r := [Detected(primary.value)] + collected;
      assert ListedCmd(r[0]) == primary.value.cmd;
      r
    else collected
  }

  /** `detectAllCommands(workspacePath)`: every collected npm script entry,
      in order, preceded by the primary detection when its command is not
      among them; the primary command is always listed. */
  function DetectAllCommands(p: Project): (r: seq<Listed>)
    ensures var primary := DetectTestCommand(p);
      && (r == Collected(p) || (primary.Some? && r == [Detected(primary.value)] + Collected(p)))
      && (primary.Some? ==> exists i :: 0 <= i < |r| && ListedCmd(r[i]) == primary.value.cmd)
  {
    var collected := Collected(p);
    var primary := DetectTestCommand(p);
    WithPrimary(collected, primary)
  }

  predicate DistinctCmds(r: seq<Listed>) {
    forall i, j :: 0 <= i < j < |r| ==> ListedCmd(r[i]) != ListedCmd(r[j])
  }

  predicate DistinctKeys(fields: seq<(string, Json)>) {
    forall i, j :: 0 <= i < j < |fields| ==> fields[i].0 != fields[j].0
  }

  /** `npm run <name>` tells the names apart. */
  lemma RunCommandsDiffer(a: string, b: string)
    requires a != b
    ensures "npm run " + a != "npm run " + b
  {
    assert ("npm run " + a)[8..] == a;
    assert ("npm run " + b)[8..] == b;
  }

  /** A script object's keys are distinct, so are the collected commands. */
  lemma {:induction false} ScriptEntriesDistinct(fields: seq<(string, Json)>)
    requires DistinctKeys(fields)
    ensures DistinctCmds(ScriptEntries(fields))
  {
    if |fields| > 0 {
      var rest := ScriptEntries(fields[1..]);
      ScriptEntriesDistinct(fields[1..]);
      var r := ScriptEntries(fields);
      if fields[0].0 in ScriptNames {
        assert r == [ScriptEntry(fields[0].0, fields[0].1)] + rest;
        forall j | 0 < j < |r|
          ensures ListedCmd(r[0]) != ListedCmd(r[j])
        {
          assert r[j] == rest[j - 1];
          var k :| 0 <= k < |fields[1..]| && fields[1..][k].0 == rest[j - 1].name;
          assert fields[k + 1].0 == rest[j - 1].name;
          RunCommandsDiffer(fields[0].0, rest[j - 1].name);
        }
      }
    }
  }

  /** The primary detection is listed once, and no command is listed
      twice. */
  lemma PrimaryNeverDuplicated(collected: seq<Listed>, primary: Option<Candidate>)
    requires DistinctCmds(collected)
    ensures DistinctCmds(WithPrimary(collected, primary))
    ensures primary.Some? ==>
      exists i :: 0 <= i < |WithPrimary(collected, primary)|
        && ListedCmd(WithPrimary(collected, primary)[i]) == primary.value.cmd
  {
    var r := WithPrimary(collected, primary);
    if r != collected {
      forall i, j | 0 <= i < j < |r|
        ensures ListedCmd(r[i]) != ListedCmd(r[j])
      {
        if i > 0 {
          assert r[i] == collected[i - 1] && r[j] == collected[j - 1];
        } else {
          assert r[j] == collected[j - 1];
        }
      }
    }
  }

  /** With a well-formed `package.json` (distinct keys, as `JSON.parse`
      leaves them) `detectAllCommands` lists no command twice. */
  lemma AllCommandsDistinct(p: Project)
    requires p.package.JObj? ==> forall fs :: Lookup(p.package.fields, "scripts") == Some(JObj(fs)) ==> DistinctKeys(fs)
    ensures DistinctCmds(DetectAllCommands(p))
  {
    var c := Collected(p);
    if Exists(p, "package.json") {
      match Get(Some(p.package), "scripts")
      case Some(JObj(fields)) => ScriptEntriesDistinct(fields);
      case _ =>
    }
    PrimaryNeverDuplicated(c, DetectTestCommand(p));
  }
}

=== FILE: detector.dfy ===
/** `RalphLoop.waitForAICompletion`: polls the chat panel's status until the
    reply is stable or carries the completion promise, or the time budget
    runs out. The clock and the status reads are inputs: each `Tick` holds
    the elapsed time seen by the loop condition and the status read after
    the following sleep. When the ticks run out, the clock is taken to have
    passed the budget. */
module Detector {
  import opened Text

  /** What `getAIStatus` reports: number of messages, text of the last one
      (already cut to 500 characters by the page), whether the agent is busy. */
  datatype Snapshot = Snapshot(messageCount: int, lastMessage: string, isTyping: bool)

  datatype Tick = Tick(elapsed: int, snap: Snapshot)

  /** Why the wait ended. */
  datatype Reason = Settled | Signalled | TimedOut

  /** The reply (`None` for `null`), how many status reads were made, and why
      the wait ended. */
  datatype Wait = Wait(response: Option<string>, polls: nat, reason: Reason)

  /** Consecutive unchanged reads needed before a reply counts as settled. */
  const StabilityThreshold: nat := 3

  /** `text && text.includes(promise)`: a non-empty text carrying the promise. */
  predicate Signals(text: string, promise: string) {
    text != "" && Contains(text, promise)
  }

  /** The wait loop from read `j` on, carrying the last message count seen
      and the stability counter. It returns `null` exactly on a timeout;
      otherwise it returns the message of its last read, and that message
      carries the promise when the promise is why it ended. */
  function PollFrom(ticks: seq<Tick>, promise: string, timeout: int, j: nat, lastCount: int, stable: nat): (w: Wait)
    requires j <= |ticks|
    ensures j <= w.polls <= |ticks|
    ensures w.response.None? <==> w.reason == TimedOut
    ensures w.response.Some? ==> j < w.polls && w.response.value == ticks[w.polls - 1].snap.lastMessage
    ensures w.reason == Signalled ==> Signals(w.response.value, promise)
    decreases |ticks| - j
  {
    if j == |ticks| || ticks[j].elapsed >= timeout then Wait(None, j, TimedOut)
    else
      var st := ticks[j].snap;
      if st.messageCount == lastCount && stable + 1 >= StabilityThreshold && !st.isTyping then
        Wait(Some(st.lastMessage), j + 1, Settled)
      else if Signals(st.lastMessage, promise) then
        Wait(Some(st.lastMessage), j + 1, Signalled)
      else if st.messageCount == lastCount then
        PollFrom(ticks, promise, timeout, j + 1, lastCount, stable + 1)
      else
        PollFrom(ticks, promise, timeout, j + 1, st.messageCount, 0)
  }

  /** `waitForAICompletion()`: starts with message count 0 and counter 0.
      It makes at most one read per tick, returns `null` exactly on a
      timeout, and otherwise returns the message of its last read. */
  function WaitForCompletion(ticks: seq<Tick>, promise: string, timeout: int): (w: Wait)
    ensures w.polls <= |ticks|
    ensures w.response.None? <==> w.reason == TimedOut
    ensures w.response.Some? ==> 1 <= w.polls && w.response.value == ticks[w.polls - 1].snap.lastMessage
    ensures w.reason == Signalled ==> Signals(w.response.value, promise)
  {
    PollFrom(ticks, promise, timeout, 0, 0, 0)
  }

  // ---- Declarative description of the wait ----

  /** The message count the loop compares read `j` against. */
  function PrevCount(ticks: seq<Tick>, j: nat): int
    requires j <= |ticks|
  {
    if j == 0 then 0 else ticks[j - 1].snap.messageCount
  }

  /** Read `j` saw the same message count as the read before it. */
  predicate Unchanged(ticks: seq<Tick>, j: nat)
    requires j < |ticks|
  {
    ticks[j].snap.messageCount == PrevCount(ticks, j)
  }

  /** Read `j` is the third of three consecutive unchanged reads and the
      agent is not typing. */
  predicate SettledAt(ticks: seq<Tick>, j: nat)
    requires j < |ticks|
  {
    j >= 2 && Unchanged(ticks, j) && Unchanged(ticks, j - 1) && Unchanged(ticks, j - 2)
    && !ticks[j].snap.isTyping
  }

  predicate ExitsAt(ticks: seq<Tick>, promise: string, j: nat)
    requires j < |ticks|
  {
    SettledAt(ticks, j) || Signals(ticks[j].snap.lastMessage, promise)
  }

  /** The loop condition admits read `j`. */
  predicate Live(ticks: seq<Tick>, timeout: int, j: nat) {
    j < |ticks| && ticks[j].elapsed < timeout
  }

  /** Length of the run of unchanged reads that ends just before read `j`:
      the stability counter the loop holds when it makes read `j`. */
  ghost function Run(ticks: seq<Tick>, j: nat): nat
    requires j <= |ticks|
  {
    if j == 0 then 0 else if Unchanged(ticks, j - 1) then Run(ticks, j - 1) + 1 else 0
  }

  lemma RunSettles(ticks: seq<Tick>, j: nat)
    requires j < |ticks|
    ensures SettledAt(ticks, j) <==>
      Unchanged(ticks, j) && Run(ticks, j) + 1 >= StabilityThreshold && !ticks[j].snap.isTyping
  {
    if j >= 1 && Unchanged(ticks, j - 1) && j - 1 >= 1 {
      assert Run(ticks, j) == Run(ticks, j - 1) + 1;
    }
  }

  /** What a wait that starts at read `j` promises: it ends at the first
      admitted read that settles or carries the promise and returns that
      read's message; if the clock (or the input) runs out first it returns
      `None`. Every read made was admitted by the time budget and, but for
      the last one, ended nothing. */
  predicate EndsAtFirstExit(ticks: seq<Tick>, promise: string, timeout: int, j: nat, w: Wait)
    requires j <= w.polls <= |ticks|
  {
    && (forall k :: j <= k < w.polls ==> Live(ticks, timeout, k))
    && (w.response.Some? ==>
          && w.polls >= j + 1
          && ExitsAt(ticks, promise, w.polls - 1)
          && w.response.value == ticks[w.polls - 1].snap.lastMessage
          && (forall k :: j <= k < w.polls - 1 ==> !ExitsAt(ticks, promise, k)))
    && (w.response.None? ==>
          && !Live(ticks, timeout, w.polls)
          && (forall k :: j <= k < w.polls ==> !ExitsAt(ticks, promise, k)))
    && (w.reason == Settled ==> w.polls >= 1 && SettledAt(ticks, w.polls - 1))
    && (w.reason == TimedOut <==> w.response.None?)
  }

  lemma {:induction false} PollFromSpec(ticks: seq<Tick>, promise: string, timeout: int, j: nat)
    requires j <= |ticks|
    ensures EndsAtFirstExit(ticks, promise, timeout, j, PollFrom(ticks, promise, timeout, j, PrevCount(ticks, j), Run(ticks, j)))
    decreases |ticks| - j
  {
    if j == |ticks| || ticks[j].elapsed >= timeout {
    } else {
      RunSettles(ticks, j);
      var st := ticks[j].snap;
      if st.messageCount == PrevCount(ticks, j) && Run(ticks, j) + 1 >= StabilityThreshold && !st.isTyping {
      } else if Signals(st.lastMessage, promise) {
      } else {
        assert !ExitsAt(ticks, promise, j);
        assert PrevCount(ticks, j + 1) == st.messageCount;
        if st.messageCount == PrevCount(ticks, j) {
          assert Run(ticks, j + 1) == Run(ticks, j) + 1;
        } else {
          assert Run(ticks, j + 1) == 0;
        }
        var w := PollFrom(ticks, promise, timeout, j + 1, PrevCount(ticks, j + 1), Run(ticks, j + 1));
        assert PollFrom(ticks, promise, timeout, j, PrevCount(ticks, j), Run(ticks, j)) == w;
        PollFromSpec(ticks, promise, timeout, j + 1);
        EarlierStart(ticks, promise, timeout, j, w);
      }
    }
  }

  /** A read that is admitted and ends nothing can be put in front. */
  lemma EarlierStart(ticks: seq<Tick>, promise: string, timeout: int, j: nat, w: Wait)
    requires j + 1 <= w.polls <= |ticks|
    requires Live(ticks, timeout, j) && !ExitsAt(ticks, promise, j)
    requires EndsAtFirstExit(ticks, promise, timeout, j + 1, w)
    ensures EndsAtFirstExit(ticks, promise, timeout, j, w)
  {
  }

  /** The whole wait, from the first read. */
  lemma WaitSpec(ticks: seq<Tick>, promise: string, timeout: int)
    ensures var w := WaitForCompletion(ticks, promise, timeout);
      && w.polls <= |ticks|
      && (forall k :: 0 <= k < w.polls ==> Live(ticks, timeout, k))
      && (w.response.Some? ==>
            && w.polls >= 1
            && ExitsAt(ticks, promise, w.polls - 1)
            && w.response.value == ticks[w.polls - 1].snap.lastMessage
            && (forall k :: 0 <= k < w.polls - 1 ==> !ExitsAt(ticks, promise, k)))
      && (w.response.None? ==>
            && !Live(ticks, timeout, w.polls)
            && (forall k :: 0 <= k < w.polls ==> !ExitsAt(ticks, promise, k)))
  {
    PollFromSpec(ticks, promise, timeout, 0);
    assert EndsAtFirstExit(ticks, promise, timeout, 0, WaitForCompletion(ticks, promise, timeout));
  }

  /** A read carrying the promise ends the wait at once, whatever the
      stability counter says. */
  lemma PromiseEndsWait(ticks: seq<Tick>, promise: string, timeout: int)
    requires Live(ticks, timeout, 0)
    requires Signals(ticks[0].snap.lastMessage, promise)
    ensures WaitForCompletion(ticks, promise, timeout) == Wait(Some(ticks[0].snap.lastMessage), 1, Signalled)
  {
  }
}

=== FILE: json.dfy ===
/** JSON values as `JSON.parse` produces them and the few JavaScript
    operations the extension applies to them: truthiness, property access
    (with optional chaining), property assignment and `String(v)`.
    Numbers are integers here; an object keeps its entries in insertion
    order with distinct keys, as `JSON.parse` leaves them. */
module Json {
  import opened Text

  datatype Json =
    | JNull
    | JBool(b: bool)
    | JInt(n: int)
    | JStr(s: string)
    | JArr(items: seq<Json>)
    | JObj(fields: seq<(string, Json)>)

  /** JavaScript's ToBoolean; `None` stands for `undefined`. */
  predicate Truthy(v: Option<Json>) {
    match v
    case None => false
    case Some(JNull) => false
    case Some(JBool(b)) => b
    case Some(JInt(n)) => n != 0
    case Some(JStr(s)) => s != ""
    case Some(JArr(_)) => true
    case Some(JObj(_)) => true
  }

  function Lookup(fields: seq<(string, Json)>, key: string): (r: Option<Json>)
    ensures r.Some? ==> exists i :: 0 <= i < |fields| && fields[i] == (key, r.value)
    ensures r.None? ==> forall i :: 0 <= i < |fields| ==> fields[i].0 != key
  {
    if |fields| == 0 then None
    else if fields[0].0 == key then Some(fields[0].1)
    else
      var r := Lookup(fields[1..], key);
      assert forall i :: 1 <= i < |fields| ==> fields[i] == fields[1..][i - 1];
      r
  }

  /** `v?.key`: the property of an object, `undefined` for anything else. */
  function Get(v: Option<Json>, key: string): Option<Json> {
    match v
    case Some(JObj(fields)) => Lookup(fields, key)
    case _ => None
  }

  /** `obj.key = val` on an object: an existing key keeps its place, a new
      key is appended. */
  function Put(fields: seq<(string, Json)>, key: string, val: Json): (r: seq<(string, Json)>)
    ensures Lookup(r, key) == Some(val)
    ensures forall k :: k != key ==> Lookup(r, k) == Lookup(fields, k)
  {
    if |fields| == 0 then [(key, val)]
    else if fields[0].0 == key then [(key, val)] + fields[1..]
    else [fields[0]] + Put(fields[1..], key, val)
  }

  /** `String(v)` for a defined value. */
  function ToStr(v: Json): string
    decreases v, 0
  {
    match v
    case JNull => "null"
    case JBool(b) => if b then "true" else "false"
    case JInt(n) => IntToString(n)
    case JStr(s) => s
    case JArr(items) => JoinComma(seq(|items|, i requires 0 <= i < |items| => ElementStr(items[i])))
    case JObj(_) => "[object Object]"
  }

  /** An array element inside `Array.prototype.join`: `null` prints as empty. */
  function ElementStr(v: Json): string
    decreases v, 1
  {
    if v.JNull? then "" else ToStr(v)
  }

  function JoinComma(parts: seq<string>): string
  {
    if |parts| == 0 then ""
    else if |parts| == 1 then parts[0]
    else parts[0] + "," + JoinComma(parts[1..])
  }
}

=== FILE: log_buffer.dfy ===
/** The loop's in-memory log (`RalphLoop.log`): every message is pushed and,
    once the buffer holds more than 50 entries, the oldest is shifted out. */
module LogBuffer {

  const Capacity: nat := 50

  /** `logs.push(e); if (logs.length > 50) logs.shift();` */
  function Append<T>(logs: seq<T>, e: T): (r: seq<T>)
    ensures |logs| <= Capacity ==> |r| <= Capacity
    ensures |r| > 0 && r[|r| - 1] == e
    ensures |logs| < Capacity ==> r == logs + [e]
    ensures |logs| >= Capacity ==> r == logs[1..] + [e]
  {
    var pushed := logs + [e];
    if |pushed| > Capacity then pushed[1..] else pushed
  }

  /** Logs `es` one after another. */
  function AppendAll<T>(logs: seq<T>, es: seq<T>): (r: seq<T>)
    ensures |logs| <= Capacity ==> |r| <= Capacity
    decreases |es|
  {
    if |es| == 0 then logs else AppendAll(Append(logs, es[0]), es[1..])
  }

  /** The last `Capacity` entries of `s` (all of them when there are fewer). */
  function Window<T>(s: seq<T>): (r: seq<T>)
    ensures |r| <= Capacity
  {
    if |s| > Capacity then s[|s| - Capacity..] else s
  }

  /** A buffer that respects the capacity, after any number of appends,
      holds exactly the most recent 50 entries of everything logged, oldest
      first: nothing is reordered and only the oldest entries are dropped. */
  lemma {:induction false} AppendAllKeepsNewest<T>(logs: seq<T>, es: seq<T>)
    requires |logs| <= Capacity
    ensures AppendAll(logs, es) == Window(logs + es)
    decreases |es|
  {
    if |es| > 0 {
      var next := Append(logs, es[0]);
      AppendAllKeepsNewest(next, es[1..]);
      assert logs + es == (logs + [es[0]]) + es[1..];
      if |logs| < Capacity {
        assert next == logs + [es[0]];
      } else {
        var all := logs + es;
        var tail := next + es[1..];
        assert tail == all[1..];
        assert Window(tail) == Window(all);
      }
    } else {
      assert logs + es == logs;
    }
  }
}

=== FILE: prompt.dfy ===
/** The per-iteration directive (`RalphLoop.buildPrompt`): a header naming the
    iteration, the task, the previous failure, the instructions, any custom
    rules and the completion sentence, joined with newlines. */
module Prompt {
  import opened Text
  import opened Config

  /** At most this many characters of the previous error are quoted. */
  const ErrorLimit: nat := 2000

  function Header(iteration: int, maxIterations: int): string {
    "[ITERATION " + IntToString(iteration) + "/" + IntToString(maxIterations) + "]"
  }

  function CompletionSentence(promise: string): string {
    "When the task is fully complete and all tests pass, respond with exactly: " + promise
  }

  /** `lastError.substring(0, 2000)`. */
  function Truncate(e: string): (r: string)
    ensures |r| <= ErrorLimit && |r| <= |e| && r == e[..|r|]
    ensures |e| <= ErrorLimit ==> r == e
  {
    if |e| <= ErrorLimit then e else e[..ErrorLimit]
  }

  /** The failure block is shown when there is a non-empty last error and
      this is not the first iteration. */
  predicate ShowsError(lastError: Option<string>, iteration: int) {
    lastError.Some? && lastError.value != "" && iteration > 1
  }

  function TaskPart(o: Options): seq<string> {
    if o.taskDescription != "" then ["TASK: " + o.taskDescription, ""] else []
  }

  function ErrorPart(lastError: Option<string>, iteration: int): seq<string> {
    if ShowsError(lastError, iteration) then
      ["PREVIOUS ATTEMPT FAILED:", "```", Truncate(lastError.value), "```", "",
       "Fix the issues above and try again.", ""]
    else []
  }

  function TestPart(o: Options): seq<string> {
    match o.testCommand
    case Some(cmd) => ["3. Run: " + cmd, "4. If tests fail, analyze errors and fix"]
    case None => []
  }

  function CustomPart(o: Options): seq<string> {
    match o.customInstructions
    case Some(rules) => ["", "IMPORTANT ADDITIONAL RULES:", rules]
    case None => []
  }

  /** Index of the line after the optional task block. */
  function ErrorAt(o: Options): nat {
    if o.taskDescription != "" then 4 else 2
  }

  /** Index of the "INSTRUCTIONS:" line. */
  function InstructionsAt(o: Options, lastError: Option<string>, iteration: int): nat {
    ErrorAt(o) + (if ShowsError(lastError, iteration) then 7 else 0)
  }

  /** The lines of the directive, in the order they are pushed. */
  function Lines(o: Options, lastError: Option<string>, iteration: int): seq<string>
  {
    Head(o, lastError, iteration) + (Steps + (TestPart(o) + (CustomPart(o)
      + ["", CompletionSentence(o.completionPromise)])))
  }

  function Head(o: Options, lastError: Option<string>, iteration: int): seq<string> {
    [Header(iteration, o.maxIterations), ""] + (TaskPart(o) + ErrorPart(lastError, iteration))
  }

  const Steps: seq<string> := ["INSTRUCTIONS:", "1. Analyze the current state", "2. Make necessary code changes"]

  /** The directive's length counts the optional blocks. */
  lemma LinesLength(o: Options, lastError: Option<string>, iteration: int)
    ensures |Lines(o, lastError, iteration)| == InstructionsAt(o, lastError, iteration) + 5
      + (if o.testCommand.Some? then 2 else 0) + (if o.customInstructions.Some? then 3 else 0)
  {
    assert |Head(o, lastError, iteration)| == InstructionsAt(o, lastError, iteration);
  }

  /** The directive opens with the header and a blank line, has the
      "INSTRUCTIONS:" line right after the optional blocks, and closes with
      the completion sentence. */
  lemma LinesFrame(o: Options, lastError: Option<string>, iteration: int)
    ensures var ls := Lines(o, lastError, iteration);
      && |ls| > InstructionsAt(o, lastError, iteration)
      && ls[0] == Header(iteration, o.maxIterations) && ls[1] == ""
      && ls[|ls| - 1] == CompletionSentence(o.completionPromise)
      && ls[InstructionsAt(o, lastError, iteration)] == "INSTRUCTIONS:"
  {
    var head := Head(o, lastError, iteration);
    assert |head| == InstructionsAt(o, lastError, iteration);
    PartAt(head, [], Steps + (TestPart(o) + (CustomPart(o) + ["", CompletionSentence(o.completionPromise)])));
  }

  /** The "TASK: " line is present exactly when a task description is set. */
  lemma LinesTask(o: Options, lastError: Option<string>, iteration: int)
    ensures var ls := Lines(o, lastError, iteration);
      && |ls| > 2
      && ((|ls[2]| >= 6 && ls[2][..6] == "TASK: ") <==> o.taskDescription != "")
      && (o.taskDescription != "" ==> ls[2] == "TASK: " + o.taskDescription)
  {
    var ls := Lines(o, lastError, iteration);
    var head := Head(o, lastError, iteration);
    if o.taskDescription == "" {
      if ShowsError(lastError, iteration) {
        assert ls[2] == "PREVIOUS ATTEMPT FAILED:";
        assert ls[2][0] == 'P';
      } else {
        assert |head| == 2;
        assert ls[2] == "INSTRUCTIONS:";
        assert ls[2][0] == 'I';
      }
      assert "TASK: "[0] == 'T';
    } else {
      assert ls[2] == "TASK: " + o.taskDescription;
      assert ls[2][..6] == "TASK: ";
    }
  }

  /** The failure block is present exactly when `ShowsError` holds, and then
      it quotes the truncated error between two code fences. */
  lemma LinesError(o: Options, lastError: Option<string>, iteration: int)
    ensures var ls := Lines(o, lastError, iteration);
      && ErrorAt(o) + 1 <= |ls|
      && (ls[ErrorAt(o)] == "PREVIOUS ATTEMPT FAILED:" <==> ShowsError(lastError, iteration))
      && (ShowsError(lastError, iteration) ==>
            && ErrorAt(o) + 4 <= |ls|
            && ls[ErrorAt(o) + 1] == "```"
            && ls[ErrorAt(o) + 2] == Truncate(lastError.value)
            && ls[ErrorAt(o) + 3] == "```")
  {
    var ls := Lines(o, lastError, iteration);
    var head := Head(o, lastError, iteration);
    var e := ErrorAt(o);
    assert |TaskPart(o)| + 2 == e;
    if !ShowsError(lastError, iteration) {
      assert |head| == e;
      assert ls[e] == "INSTRUCTIONS:";
      assert ls[e][0] == 'I';
      assert "PREVIOUS ATTEMPT FAILED:"[0] == 'P';
    }
  }

  /** The "3. Run: <command>" line is present exactly when a test command is
      set; otherwise that position holds a blank line. */
  lemma LinesTest(o: Options, lastError: Option<string>, iteration: int)
    requires WellFormed(o)
    ensures var ls := Lines(o, lastError, iteration);
      && InstructionsAt(o, lastError, iteration) + 3 < |ls|
      && var run := ls[InstructionsAt(o, lastError, iteration) + 3];
      && (o.testCommand.Some? <==> run != "")
      && (o.testCommand.Some? ==> run == "3. Run: " + o.testCommand.value)
  {
    var head := Head(o, lastError, iteration);
    var rest := TestPart(o) + (CustomPart(o) + ["", CompletionSentence(o.completionPromise)]);
    assert |head| == InstructionsAt(o, lastError, iteration);
    PartAt(head, Steps, rest);
    if o.testCommand.None? {
      assert rest[0] == "";
    } else {
      assert rest[0] == "3. Run: " + o.testCommand.value;
    }
  }

  /** The first element after a prefix and a middle part. */
  lemma PartAt<T>(h: seq<T>, m: seq<T>, rest: seq<T>)
    requires |rest| > 0
    ensures |h| + |m| < |h + (m + rest)| && (h + (m + rest))[|h| + |m|] == rest[0]
  {
  }

  /** `buildPrompt(iteration)`: the lines joined with newlines. The text opens
      with the iteration header and closes with the completion sentence. */
  function BuildPrompt(o: Options, lastError: Option<string>, iteration: int): (p: string)
    requires WellFormed(o)
    ensures StartsWith(p, Header(iteration, o.maxIterations))
    ensures EndsWith(p, CompletionSentence(o.completionPromise))
  {
    var ls := Lines(o, lastError, iteration);
    LinesFrame(o, lastError, iteration);
    JoinLinesEnds(ls);
    JoinLines(ls)
  }

  predicate StartsWith(s: string, prefix: string) {
    |prefix| <= |s| && s[..|prefix|] == prefix
  }

  predicate EndsWith(s: string, suffix: string) {
    |suffix| <= |s| && s[|s| - |suffix|..] == suffix
  }

  /** The directive quotes the start of the previous error exactly when the
      failure block is shown. */
  lemma PromptQuotesError(o: Options, lastError: Option<string>, iteration: int)
    requires WellFormed(o)
    requires ShowsError(lastError, iteration)
    ensures Contains(BuildPrompt(o, lastError, iteration), Quote(Truncate(lastError.value)))
  {
    LinesError(o, lastError, iteration);
    QuotedBlock(Lines(o, lastError, iteration), ErrorAt(o), Truncate(lastError.value));
  }

  /** The failure block as it reads in the joined text: the heading, the
      opening fence, the quoted text and the closing fence, each line
      followed by a newline but the last. */
  function Quote(q: string): string {
    ("PREVIOUS ATTEMPT FAILED:" + "\n") + (("```" + "\n") + ((q + "\n") + "```"))
  }

  lemma QuotedBlock(ls: seq<string>, e: nat, quote: string)
    requires e + 4 <= |ls|
    requires ls[e] == "PREVIOUS ATTEMPT FAILED:" && ls[e + 1] == "```"
    requires ls[e + 2] == quote && ls[e + 3] == "```"
    ensures Contains(JoinLines(ls), Quote(quote))
  {
    var block := ls[e..e + 4];
    assert block[0] == ls[e] && block[1] == ls[e + 1] && block[2] == ls[e + 2] && block[3] == ls[e + 3];
    JoinFour(block);
    assert JoinLines(block) == Quote(quote);
    SplitAt(ls, e, e + 4);
    JoinSplit(ls[..e], block, ls[e + 4..]);
  }

  /** Joining a sequence cut into three non-empty-middle pieces puts the
      middle piece's text inside the whole. */
  lemma {:induction false} JoinSplit(a: seq<string>, b: seq<string>, c: seq<string>)
    requires |b| > 0
    ensures Contains(JoinLines(a + b + c), JoinLines(b))
    decreases |a|
  {
    if |a| == 0 {
      assert a + b + c == b + c;
      JoinPrefix(b, c);
      var rest := JoinLines(b + c)[|JoinLines(b)|..];
      assert JoinLines(b + c) == "" + JoinLines(b) + rest;
      ContainsInContext("", JoinLines(b), rest);
    } else {
      JoinSplit(a[1..], b, c);
      var tail := a[1..] + b + c;
      assert a + b + c == [a[0]] + tail;
      assert (a + b + c)[1..] == tail;
      var t := JoinLines(tail);
      assert JoinLines(a + b + c) == a[0] + "\n" + t;
      ContainsShift(a[0] + "\n", t, JoinLines(b));
    }
  }

  lemma SplitAt<T>(s: seq<T>, i: nat, j: nat)
    requires i <= j <= |s|
    ensures s == s[..i] + s[i..j] + s[j..]
  {
  }

  lemma ContainsShift(p: string, s: string, t: string)
    requires Contains(s, t)
    ensures Contains(p + s, t)
  {
    var i := IndexOf(s, t).value;
    assert (p + s)[|p| + i..|p| + i + |t|] == s[i..i + |t|];
    assert OccursAt(p + s, t, |p| + i);
    ContainsIff(p + s, t);
  }

  /** The text of `b` is a prefix of the text of `b + c`. */
  lemma {:induction false} JoinPrefix(b: seq<string>, c: seq<string>)
    requires |b| > 0
    ensures |JoinLines(b)| <= |JoinLines(b + c)|
    ensures JoinLines(b + c)[..|JoinLines(b)|] == JoinLines(b)
    decreases |b|
  {
    if |c| == 0 {
      assert b + c == b;
    } else if |b| == 1 {
      assert (b + c)[1..] == c;
      assert JoinLines(b + c) == b[0] + "\n" + JoinLines(c);
    } else {
      JoinPrefix(b[1..], c);
      assert (b + c)[1..] == b[1..] + c;
      assert JoinLines(b + c) == b[0] + "\n" + JoinLines(b[1..] + c);
      assert JoinLines(b) == b[0] + "\n" + JoinLines(b[1..]);
    }
  }

  lemma JoinFour(b: seq<string>)
    requires |b| == 4
    ensures JoinLines(b) == (b[0] + "\n") + ((b[1] + "\n") + ((b[2] + "\n") + b[3]))
  {
    var t1 := b[1..];
    var t2 := t1[1..];
    var t3 := t2[1..];
    assert t3 == [b[3]];
    assert JoinLines(t3) == b[3];
    assert JoinLines(t2) == (b[2] + "\n") + b[3];
    assert JoinLines(t1) == (b[1] + "\n") + ((b[2] + "\n") + b[3]);
  }
}

=== FILE: ralph.dfy ===
/** `RalphLoop` (lib/ralph-loop.js): the iteration state machine. The CDP
    channel, the clock, the test runner and the user's pause, resume and
    cancel calls are inputs (`Env`); the loop's flags, iteration counter,
    last error, auto-accept timer and log buffer are the state (`Loop`). */
module Ralph {
  import opened Text
  import opened Config
  import opened Prompt
  import Detector
  import LogBuffer

  // ---- Test runner outcome mapping (`runTestCommand`) ----

  /** `error.code` of a failed `exec`: a number or a string such as
      `ERR_CHILD_PROCESS_STDIO_MAXBUFFER`. */
  datatype ExitCode = Code(n: int) | Named(name: string)

  /** What `exec` hands its callback: whether `error` is set, its `code`
      (`None` for null, as after a timeout kill), stdout and stderr. */
  datatype ExecOutcome = ExecOutcome(failed: bool, code: Option<ExitCode>, stdout: string, stderr: string)

  datatype TestResult = TestResult(success: bool, exitCode: ExitCode, output: string, error: Option<string>)

  /** `error ? error.code || 1 : 0`. */
  function ExitCodeOf(x: ExecOutcome): ExitCode {
    if !x.failed then Code(0)
    else match x.code
      case Some(Code(n)) => if n != 0 then Code(n) else Code(1)
      case Some(Named(name)) => if name != "" then Named(name) else Code(1)
      case None => Code(1)
  }

  /** The error text of a failed run: stderr, or stdout when stderr is
      empty. */
  function FailureText(x: ExecOutcome): string {
    if x.stderr != "" then x.stderr else x.stdout
  }

  /** `runTestCommand()`: without a command the run trivially passes;
      otherwise it passes exactly when the derived exit code is 0, so a
      failure never reports exit code 0, and a failure's error text is
      stderr, or stdout when stderr is empty. */
  function RunTest(o: Options, x: ExecOutcome): (r: TestResult)
    ensures o.testCommand.None? ==> r == TestResult(true, Code(0), "", None)
    ensures r.success <==> r.exitCode == Code(0)
    ensures o.testCommand.Some? ==> (r.success <==> !x.failed)
    ensures !r.success ==> r.error == Some(FailureText(x))
  {
    if o.testCommand.None? then TestResult(true, Code(0), "", None)
    else
      var code := ExitCodeOf(x);
      var output := x.stdout + "\n" + x.stderr;
      if code == Code(0) then TestResult(true, Code(0), output, None)
      else TestResult(false, code, output, Some(FailureText(x)))
  }

  // ---- State ----

  /** One line of the loop's log, without its timestamp. */
  datatype LogEntry =
    | AutoAcceptStarted
    | AutoAcceptStopped
    | PausedEntry
    | ResumedEntry
    | CancellingEntry
    | AlreadyRunningEntry
    | LoopCancelled
    | IterationBanner(iteration: int, maxIterations: int)
    | Injecting
    | InjectFailed(error: Option<string>)
    | WaitingForAi
    | AiStatus(snap: Detector.Snapshot)
    | AiComplete
    | FoundPromise(promise: string)
    | AiTimeout
    | AiResponse(response: Option<string>)
    | AiSignalled(promise: string)
    | ClaimedDoneButFailing
    | RunningTest(command: string)
    | TestPassed
    | TestFailed(exitCode: ExitCode)
    | ErrorEntry(message: string)
    | IterationsSummary(iteration: int, maxIterations: int)
    | ResultEntry(message: string)

  datatype Loop = Loop(
    opts: Options,
    running: bool,
    paused: bool,
    iteration: int,
    lastError: Option<string>,
    timer: bool,
    logs: seq<LogEntry>)

  /** The object `complete` builds, hands to `onComplete` and `start`
      returns. Its `logs` is the loop's live log array: as `onComplete` sees
      it, `Complete` reports the buffer at the call; as `start` returns it,
      `Start` reports the buffer after the `finally` block. */
  datatype Completion = Completion(success: bool, message: string, iterations: int, maxIterations: int, logs: seq<LogEntry>)

  /** What `getStatus()` reports. */
  datatype Status = Status(isRunning: bool, currentIteration: int, maxIterations: int, lastError: Option<string>)

  /** `new RalphLoop(cdp, output, options)`. */
  function NewLoop(raw: RawOptions): (s: Loop)
    ensures WellFormed(s.opts) && !s.running && !s.paused && !s.timer
    ensures s.iteration == 0 && s.lastError.None? && s.logs == []
  {
    Loop(MakeOptions(raw), false, false, 0, None, false, [])
  }

  function Log(s: Loop, e: LogEntry): Loop {
    s.(logs := LogBuffer.Append(s.logs, e))
  }

  function LogAll(s: Loop, es: seq<LogEntry>): Loop {
    s.(logs := LogBuffer.AppendAll(s.logs, es))
  }

  /** `getStatus()`: the running flag, the counter, the configured bound and
      the last recorded test error. */
  function GetStatus(s: Loop): (st: Status)
    ensures st.isRunning == s.running && st.currentIteration == s.iteration
    ensures st.maxIterations == s.opts.maxIterations && st.lastError == s.lastError
  {
    Status(s.running, s.iteration, s.opts.maxIterations, s.lastError)
  }

  // ---- Auto-accept timer ----

  /** `startAutoAccept()`: installs the timer unless one exists; an existing
      timer makes the call a no-op (not even a log line). */
  function StartAutoAccept(s: Loop): (t: Loop)
    ensures t.timer
    ensures s.timer ==> t == s
    ensures !s.timer ==> t == Log(s.(timer := true), AutoAcceptStarted)
  {
    if s.timer then s else Log(s.(timer := true), AutoAcceptStarted)
  }

  /** `stopAutoAccept()`: always leaves no timer and always logs. */
  function StopAutoAccept(s: Loop): (t: Loop)
    ensures !t.timer
    ensures t == Log(s.(timer := false), AutoAcceptStopped)
  {
    Log(s.(timer := false), AutoAcceptStopped)
  }

  /** One firing of the auto-accept interval: it clicks whenever the loop is
      running. It does not look at `isPaused`. */
  predicate AutoAcceptTick(s: Loop) {
    s.timer && s.running
  }

  /** Starting the timer twice is the same as starting it once. */
  lemma StartAutoAcceptIdempotent(s: Loop)
    ensures StartAutoAccept(StartAutoAccept(s)) == StartAutoAccept(s)
  {
  }

  /** A paused but running loop keeps clicking accept buttons. */
  lemma TickClicksWhilePaused(s: Loop)
    requires s.running && s.paused
    ensures AutoAcceptTick(StartAutoAccept(s))
  {
  }

  // ---- Pause, resume, cancel ----

  /** `pause()`: succeeds only for a running, unpaused loop; otherwise it
      returns false and changes nothing. */
  function Pause(s: Loop): (r: (bool, Loop))
    ensures r.0 <==> s.running && !s.paused
    ensures r.0 ==> r.1 == Log(s.(paused := true), PausedEntry)
    ensures !r.0 ==> r.1 == s
  {
    if s.running && !s.paused then (true, Log(s.(paused := true), PausedEntry)) else (false, s)
  }

  /** `resume()`: succeeds only for a running, paused loop; otherwise it
      returns false and changes nothing. */
  function Resume(s: Loop): (r: (bool, Loop))
    ensures r.0 <==> s.running && s.paused
    ensures r.0 ==> r.1 == Log(s.(paused := false), ResumedEntry)
    ensures !r.0 ==> r.1 == s
  {
    if s.running && s.paused then (true, Log(s.(paused := false), ResumedEntry)) else (false, s)
  }

  /** `cancel()`: clears `isRunning` and stops the timer; the pause flag is
      left as it was. */
  function Cancel(s: Loop): (t: Loop)
    ensures !t.running && !t.timer && t.paused == s.paused
    ensures t.iteration == s.iteration && t.lastError == s.lastError && t.opts == s.opts
  {
    StopAutoAccept(Log(s, CancellingEntry).(running := false))
  }

  /** A successful pause followed by a resume restores the flags, the
      iteration and the last error; only the log grows. */
  lemma PauseThenResume(s: Loop)
    requires s.running && !s.paused
    ensures var t := Resume(Pause(s).1);
      t.0 && t.1.(logs := s.logs) == s
  {
  }

  /** After a cancel, neither pause nor resume can succeed. */
  lemma CancelDisablesPauseResume(s: Loop)
    ensures !Pause(Cancel(s)).0 && !Resume(Cancel(s)).0
    ensures !AutoAcceptTick(Cancel(s))
  {
  }

  /** After a cancel or a completion the status reports a stopped loop and
      nothing else changes; after a completion it agrees with the reported
      result on the iteration and the bound. */
  lemma StatusAfterStop(s: Loop, success: bool, message: string)
    ensures var st := GetStatus(Cancel(s));
      st == GetStatus(s).(isRunning := false)
    ensures var c := Complete(s, success, message);
      && GetStatus(c.1) == GetStatus(s).(isRunning := false)
      && GetStatus(c.1).currentIteration == c.0.iterations
      && GetStatus(c.1).maxIterations == c.0.maxIterations
  {
  }

  /** A call made by the user while the loop awaits something. */
  datatype Control = DoPause | DoResume | DoCancel

  function Apply(s: Loop, c: Control): Loop {
    match c
    case DoPause => Pause(s).1
    case DoResume => Resume(s).1
    case DoCancel => Cancel(s)
  }

  function ApplyAll(s: Loop, cs: seq<Control>): (t: Loop)
    ensures t.opts == s.opts && t.iteration == s.iteration && t.lastError == s.lastError
    ensures |s.logs| <= LogBuffer.Capacity ==> |t.logs| <= LogBuffer.Capacity
    ensures cs == [] ==> t == s
    decreases |cs|
  {
    if |cs| == 0 then s else ApplyAll(Apply(s, cs[0]), cs[1..])
  }

  /** The user's calls act on the flags alone: two states that agree on
      `isRunning` and `isPaused` still agree on them after the same calls. */
  lemma {:induction false} ApplyAllFlags(s: Loop, t: Loop, cs: seq<Control>)
    requires s.running == t.running && s.paused == t.paused
    ensures ApplyAll(s, cs).running == ApplyAll(t, cs).running
    ensures ApplyAll(s, cs).paused == ApplyAll(t, cs).paused
    decreases |cs|
  {
    if |cs| > 0 {
      ApplyAllFlags(Apply(s, cs[0]), Apply(t, cs[0]), cs[1..]);
    }
  }

  /** `waitForResume()`: sleeps while running and paused, taking the user's
      calls in order. It reports whether it was released, the state, and
      the calls left over once released. With no call left while still
      paused, the wait never ends. */
  function WaitForResume(s: Loop, cs: seq<Control>): (r: (bool, Loop, seq<Control>))
    ensures r.0 <==> !(r.1.running && r.1.paused)
    ensures !r.0 ==> r.2 == []
    ensures r.1.opts == s.opts && r.1.iteration == s.iteration && r.1.lastError == s.lastError
    ensures |s.logs| <= LogBuffer.Capacity ==> |r.1.logs| <= LogBuffer.Capacity
    decreases |cs|
  {
    if !(s.running && s.paused) then (true, s, cs)
    else if |cs| == 0 then (false, s, [])
    else WaitForResume(Apply(s, cs[0]), cs[1..])
  }

  // ---- Completion ----

  /** `complete(success, message)`: the single exit path. It clears
      `isRunning`, stops the timer, logs the summary and reports the
      iteration counter as it stands. */
  function Complete(s: Loop, success: bool, message: string): (r: (Completion, Loop))
    ensures !r.1.running && !r.1.timer && r.1.paused == s.paused
    ensures r.0 == Completion(success, message, s.iteration, s.opts.maxIterations, r.1.logs)
    ensures r.1.opts == s.opts && r.1.iteration == s.iteration && r.1.lastError == s.lastError
    ensures r.1.logs == LogBuffer.AppendAll(s.logs,
      [AutoAcceptStopped, IterationsSummary(s.iteration, s.opts.maxIterations), ResultEntry(message)])
  {
    var t := LogAll(s.(running := false, timer := false),
      [AutoAcceptStopped, IterationsSummary(s.iteration, s.opts.maxIterations), ResultEntry(message)]);
    (Completion(success, message, s.iteration, s.opts.maxIterations, t.logs), t)
  }

  /** The `finally` block of `start`: stop the timer again, which always
      logs, and clear `isRunning`. */
  function Finally(s: Loop): (t: Loop)
    ensures !t.running && !t.timer
    ensures t.logs == LogBuffer.Append(s.logs, AutoAcceptStopped)
    ensures t.paused == s.paused && t.iteration == s.iteration && t.opts == s.opts
  {
    StopAutoAccept(s).(running := false)
  }

  // ---- One iteration of `start` ----

  /** What the environment does during one iteration: the user's calls while
      the loop waits for a resume at its top, the injection reply, the
      status reads, the test run, and the user's calls that arrive while the
      iteration's body awaits (applied before the iteration ends, and so
      before a `complete` it makes; the body never reads the flags they
      change). */
  datatype Pass = Pass(
    whilePaused: seq<Control>,
    inject: InjectReply,
    ticks: seq<Detector.Tick>,
    test: ExecOutcome,
    arrivals: seq<Control>)

  /** `injectPrompt`'s reply. */
  datatype InjectReply = InjectReply(success: bool, error: Option<string>)

  /** How an iteration ended: go on with the next one, complete the run,
      break out because the loop was cancelled, or stay paused forever. */
  datatype Step = Next | Done(c: Completion) | Broke | Stuck

  /** The text of the prompt injected in iteration `k` when the last error
      was `lastError`: `buildPrompt()` under options `o`. */
  function PromptText(o: Options, k: int, lastError: Option<string>): (p: string)
    requires WellFormed(o)
    ensures Headed(p, k, o.maxIterations)
    ensures EndsWith(p, CompletionSentence(o.completionPromise))
  {
    BuildPrompt(o, lastError, k)
  }

  /** An iteration that injects reports the last error its prompt was built
      with. */
  datatype StepResult = StepResult(step: Step, state: Loop, prompt: Option<Option<string>>)

  const MsgDoneTested: string := "Task completed successfully!"
  const MsgDoneSignalled: string := "Task completed (AI signaled DONE)"
  const MsgTestsPass: string := "All tests pass!"
  const ConnectError: string := "Could not connect to CDP. Is Antigravity running with --remote-debugging-port=9000?"

  function MaxIterationsMessage(maxIterations: int): string {
    "Max iterations (" + IntToString(maxIterations) + ") reached"
  }

  predicate Quiet(p: Pass) {
    p.whilePaused == [] && p.arrivals == []
  }

  /** The reply the wait returns for this pass. */
  function Reply(o: Options, p: Pass): Detector.Wait {
    Detector.WaitForCompletion(p.ticks, o.completionPromise, o.aiTimeout)
  }

  /** The reply carries the completion promise. */
  predicate Signalled(o: Options, p: Pass) {
    var w := Reply(o, p);
    w.response.Some? && Detector.Signals(w.response.value, o.completionPromise)
  }

  function WaitLog(o: Options, p: Pass, w: Detector.Wait): seq<LogEntry>
    requires w.polls <= |p.ticks|
  {
    [WaitingForAi]
    + seq(w.polls, j requires 0 <= j < w.polls => AiStatus(p.ticks[j].snap))
    + [match w.reason
       case Settled => AiComplete
       case Signalled => FoundPromise(o.completionPromise)
       case TimedOut => AiTimeout]
  }

  function TestLog(cmd: string, r: TestResult): seq<LogEntry> {
    [RunningTest(cmd), if r.success then TestPassed else TestFailed(r.exitCode)]
  }

  /** Steps 2-4 of an iteration, after a successful injection. The calls
      left from the wait at the top and those arriving during the body take
      effect before the iteration ends, also when it completes. */
  function AfterInjection(s: Loop, p: Pass, rest: seq<Control>): (r: (Step, Loop))
    requires WellFormed(s.opts)
    ensures r.0.Next? || r.0.Done?
    ensures r.0.Done? ==> r.0.c.success && r.0.c.iterations == s.iteration && !r.1.running && !r.1.timer
    ensures r.0.Done? ==> r.0.c.message in {MsgDoneTested, MsgDoneSignalled, MsgTestsPass}
    ensures s.opts.testCommand.Some? && p.test.failed ==> r.0.Next?
    ensures s.opts.testCommand.None? && Signalled(s.opts, p) ==>
      r.0.Done? && r.0.c.message == MsgDoneSignalled
    ensures s.opts.testCommand.Some? && !p.test.failed ==>
      r.0.Done? && r.0.c.message == (if Signalled(s.opts, p) then MsgDoneTested else MsgTestsPass)
    ensures s.opts.testCommand.Some? && p.test.failed ==> r.1.lastError == Some(FailureText(p.test))
    ensures !(s.opts.testCommand.Some? && p.test.failed) ==> r.1.lastError == s.lastError
    ensures r.1.opts == s.opts && r.1.iteration == s.iteration
    ensures r.0.Next? && rest == [] && p.arrivals == [] ==> r.1.running == s.running && r.1.paused == s.paused
    ensures |s.logs| <= LogBuffer.Capacity ==> |r.1.logs| <= LogBuffer.Capacity
  {
    var o := s.opts;
    var w := Reply(o, p);
    var signalled := Signalled(o, p);
    var s1 := Log(LogAll(s, WaitLog(o, p, w)), AiResponse(w.response));
    var s2 := if signalled then Log(s1, AiSignalled(o.completionPromise)) else s1;
    var cs := rest + p.arrivals;
    match o.testCommand
    case None =>
      if signalled then Succeed(ApplyAll(s2, cs), MsgDoneSignalled) else (Next, ApplyAll(s2, cs))
    case Some(cmd) =>
      var tr := RunTest(o, p.test);
      var s3 := LogAll(s2, TestLog(cmd, tr));
      if tr.success then Succeed(ApplyAll(s3, cs), if signalled then MsgDoneTested else MsgTestsPass)
      else
        var s4 := if signalled then Log(s3, ClaimedDoneButFailing) else s3;
        (Next, ApplyAll(s4.(lastError := tr.error), cs))
  }

  /** The user's calls during an iteration's body take effect before it
      ends, whether it goes on or completes: the pause flag it leaves is the
      one those calls leave, and so is the running flag when it goes on. */
  lemma {:induction false} AfterInjectionCalls(s: Loop, p: Pass, rest: seq<Control>)
    requires WellFormed(s.opts)
    ensures var r := AfterInjection(s, p, rest);
      && r.1.paused == ApplyAll(s, rest + p.arrivals).paused
      && (r.0.Next? ==> r.1.running == ApplyAll(s, rest + p.arrivals).running)
  {
    var o := s.opts;
    var cs := rest + p.arrivals;
    var w := Reply(o, p);
    var signalled := Signalled(o, p);
    var s1 := Log(LogAll(s, WaitLog(o, p, w)), AiResponse(w.response));
    var s2 := if signalled then Log(s1, AiSignalled(o.completionPromise)) else s1;
    ApplyAllFlags(s2, s, cs);
    if o.testCommand.Some? {
      var tr := RunTest(o, p.test);
      var s3 := LogAll(s2, TestLog(o.testCommand.value, tr));
      var s4 := if signalled then Log(s3, ClaimedDoneButFailing) else s3;
      ApplyAllFlags(s3, s, cs);
      ApplyAllFlags(s4.(lastError := tr.error), s, cs);
    }
  }

  /** The same for a whole attempt, a failed injection included. */
  lemma AttemptCalls(s: Loop, p: Pass, rest: seq<Control>)
    requires WellFormed(s.opts)
    ensures var r := Attempt(s, p, rest);
      && r.1.paused == ApplyAll(s, rest + p.arrivals).paused
      && (r.0.Next? ==> r.1.running == ApplyAll(s, rest + p.arrivals).running)
  {
    var t := Log(Log(s, IterationBanner(s.iteration, s.opts.maxIterations)), Injecting);
    ApplyAllFlags(t, s, rest + p.arrivals);
    ApplyAllFlags(Log(t, InjectFailed(p.inject.error)), s, rest + p.arrivals);
    if p.inject.success {
      AfterInjectionCalls(t, p, rest);
    }
  }

  /** A pause the user makes while the reply is awaited still takes effect
      when that reply completes the loop: the loop ends stopped but paused,
      as `complete` leaves `isPaused` alone. */
  lemma PauseDuringCompletingIteration(s: Loop, p: Pass)
    requires WellFormed(s.opts) && s.running && !s.paused
    requires s.opts.testCommand.None? && Signalled(s.opts, p) && p.arrivals == [DoPause]
    ensures var r := AfterInjection(s, p, []);
      r.0.Done? && r.1.paused && !r.1.running
  {
    AfterInjectionCalls(s, p, []);
    assert [] + p.arrivals == [DoPause];
  }

  /** A successful `complete` from within an iteration. */
  function Succeed(s: Loop, message: string): (r: (Step, Loop))
    ensures r.0.Done? && r.0.c.success && r.0.c.message == message && r.0.c.iterations == s.iteration
    ensures !r.1.running && !r.1.timer && r.1.paused == s.paused
    ensures r.1.opts == s.opts && r.1.iteration == s.iteration && r.1.lastError == s.lastError
    ensures |s.logs| <= LogBuffer.Capacity ==> |r.1.logs| <= LogBuffer.Capacity
  {
    var c := Complete(s, true, message);
    (Done(c.0), c.1)
  }

  /** The top of iteration `k`: record the counter and, when paused, wait
      for a resume. Reports whether the wait ended, the state, and the calls
      not yet taken. */
  function Top(s: Loop, k: int, p: Pass): (r: (bool, Loop, seq<Control>))
    ensures r.1.opts == s.opts && r.1.iteration == k && r.1.lastError == s.lastError
    ensures r.0 <==> !(r.1.running && r.1.paused)
    ensures !r.0 ==> r.2 == []
    ensures !s.paused ==> r.0 && r.2 == [] && r.1.running == s.running && !r.1.paused
    ensures |s.logs| <= LogBuffer.Capacity ==> |r.1.logs| <= LogBuffer.Capacity
  {
    if s.paused then WaitForResume(s.(iteration := k), p.whilePaused) else (true, s.(iteration := k), [])
  }

  /** Step 1 of an iteration and what follows: inject the directive; a
      failed injection still uses up the iteration. */
  function Attempt(s: Loop, p: Pass, rest: seq<Control>): (r: (Step, Loop))
    requires WellFormed(s.opts)
    ensures r.0.Next? || r.0.Done?
    ensures !p.inject.success ==> r.0.Next?
    ensures r.0.Done? ==> r.0.c.success && r.0.c.iterations == s.iteration && !r.1.running && !r.1.timer
    ensures r.0.Done? ==> r.0.c.message in {MsgDoneTested, MsgDoneSignalled, MsgTestsPass}
    ensures s.opts.testCommand.Some? && p.test.failed ==> r.0.Next?
    ensures p.inject.success && s.opts.testCommand.None? && Signalled(s.opts, p) ==>
      r.0.Done? && r.0.c.message == MsgDoneSignalled
    ensures p.inject.success && s.opts.testCommand.Some? && !p.test.failed ==>
      r.0.Done? && r.0.c.message == (if Signalled(s.opts, p) then MsgDoneTested else MsgTestsPass)
    ensures p.inject.success && s.opts.testCommand.Some? && p.test.failed ==>
      r.1.lastError == Some(FailureText(p.test))
    ensures !(p.inject.success && s.opts.testCommand.Some? && p.test.failed) ==> r.1.lastError == s.lastError
    ensures r.1.opts == s.opts && r.1.iteration == s.iteration
    ensures r.0.Next? && rest == [] && p.arrivals == [] ==> r.1.running == s.running && r.1.paused == s.paused
    ensures |s.logs| <= LogBuffer.Capacity ==> |r.1.logs| <= LogBuffer.Capacity
  {
    var t := Log(Log(s, IterationBanner(s.iteration, s.opts.maxIterations)), Injecting);
    if !p.inject.success then (Next, ApplyAll(Log(t, InjectFailed(p.inject.error)), rest + p.arrivals))
    else AfterInjection(t, p, rest)
  }

  /** What one pass of the loop promises, and all that the loop around it
      relies on: it records `k` and keeps the options; it injects exactly
      when it neither breaks nor stays paused, and then with the last error
      it started from; a break leaves the loop stopped; a completion is a
      success reporting `k` with one of the three success messages and
      leaves the loop stopped without a timer; neither a failed injection
      nor a failing test run completes; after an injection, a passing test
      run completes with the tested success message, a failing one leaves
      its error as the last error, and otherwise the last error is kept;
      with no user calls, a running
      loop goes on running unpaused or completes, and completes with the
      "AI signaled DONE" message when there is no test command and the
      injected prompt's reply carries the promise; the log stays within its
      capacity. */
  predicate StepFacts(s: Loop, k: int, p: Pass, r: StepResult) {
    && r.state.opts == s.opts && r.state.iteration == k
    && (r.step.Broke? || r.step.Stuck? <==> r.prompt.None?)
    && (r.prompt.Some? ==> r.prompt.value == s.lastError)
    && (r.step.Broke? ==> !r.state.running)
    && (r.step.Done? ==>
          && r.step.c.success && r.step.c.iterations == k && !r.state.running && !r.state.timer
          && r.step.c.message in {MsgDoneTested, MsgDoneSignalled, MsgTestsPass})
    && (!p.inject.success ==> !r.step.Done?)
    && (s.opts.testCommand.Some? && p.test.failed ==> !r.step.Done?)
    && (r.prompt.Some? && p.inject.success && s.opts.testCommand.Some? ==>
          if p.test.failed then r.state.lastError == Some(FailureText(p.test))
          else r.step.Done? && r.step.c.message == (if Signalled(s.opts, p) then MsgDoneTested else MsgTestsPass))
    && (!(r.prompt.Some? && p.inject.success && s.opts.testCommand.Some? && p.test.failed) ==>
          r.state.lastError == s.lastError)
    && (s.running && !s.paused && Quiet(p) ==>
          && (r.step.Next? || r.step.Done?)
          && (r.step.Next? ==> r.state.running && !r.state.paused)
          && (p.inject.success && s.opts.testCommand.None? && Signalled(s.opts, p) ==>
                r.step.Done? && r.step.c.message == MsgDoneSignalled))
    && (|s.logs| <= LogBuffer.Capacity ==> |r.state.logs| <= LogBuffer.Capacity)
  }

  /** One pass of the `for` loop in `start()` at iteration `k`: wait while
      paused, break if cancelled, otherwise inject the prompt built from
      the options, the last error and `k`, then wait for the reply and test. */
  function Iterate(s: Loop, k: int, p: Pass): (r: StepResult)
    requires WellFormed(s.opts)
    ensures StepFacts(s, k, p, r)
  {
    var top := Top(s, k, p);
    if !top.0 then StepResult(Stuck, top.1, None)
    else if !top.1.running then StepResult(Broke, Log(top.1, LoopCancelled), None)
    else
      var a := Attempt(top.1, p, top.2);
      StepResult(a.0, a.1, Some(s.lastError))
  }

  // ---- `start()` ----

  /** The environment of one `start()` call: whether `tryConnect` succeeds,
      the user's calls while it connects, and one `Pass` per iteration. */
  datatype Env = Env(connected: bool, duringConnect: seq<Control>, passes: seq<Pass>)

  /** `start()`'s result: rejected because a run is in progress, finished
      through `complete`, or still waiting for a resume that never comes.
      `prompts` holds, for each prompt handed to `injectPrompt` in order,
      the last error it was built with: prompt `i` is
      `PromptText(opts, i + 1, prompts[i])`. */
  datatype Outcome =
    | AlreadyRunning
    | Finished(result: Completion, prompts: seq<Option<string>>)
    | Blocked(stuckPrompts: seq<Option<string>>)

  function Max0(n: int): nat {
    if n > 0 then n else 0
  }

  /** The prompt opens with the header of iteration `i` of `maxIterations`. */
  predicate Headed(prompt: string, i: int, maxIterations: int) {
    StartsWith(prompt, Header(i, maxIterations))
  }

  predicate QuietEnv(env: Env) {
    env.duringConnect == [] && forall i :: 0 <= i < |env.passes| ==> Quiet(env.passes[i])
  }

  /** Without a test command, the first injection succeeds and its reply
      carries the promise. */
  predicate FirstReplySignals(o: Options, env: Env) {
    && o.maxIterations >= 1 && |env.passes| >= 1 && o.testCommand.None?
    && env.passes[0].inject.success && Signalled(o, env.passes[0])
  }

  predicate AllTestsFail(env: Env) {
    forall i :: 0 <= i < |env.passes| ==> env.passes[i].test.failed
  }

  predicate AllInjectionsFail(env: Env) {
    forall i :: 0 <= i < |env.passes| ==> !env.passes[i].inject.success
  }

  // ---- The loop around an iteration ----

  /** An iteration body: `Iterate`, or anything keeping its promises. */
  type Body = (Loop, int, Pass) --> StepResult

  ghost predicate Obeys(body: Body) {
    forall s: Loop, k: int, p: Pass :: WellFormed(s.opts) ==>
      body.requires(s, k, p) && StepFacts(s, k, p, body(s, k, p))
  }

  lemma IterateObeys()
    ensures Obeys(Iterate)
  {
  }

  /** How the `for` loop of `start()` was left: through `complete` inside
      an iteration, by running out of iterations or breaking at iteration
      `k`, or not at all (paused for good). */
  datatype Exit = Completed(c: Completion) | Ended(k: int) | Parked

  /** The loop's exit, the state it leaves, and for each injected prompt
      the last error it was built with. */
  datatype Run = Run(exit: Exit, state: Loop, prompts: seq<Option<string>>)

  /** The `for` loop of `start()` from iteration `k` on, `body` being the
      loop's body. The loop is left without completing only when the counter
      passes `maxIterations` or after a cancel. */
  function RunFrom(body: Body, s: Loop, k: int, env: Env): (r: Run)
    requires Obeys(body)
    requires WellFormed(s.opts) && 1 <= k
    requires s.opts.maxIterations <= |env.passes|
    ensures r.state.opts == s.opts
    ensures r.exit.Ended? ==> r.exit.k > s.opts.maxIterations || !r.state.running
    decreases Max0(s.opts.maxIterations - k + 1)
  {
    if k > s.opts.maxIterations then Run(Ended(k), s, [])
    else
      var st := body(s, k, env.passes[k - 1]);
      match st.step
      case Stuck => Run(Parked, st.state, [])
      case Broke => Run(Ended(k), st.state, [])
      case Done(c) => Run(Completed(c), Finally(st.state), [st.prompt.value])
      case Next =>
        var rest := RunFrom(body, st.state, k + 1, env);
        Run(rest.exit, rest.state, [st.prompt.value] + rest.prompts)
  }

  /** At most one prompt per remaining iteration is injected, and a run left
      without completing is left at the iteration after the last prompt. */
  lemma {:induction false} RunFromLength(body: Body, s: Loop, k: int, env: Env)
    requires Obeys(body)
    requires WellFormed(s.opts) && 1 <= k
    requires s.opts.maxIterations <= |env.passes|
    ensures var r := RunFrom(body, s, k, env);
      && |r.prompts| <= Max0(s.opts.maxIterations - k + 1)
      && (r.exit.Ended? ==> r.exit.k == k + |r.prompts|)
    decreases Max0(s.opts.maxIterations - k + 1)
  {
    if k <= s.opts.maxIterations {
      var st := body(s, k, env.passes[k - 1]);
      if st.step.Next? {
        RunFromLength(body, st.state, k + 1, env);
      }
    }
  }

  /** A completion is a success that reports the iteration of the last
      injected prompt, carries one of the three success messages and leaves
      the loop stopped without a timer. */
  lemma {:induction false} RunFromCompletion(body: Body, s: Loop, k: int, env: Env)
    requires Obeys(body)
    requires WellFormed(s.opts) && 1 <= k
    requires s.opts.maxIterations <= |env.passes|
    ensures var r := RunFrom(body, s, k, env);
      r.exit.Completed? ==>
        && r.exit.c.success && |r.prompts| >= 1 && r.exit.c.iterations == k + |r.prompts| - 1
        && !r.state.running && !r.state.timer
        && r.exit.c.message in {MsgDoneTested, MsgDoneSignalled, MsgTestsPass}
    decreases Max0(s.opts.maxIterations - k + 1)
  {
    if k <= s.opts.maxIterations {
      var st := body(s, k, env.passes[k - 1]);
      if st.step.Next? {
        RunFromCompletion(body, st.state, k + 1, env);
      }
    }
  }

  /** The log never exceeds its capacity during a run. */
  lemma {:induction false} RunFromLogBound(body: Body, s: Loop, k: int, env: Env)
    requires Obeys(body)
    requires WellFormed(s.opts) && 1 <= k
    requires s.opts.maxIterations <= |env.passes|
    requires |s.logs| <= LogBuffer.Capacity
    ensures |RunFrom(body, s, k, env).state.logs| <= LogBuffer.Capacity
    decreases Max0(s.opts.maxIterations - k + 1)
  {
    if k <= s.opts.maxIterations {
      var st := body(s, k, env.passes[k - 1]);
      if st.step.Next? {
        RunFromLogBound(body, st.state, k + 1, env);
      }
    }
  }

  /** Quiet passes on a running, unpaused loop never park it, and a loop
      that is left without completing has used up every iteration. */
  lemma {:induction false} QuietRunEnds(body: Body, s: Loop, k: int, env: Env)
    requires Obeys(body)
    requires WellFormed(s.opts) && 1 <= k
    requires s.opts.maxIterations <= |env.passes|
    requires QuietEnv(env) && s.running && !s.paused
    ensures var r := RunFrom(body, s, k, env);
      !r.exit.Parked? && (r.exit.Ended? ==> |r.prompts| == Max0(s.opts.maxIterations - k + 1))
    decreases Max0(s.opts.maxIterations - k + 1)
  {
    if k <= s.opts.maxIterations {
      assert Quiet(env.passes[k - 1]);
      var st := body(s, k, env.passes[k - 1]);
      if st.step.Next? {
        QuietRunEnds(body, st.state, k + 1, env);
      }
    }
  }

  /** With a test command whose every run fails, the loop never completes. */
  lemma {:induction false} FailingTestsNeverComplete(body: Body, s: Loop, k: int, env: Env)
    requires Obeys(body)
    requires WellFormed(s.opts) && 1 <= k
    requires s.opts.maxIterations <= |env.passes|
    requires s.opts.testCommand.Some? && AllTestsFail(env)
    ensures !RunFrom(body, s, k, env).exit.Completed?
    decreases Max0(s.opts.maxIterations - k + 1)
  {
    if k <= s.opts.maxIterations {
      assert env.passes[k - 1].test.failed;
      var st := body(s, k, env.passes[k - 1]);
      if st.step.Next? {
        FailingTestsNeverComplete(body, st.state, k + 1, env);
      }
    }
  }

  /** When no injection succeeds the loop never completes. */
  lemma {:induction false} FailedInjectionsNeverComplete(body: Body, s: Loop, k: int, env: Env)
    requires Obeys(body)
    requires WellFormed(s.opts) && 1 <= k
    requires s.opts.maxIterations <= |env.passes|
    requires AllInjectionsFail(env)
    ensures !RunFrom(body, s, k, env).exit.Completed?
    decreases Max0(s.opts.maxIterations - k + 1)
  {
    if k <= s.opts.maxIterations {
      assert !env.passes[k - 1].inject.success;
      var st := body(s, k, env.passes[k - 1]);
      if st.step.Next? {
        FailedInjectionsNeverComplete(body, st.state, k + 1, env);
      }
    }
  }

  /** A first reply carrying the promise, with no test command, completes
      the loop in iteration 1 with "Task completed (AI signaled DONE)". */
  lemma FirstSignalCompletes(body: Body, s: Loop, env: Env)
    requires Obeys(body)
    requires WellFormed(s.opts)
    requires s.opts.maxIterations <= |env.passes|
    requires QuietEnv(env) && s.running && !s.paused && FirstReplySignals(s.opts, env)
    ensures var r := RunFrom(body, s, 1, env);
      r.exit.Completed? && r.exit.c.message == MsgDoneSignalled && |r.prompts| == 1
  {
    assert Quiet(env.passes[0]);
  }

  /** With a test command, a first injection whose test run passes
      completes the loop in iteration 1, built from the last error the loop
      started with, with "Task completed successfully!" when the reply
      carried the promise and "All tests pass!" otherwise. */
  lemma FirstPassingTestCompletes(body: Body, s: Loop, env: Env)
    requires Obeys(body)
    requires WellFormed(s.opts)
    requires 1 <= s.opts.maxIterations <= |env.passes|
    requires QuietEnv(env) && s.running && !s.paused && s.opts.testCommand.Some?
    requires env.passes[0].inject.success && !env.passes[0].test.failed
    ensures var r := RunFrom(body, s, 1, env);
      && r.exit.Completed? && r.prompts == [s.lastError]
      && r.exit.c.message == (if Signalled(s.opts, env.passes[0]) then MsgDoneTested else MsgTestsPass)
  {
    assert Quiet(env.passes[0]);
  }

  /** With a test command, a failing test run after the first injection
      goes on to iteration 2, whose prompt is built from that run's error
      text. */
  lemma FailedTestFeedsNextPrompt(body: Body, s: Loop, env: Env)
    requires Obeys(body)
    requires WellFormed(s.opts)
    requires 2 <= s.opts.maxIterations <= |env.passes|
    requires QuietEnv(env) && s.running && !s.paused && s.opts.testCommand.Some?
    requires env.passes[0].inject.success && env.passes[0].test.failed
    ensures var r := RunFrom(body, s, 1, env);
      && |r.prompts| >= 2 && r.prompts[0] == s.lastError
      && r.prompts[1] == Some(FailureText(env.passes[0].test))
  {
    assert Quiet(env.passes[0]) && Quiet(env.passes[1]);
    var st := body(s, 1, env.passes[0]);
    assert st.step.Next? && st.state.running && !st.state.paused;
    var st2 := body(st.state, 2, env.passes[1]);
    assert st2.prompt == Some(Some(FailureText(env.passes[0].test)));
  }

  /** The `for` loop of `start()`, iteration by iteration; it computes
      exactly `RunFrom(body, s0, 1, env)`. */
  method Iterations(body: Body, s0: Loop, env: Env) returns (ex: Exit, s: Loop, prompts: seq<Option<string>>)
    requires Obeys(body)
    requires WellFormed(s0.opts)
    requires s0.opts.maxIterations <= |env.passes|
    ensures Run(ex, s, prompts) == RunFrom(body, s0, 1, env)
  {
    var maxIterations := s0.opts.maxIterations;
    s := s0;
    var k := 1;
    prompts := [];
    while k <= maxIterations
      invariant 1 <= k && s.opts == s0.opts
      invariant var rest := RunFrom(body, s, k, env);
        RunFrom(body, s0, 1, env) == Run(rest.exit, rest.state, prompts + rest.prompts)
      decreases maxIterations - k
    {
      var r := body(s, k, env.passes[k - 1]);
      match r.step {
        case Stuck =>
          return Parked, r.state, prompts;
        case Broke =>
          return Ended(k), r.state, prompts;
        case Done(c) =>
          return Completed(c), Finally(r.state), prompts + [r.prompt.value];
        case Next =>
          var rest := RunFrom(body, r.state, k + 1, env);
          ConcatAssoc(prompts, [r.prompt.value], rest.prompts);
          s := r.state;
          prompts := prompts + [r.prompt.value];
          k := k + 1;
      }
    }
    ex := Ended(k);
  }

  /** The state `start()` enters its loop with: flags and counters reset,
      the timer started, and the user's calls during `tryConnect` applied. */
  function Launch(s0: Loop, env: Env): (s: Loop)
    ensures s.opts == s0.opts && s.iteration == 0 && s.lastError.None?
    ensures env.duringConnect == [] ==> s.running && !s.paused && s.timer
    ensures |s0.logs| <= LogBuffer.Capacity ==> |s.logs| <= LogBuffer.Capacity
  {
    ApplyAll(StartAutoAccept(s0.(running := true, paused := false, iteration := 0, lastError := None)), env.duringConnect)
  }

  /** `start()`. A run injects at most `maxIterations` prompts and ends
      through exactly one `complete` (the `Completion` in `Finished`) with
      the loop stopped and the timer gone. The result's `logs` is the live
      buffer, so it already holds the `finally` block's "Auto-accept
      stopped" entry. A failed connection fails before
      any injection. A success reports the iteration it happened in and one
      of the three success messages; a failure after connecting is always
      the "Max iterations" message, also after a cancel, and reports one
      more iteration than prompts were injected, so an exhausted loop
      reports `maxIterations + 1`. After connecting, the prompts and the
      way the loop is left are those of `RunFrom` with `Iterate` as body. */
  method Start(s0: Loop, env: Env) returns (o: Outcome, s: Loop)
    requires WellFormed(s0.opts)
    requires s0.opts.maxIterations <= |env.passes|
    ensures o.AlreadyRunning? <==> s0.running
    ensures s0.running ==> s == Log(s0, AlreadyRunningEntry)
    ensures o.Finished? ==> !s.running && !s.timer
    ensures o.Finished? ==> o.result.logs == s.logs
    ensures o.Finished? ==> |o.prompts| <= Max0(s0.opts.maxIterations)
    ensures !s0.running && !env.connected ==>
      o.Finished? && o == Finished(Completion(false, ConnectError, 0, s0.opts.maxIterations, o.result.logs), [])
    ensures o.Finished? && o.result.success ==>
      && o.result.iterations == |o.prompts| >= 1
      && o.result.message in {MsgDoneTested, MsgDoneSignalled, MsgTestsPass}
    ensures o.Finished? && !o.result.success && env.connected ==>
      o.result.message == MaxIterationsMessage(s0.opts.maxIterations)
      && o.result.iterations == |o.prompts| + 1
    ensures |s0.logs| <= LogBuffer.Capacity ==> |s.logs| <= LogBuffer.Capacity
    ensures !s0.running && env.connected ==>
      Obeys(Iterate) &&
      var r := RunFrom(Iterate, Launch(s0, env), 1, env);
      && (o.Blocked? <==> r.exit.Parked?)
      && (o.Finished? ==> o.prompts == r.prompts && (o.result.success <==> r.exit.Completed?))
  {
    if s0.running {
      s := Log(s0, AlreadyRunningEntry);
      return AlreadyRunning, s;
    }
    s := Launch(s0, env);
    if !env.connected {
      s := Log(s, ErrorEntry(ConnectError));
      var done := Complete(s, false, ConnectError);
      s := Finally(done.1);
      return Finished(done.0.(logs := s.logs), []), s;
    }
    ghost var launched := s;
    IterateObeys();
    var ex, prompts;
    ex, s, prompts := Iterations(Iterate, s, env);
    RunFromLength(Iterate, launched, 1, env);
    RunFromCompletion(Iterate, launched, 1, env);
    if |s0.logs| <= LogBuffer.Capacity {
      RunFromLogBound(Iterate, launched, 1, env);
    }
    match ex {
      case Parked =>
        o := Blocked(prompts);
      case Completed(c) =>
        o := Finished(c.(logs := s.logs), prompts);
      case Ended(k) =>
        var done := Complete(s.(iteration := k), false, MaxIterationsMessage(s.opts.maxIterations));
        s := Finally(done.1);
        o := Finished(done.0.(logs := s.logs), prompts);
    }
  }
}

=== FILE: sidebar.dfy ===
/** lib/sidebar-provider.js: `escapeHtml` in the webview script, which the
    panel uses before putting log lines into its HTML, and the handler that
    turns the webview's messages into extension commands. */
module Sidebar {
  import opened Text
  import opened Json

  // ---- escapeHtml ----

  /** The five global replacements of `escapeHtml(unsafe)`, `&` first. None
      of the replacement strings holds a `$`, so each is inserted verbatim. */
  function HtmlPasses(s: string): string {
    ReplaceChar(ReplaceChar(ReplaceChar(ReplaceChar(ReplaceChar(
      s, '&', "&amp;"), '<', "&lt;"), '>', "&gt;"), '"', "&quot;"), '\'', "&#039;")
  }

  predicate Markup(c: char) {
    c == '&' || c == '<' || c == '>' || c == '"' || c == '\''
  }

  /** What `escapeHtml` should make of one character: its entity, or the
      character itself. */
  function Entity(c: char): (r: string)
    ensures !Markup(c) ==> r == [c]
    ensures Markup(c) ==> |r| >= 4 && r[0] == '&' && r[|r| - 1] == ';'
  {
    match c
    case '&' => "&amp;"
    case '<' => "&lt;"
    case '>' => "&gt;"
    case '"' => "&quot;"
    case '\'' => "&#039;"
    case _ => [c]
  }

  /** Because `&` is replaced first, the `&` of the later entities is not
      escaped again: the five passes act on each character independently,
      as `Entity` says. */
  lemma EscapeHtmlSpec(s: string)
    ensures HtmlPasses(s) == FlatMap(s, Entity)
  {
    var f0: char -> string := x => [x];
    var f1: char -> string := x => ReplaceChar(f0(x), '&', "&amp;");
    var f2: char -> string := x => ReplaceChar(f1(x), '<', "&lt;");
    var f3: char -> string := x => ReplaceChar(f2(x), '>', "&gt;");
    var f4: char -> string := x => ReplaceChar(f3(x), '"', "&quot;");
    var f5: char -> string := x => ReplaceChar(f4(x), '\'', "&#039;");
    FlatMapId(s);
    FlatMapFuse(s, f0, '&', "&amp;");
    FlatMapFuse(s, f1, '<', "&lt;");
    FlatMapFuse(s, f2, '>', "&gt;");
    FlatMapFuse(s, f3, '"', "&quot;");
    FlatMapFuse(s, f4, '\'', "&#039;");
    forall i | 0 <= i < |s|
      ensures f5(s[i]) == Entity(s[i])
    {
      EntityPasses(s[i]);
      assert f5(s[i]) == HtmlPasses([s[i]]);
    }
    FlatMapExt(s, f5, Entity);
  }

  /** `escapeHtml(unsafe)`: each `&`, `<`, `>`, `"` and `'` becomes its
      entity and every other character is kept, in order. */
  function EscapeHtml(s: string): (r: string)
    ensures r == FlatMap(s, Entity)
  {
    EscapeHtmlSpec(s);
    HtmlPasses(s)
  }

  /** The five passes on a single character. */
  lemma EntityPasses(c: char)
    ensures HtmlPasses([c]) == Entity(c)
  {
    if c == '&' {
      AmpersandPasses();
    } else if c == '<' {
      LessPasses();
    } else if c == '>' {
      GreaterPasses();
    } else if c == '"' {
      QuotePasses();
    } else if c == '\'' {
      ApostrophePasses();
    } else {
      PlainPasses(c);
    }
  }

  /** The entity the first pass makes holds none of the other four. */
  lemma AmpersandPasses()
    ensures HtmlPasses("&") == "&amp;"
  {
    var amp := "&amp;";
    ReplaceCharSingle('&', '&', amp);
    assert forall i :: 0 <= i < |amp| ==> !Markup(amp[i]) || amp[i] == '&';
    PassesKeep(amp);
  }

  /** Text with no `<`, `>`, `"` or `'` comes out of the last four passes
      as it went in. */
  lemma PassesKeep(e: string)
    requires forall i :: 0 <= i < |e| ==> !Markup(e[i]) || e[i] == '&'
    ensures ReplaceChar(ReplaceChar(ReplaceChar(ReplaceChar(
      e, '<', "&lt;"), '>', "&gt;"), '"', "&quot;"), '\'', "&#039;") == e
  {
    ReplaceCharAbsent(e, '<', "&lt;");
    ReplaceCharAbsent(e, '>', "&gt;");
    ReplaceCharAbsent(e, '"', "&quot;");
    ReplaceCharAbsent(e, '\'', "&#039;");
  }

  lemma LessPasses()
    ensures HtmlPasses("<") == "&lt;"
  {
    ReplaceCharSingle('<', '&', "&amp;");
    ReplaceCharSingle('<', '<', "&lt;");
    ReplaceCharAbsent("&lt;", '>', "&gt;");
    ReplaceCharAbsent("&lt;", '"', "&quot;");
    ReplaceCharAbsent("&lt;", '\'', "&#039;");
  }

  lemma GreaterPasses()
    ensures HtmlPasses(">") == "&gt;"
  {
    ReplaceCharSingle('>', '&', "&amp;");
    ReplaceCharSingle('>', '<', "&lt;");
    ReplaceCharSingle('>', '>', "&gt;");
    ReplaceCharAbsent("&gt;", '"', "&quot;");
    ReplaceCharAbsent("&gt;", '\'', "&#039;");
  }

  lemma QuotePasses()
    ensures HtmlPasses("\"") == "&quot;"
  {
    ReplaceCharSingle('"', '&', "&amp;");
    ReplaceCharSingle('"', '<', "&lt;");
    ReplaceCharSingle('"', '>', "&gt;");
    ReplaceCharSingle('"', '"', "&quot;");
    ReplaceCharAbsent("&quot;", '\'', "&#039;");
  }

  lemma ApostrophePasses()
    ensures HtmlPasses("'") == "&#039;"
  {
    ReplaceCharSingle('\'', '&', "&amp;");
    ReplaceCharSingle('\'', '<', "&lt;");
    ReplaceCharSingle('\'', '>', "&gt;");
    ReplaceCharSingle('\'', '"', "&quot;");
    ReplaceCharSingle('\'', '\'', "&#039;");
  }

  lemma PlainPasses(c: char)
    requires !Markup(c)
    ensures HtmlPasses([c]) == [c]
  {
    ReplaceCharSingle(c, '&', "&amp;");
    ReplaceCharSingle(c, '<', "&lt;");
    ReplaceCharSingle(c, '>', "&gt;");
    ReplaceCharSingle(c, '"', "&quot;");
    ReplaceCharSingle(c, '\'', "&#039;");
  }

  /** The output holds no raw `<`, `>`, `"` or `'`. */
  lemma {:induction false} NoRawMarkup(s: string)
    ensures forall i :: 0 <= i < |FlatMap(s, Entity)| ==>
      var c := FlatMap(s, Entity)[i]; c != '<' && c != '>' && c != '"' && c != '\''
  {
    if |s| > 0 {
      var h := Entity(s[0]);
      var rest := FlatMap(s[1..], Entity);
      NoRawMarkup(s[1..]);
      assert forall i :: 0 <= i < |h| ==> h[i] != '<' && h[i] != '>' && h[i] != '"' && h[i] != '\'';
      assert FlatMap(s, Entity) == h + rest;
    }
  }

  /** One of the five entities starts at position `i` of `e`. */
  predicate EntityAt(e: string, i: nat) {
    || OccursAt(e, "&amp;", i) || OccursAt(e, "&lt;", i) || OccursAt(e, "&gt;", i)
    || OccursAt(e, "&quot;", i) || OccursAt(e, "&#039;", i)
  }

  /** Every `&` of the output starts one of the five entities. */
  predicate Ampersands(e: string) {
    forall i :: 0 <= i < |e| && e[i] == '&' ==> EntityAt(e, i)
  }

  lemma {:induction false} AmpersandsBeginEntities(s: string)
    ensures Ampersands(FlatMap(s, Entity))
  {
    if |s| > 0 {
      AmpersandsBeginEntities(s[1..]);
      EntityAmpersands(s[0]);
      AmpersandsAppend(Entity(s[0]), FlatMap(s[1..], Entity));
      assert FlatMap(s, Entity) == Entity(s[0]) + FlatMap(s[1..], Entity);
    }
  }

  /** One character's entity: its only `&` is its first character. */
  lemma EntityAmpersands(c: char)
    ensures Ampersands(Entity(c))
  {
    var h := Entity(c);
    if Markup(c) {
      assert OccursAt(h, h, 0);
      assert forall j :: 0 < j < |h| ==> h[j] != '&';
    }
  }

  /** Entities stay entities when two escaped texts are joined. */
  lemma AmpersandsAppend(a: string, b: string)
    requires Ampersands(a) && Ampersands(b)
    ensures Ampersands(a + b)
  {
    var e := a + b;
    forall i | 0 <= i < |e| && e[i] == '&'
      ensures EntityAt(e, i)
    {
      if i >= |a| {
        assert b[i - |a|] == e[i];
        ShiftEntity(a, b, i - |a|);
      } else {
        assert a[i] == e[i];
        AppendEntity(a, b, i);
      }
    }
  }

  /** An occurrence in `b` is still one once `a` is put in front. */
  lemma OccursAfter(a: string, b: string, t: string, k: nat)
    requires OccursAt(b, t, k)
    ensures OccursAt(a + b, t, |a| + k)
  {
    assert (a + b)[|a| + k..|a| + k + |t|] == b[k..k + |t|];
  }

  /** An occurrence in `a` is still one once `b` follows. */
  lemma OccursBefore(a: string, b: string, t: string, k: nat)
    requires OccursAt(a, t, k)
    ensures OccursAt(a + b, t, k)
  {
    assert (a + b)[k..k + |t|] == a[k..k + |t|];
  }

  lemma ShiftEntity(a: string, b: string, k: nat)
    requires EntityAt(b, k)
    ensures EntityAt(a + b, |a| + k)
  {
    if OccursAt(b, "&amp;", k) {
      OccursAfter(a, b, "&amp;", k);
    } else if OccursAt(b, "&lt;", k) {
      OccursAfter(a, b, "&lt;", k);
    } else if OccursAt(b, "&gt;", k) {
      OccursAfter(a, b, "&gt;", k);
    } else if OccursAt(b, "&quot;", k) {
      OccursAfter(a, b, "&quot;", k);
    } else {
      OccursAfter(a, b, "&#039;", k);
    }
  }

  lemma AppendEntity(a: string, b: string, k: nat)
    requires EntityAt(a, k)
    ensures EntityAt(a + b, k)
  {
    if OccursAt(a, "&amp;", k) {
      OccursBefore(a, b, "&amp;", k);
    } else if OccursAt(a, "&lt;", k) {
      OccursBefore(a, b, "&lt;", k);
    } else if OccursAt(a, "&gt;", k) {
      OccursBefore(a, b, "&gt;", k);
    } else if OccursAt(a, "&quot;", k) {
      OccursBefore(a, b, "&quot;", k);
    } else {
      OccursBefore(a, b, "&#039;", k);
    }
  }

  /** How often `c` occurs in `s`. */
  function Count(s: string, c: char): (r: nat)
    ensures r <= |s|
  {
    if |s| == 0 then 0 else (if s[0] == c then 1 else 0) + Count(s[1..], c)
  }

  /** Each `&` adds four characters, each `<` and `>` three, each `"` and
      `'` five. */
  lemma {:induction false} EscapedLength(s: string)
    ensures |FlatMap(s, Entity)| ==
      |s| + 4 * Count(s, '&') + 3 * Count(s, '<') + 3 * Count(s, '>')
          + 5 * Count(s, '"') + 5 * Count(s, '\'')
  {
    if |s| > 0 {
      EscapedLength(s[1..]);
      assert FlatMap(s, Entity) == Entity(s[0]) + FlatMap(s[1..], Entity);
    }
  }

  /** What a browser makes of the five entities, read left to right. */
  function Unescape(e: string): string
    decreases |e|
  {
    if |e| == 0 then ""
    else if OccursAt(e, "&amp;", 0) then "&" + Unescape(e[5..])
    else if OccursAt(e, "&lt;", 0) then "<" + Unescape(e[4..])
    else if OccursAt(e, "&gt;", 0) then ">" + Unescape(e[4..])
    else if OccursAt(e, "&quot;", 0) then "\"" + Unescape(e[6..])
    else if OccursAt(e, "&#039;", 0) then "'" + Unescape(e[6..])
    else [e[0]] + Unescape(e[1..])
  }

  /** The page shows exactly the text that was escaped. */
  lemma {:induction false} UnescapeEscape(s: string)
    ensures Unescape(EscapeHtml(s)) == s
  {
    UnescapeEntities(s);
  }

  lemma {:induction false} UnescapeEntities(s: string)
    ensures Unescape(FlatMap(s, Entity)) == s
  {
    if |s| > 0 {
      assert FlatMap(s, Entity) == Entity(s[0]) + FlatMap(s[1..], Entity);
      UnescapeEntities(s[1..]);
      UnescapeStep(s[0], FlatMap(s[1..], Entity));
      assert s == [s[0]] + s[1..];
    } else {
      assert FlatMap(s, Entity) == "";
    }
  }

  /** `Unescape` reads back one character's entity, whatever follows it. */
  lemma UnescapeStep(c: char, rest: string)
    ensures Unescape(Entity(c) + rest) == [c] + Unescape(rest)
  {
    if c == '&' {
      UnescapeAmpersand(rest);
    } else if c == '<' {
      UnescapeLess(rest);
    } else if c == '>' {
      UnescapeGreater(rest);
    } else if c == '"' {
      UnescapeQuote(rest);
    } else if c == '\'' {
      UnescapeApostrophe(rest);
    } else {
      UnescapePlain(c, rest);
    }
  }

  /** Text that does not start with `&` is read a character at a time. */
  lemma UnescapePlain(c: char, rest: string)
    requires c != '&'
    ensures Unescape([c] + rest) == [c] + Unescape(rest)
  {
    var e := [c] + rest;
    assert e[1..] == rest;
    forall t: string | |t| > 0 && t[0] == '&'
      ensures !OccursAt(e, t, 0)
    {
      assert |t| > |e| || e[0..|t|][0] != t[0];
    }
    assert "&amp;"[0] == '&' && "&lt;"[0] == '&' && "&gt;"[0] == '&';
    assert "&quot;"[0] == '&' && "&#039;"[0] == '&';
  }

  lemma UnescapeAmpersand(rest: string)
    ensures Unescape("&amp;" + rest) == "&" + Unescape(rest)
  {
    var e := "&amp;" + rest;
    assert e[..5] == "&amp;";
    assert e[5..] == rest;
  }

  lemma UnescapeLess(rest: string)
    ensures Unescape("&lt;" + rest) == "<" + Unescape(rest)
  {
    var e := "&lt;" + rest;
    assert e[..4] == "&lt;";
    assert e[4..] == rest;
    assert e[1] == 'l';
  }

  lemma UnescapeGreater(rest: string)
    ensures Unescape("&gt;" + rest) == ">" + Unescape(rest)
  {
    var e := "&gt;" + rest;
    assert e[..4] == "&gt;";
    assert e[4..] == rest;
    assert e[1] == 'g';
  }

  lemma UnescapeQuote(rest: string)
    ensures Unescape("&quot;" + rest) == "\"" + Unescape(rest)
  {
    var e := "&quot;" + rest;
    assert e[..6] == "&quot;";
    assert e[6..] == rest;
    assert e[1] == 'q';
  }

  lemma UnescapeApostrophe(rest: string)
    ensures Unescape("&#039;" + rest) == "'" + Unescape(rest)
  {
    var e := "&#039;" + rest;
    assert e[..6] == "&#039;";
    assert e[6..] == rest;
    assert e[1] == '#';
  }

  // ---- The message handler ----

  /** What a message from the webview leads to: a command run (with the
      prompt as argument for `updatePrompt`), nothing, or a `TypeError` when
      the message is `null`. */
  datatype Handled = Execute(command: string, arg: Option<Json>) | Ignore | Throw

  const CommandPrefix: string := "antigravity-for-loop."

  /** Each message type the handler knows, with the command it runs. */
  const Table: seq<(string, string)> := [
    ("startLoop", "start"),
    ("stopLoop", "cancel"),
    ("toggleContinuation", "toggleContinuation"),
    ("pauseLoop", "pause"),
    ("resumeLoop", "resume"),
    ("enableCDP", "enableCDP"),
    ("updatePrompt", "updatePrompt"),
    ("refreshState", "refreshSidebar")
  ]

  /** `data.type` compared with `===`: a message type only when it is a
      string. */
  function MessageType(data: Json): Option<string> {
    match Get(Some(data), "type")
    case Some(JStr(t)) => Some(t)
    case _ => None
  }

  /** The `onDidReceiveMessage` handler. */
  function Dispatch(data: Json): (r: Handled)
    ensures r == Throw <==> data == JNull
    ensures r.Execute? ==> r.arg.Some? ==> MessageType(data) == Some("updatePrompt")
  {
    if data == JNull then Throw
    else match MessageType(data)
      case Some("startLoop") => Execute(CommandPrefix + "start", None)
      case Some("stopLoop") => Execute(CommandPrefix + "cancel", None)
      case Some("toggleContinuation") => Execute(CommandPrefix + "toggleContinuation", None)
      case Some("pauseLoop") => Execute(CommandPrefix + "pause", None)
      case Some("resumeLoop") => Execute(CommandPrefix + "resume", None)
      case Some("enableCDP") => Execute(CommandPrefix + "enableCDP", None)
      case Some("updatePrompt") => Execute(CommandPrefix + "updatePrompt", Get(Some(data), "prompt"))
      case Some("refreshState") => Execute(CommandPrefix + "refreshSidebar", None)
      case _ => Ignore
  }

  /** Each known type runs the command the table lists for it, and only
      `updatePrompt` forwards an argument, the message's `prompt`. */
  lemma DispatchTable(data: Json, i: nat)
    requires i < |Table| && data != JNull && MessageType(data) == Some(Table[i].0)
    ensures Dispatch(data).Execute?
    ensures Dispatch(data).command == CommandPrefix + Table[i].1
    ensures Dispatch(data).arg == if Table[i].0 == "updatePrompt" then Get(Some(data), "prompt") else None
  {
  }

  /** A message that is not `null` and whose type is none of the table's
      is ignored. */
  lemma DispatchIgnores(data: Json)
    requires data != JNull
    requires forall i :: 0 <= i < |Table| ==> MessageType(data) != Some(Table[i].0)
    ensures Dispatch(data) == Ignore
  {
    assert Table[0].0 == "startLoop";
    assert Table[1].0 == "stopLoop";
    assert Table[2].0 == "toggleContinuation";
    assert Table[3].0 == "pauseLoop";
    assert Table[4].0 == "resumeLoop";
    assert Table[5].0 == "enableCDP";
    assert Table[6].0 == "updatePrompt";
    assert Table[7].0 == "refreshState";
  }

  /** Different types run different commands: the table is one-to-one. */
  lemma TableOneToOne(i: nat, j: nat)
    requires i < |Table| && j < |Table| && i != j
    ensures Table[i].0 != Table[j].0 && Table[i].1 != Table[j].1
  {
  }
}

=== FILE: state_store.dfy ===
/** lib/state-manager.js: where the loop's state file lives and how it is
    written and read. The workspace and the file system are inputs: the
    file system is a map from path to content plus two flags saying whether
    the next write or read throws. Paths are POSIX paths. */
module StateStore {
  import opened Text
  import opened Json

  /** The open workspace folders (their file-system paths, first one is the
      root) and the `antigravity.stateFilePath` setting, `None` when unset. */
  datatype Workspace = Workspace(folders: seq<string>, configured: Option<Json>)

  /** A stored file: text `JSON.parse` accepts (it yields the value), or text
      it rejects. */
  datatype Content = Stored(value: Json) | Garbled

  /** How the next `fs.writeFileSync` goes: it succeeds; it throws before
      the file is opened (a missing or read-only directory), leaving the
      file as it was; or it throws after the `'w'` open has truncated the
      file (a full disk, an I/O error), leaving empty or partial text. */
  datatype WriteFault = WriteOk | OpenFails | FailsAfterOpen

  datatype Disk = Disk(files: map<string, Content>, write: WriteFault, readThrows: bool)

  /** `saveState` returns `undefined` when there is no state file, the state
      after a successful write, and `null` when the write throws. */
  datatype SaveResult = NoStateFile | Saved(state: Json) | SaveFailed

  /** `path.isAbsolute` on POSIX. */
  predicate IsAbsolute(p: string) {
    |p| > 0 && p[0] == '/'
  }

  /** `path.join(dir, name)` for an already normal directory and name. */
  function Join(dir: string, name: string): string {
    dir + "/" + name
  }

  const DotDir: string := ".antigravity"
  const StateFileName: string := "for-loop-state.json"

  /** The configured path when it is a string with something besides
      whitespace; `None` sends the caller to the default. */
  function ConfiguredPath(c: Option<Json>): (r: Option<string>)
    ensures r.Some? <==> c.Some? && c.value.JStr? && !AllSpace(c.value.s)
    ensures r.Some? ==> r.value == c.value.s
  {
    if Truthy(c) && c.value.JStr? && Trim(c.value.s) != "" then Some(c.value.s) else None
  }

  /** `getStateFilePath()`. */
  function StateFilePath(ws: Workspace): (r: Option<string>)
    ensures r.None? <==> |ws.folders| == 0
  {
    if |ws.folders| == 0 then None
    else
      var root := ws.folders[0];
      match ConfiguredPath(ws.configured)
      case Some(p) => Some(if IsAbsolute(p) then p else Join(root, p))
      case None => Some(Join(Join(root, DotDir), StateFileName))
  }

  /** A configured path with something besides whitespace is used as given
      when absolute and under the first workspace folder when relative;
      anything else (unset, not a string, empty, blank) gives
      `<root>/.antigravity/for-loop-state.json`. */
  lemma PathChoice(ws: Workspace)
    requires |ws.folders| > 0
    ensures var r := StateFilePath(ws).value;
      && (ws.configured.Some? && ws.configured.value.JStr? && !AllSpace(ws.configured.value.s) ==>
            r == if IsAbsolute(ws.configured.value.s) then ws.configured.value.s
                 else ws.folders[0] + "/" + ws.configured.value.s)
      && (ws.configured.None? || !ws.configured.value.JStr? || AllSpace(ws.configured.value.s) ==>
            r == ws.folders[0] + "/" + DotDir + "/" + StateFileName)
  {
  }

  /** `saveState(state)` once the state file path is known (`None` when
      there is none): the result and the disk afterwards. A write that
      throws after opening has already emptied the file, so what was saved
      before is lost. */
  function SaveAt(path: Option<string>, d: Disk, state: Json): (r: (SaveResult, Disk))
    ensures path.None? ==> r == (NoStateFile, d)
    ensures path.Some? && d.write.OpenFails? ==> r == (SaveFailed, d)
    ensures path.Some? && d.write.FailsAfterOpen? ==>
      && r.0 == SaveFailed
      && path.value in r.1.files && r.1.files[path.value] == Garbled
    ensures path.Some? && d.write.WriteOk? ==>
      && r.0 == Saved(state)
      && path.value in r.1.files && r.1.files[path.value] == Stored(state)
    ensures path.Some? ==>
      && r.1.write == d.write && r.1.readThrows == d.readThrows
      && (forall p :: p != path.value ==> (p in r.1.files <==> p in d.files))
      && (forall p :: p != path.value && p in d.files ==> r.1.files[p] == d.files[p])
  {
    match path
    case None => (NoStateFile, d)
    case Some(p) =>
      match d.write
      case OpenFails => (SaveFailed, d)
      case FailsAfterOpen => (SaveFailed, d.(files := d.files[p := Garbled]))
      case WriteOk => (Saved(state), d.(files := d.files[p := Stored(state)]))
  }

  /** `saveState(state)`: `undefined` and no write without a workspace
      folder; `null` when the write throws, with no change when it threw
      before opening and a state file that reads as `null` when it threw
      after; and otherwise the state itself, with the state file holding
      it. */
  function SaveState(ws: Workspace, d: Disk, state: Json): (r: (SaveResult, Disk))
    ensures |ws.folders| == 0 ==> r == (NoStateFile, d)
    ensures |ws.folders| > 0 && d.write.OpenFails? ==> r == (SaveFailed, d)
    ensures |ws.folders| > 0 && d.write.FailsAfterOpen? ==>
      r.0 == SaveFailed && ReadAt(StateFilePath(ws), r.1) == JNull
    ensures |ws.folders| > 0 && d.write.WriteOk? ==>
      r.0 == Saved(state) && ReadAt(StateFilePath(ws), r.1.(readThrows := false)) == state
  {
    SaveAt(StateFilePath(ws), d, state)
  }

  /** `readState()` once the state file path is known: the parsed state,
      `null` when there is no state file, the file is missing, reading
      throws or the text does not parse. */
  function ReadAt(path: Option<string>, d: Disk): (r: Json)
    ensures path.None? ==> r == JNull
    ensures path.Some? && path.value !in d.files ==> r == JNull
    ensures path.Some? && path.value in d.files && d.files[path.value] == Garbled ==> r == JNull
    ensures d.readThrows ==> r == JNull
    ensures path.Some? && path.value in d.files && !d.readThrows && d.files[path.value].Stored? ==>
      r == d.files[path.value].value
  {
    match path
    case None => JNull
    case Some(p) =>
      if p !in d.files || d.readThrows then JNull
      else match d.files[p]
        case Stored(v) => v
        case Garbled => JNull
  }

  /** `readState()`: `null` without a workspace folder or when reading
      throws. */
  function ReadState(ws: Workspace, d: Disk): (r: Json)
    ensures |ws.folders| == 0 || d.readThrows ==> r == JNull
  {
    ReadAt(StateFilePath(ws), d)
  }

  /** What a successful save writes, a later read returns. */
  lemma SaveThenRead(ws: Workspace, d: Disk, state: Json)
    requires |ws.folders| > 0 && d.write.WriteOk?
    ensures SaveState(ws, d, state).0 == Saved(state)
    ensures !d.readThrows ==> ReadState(ws, SaveState(ws, d, state).1) == state
  {
  }

  /** A save whose write fails after opening loses the state saved before:
      a read that gave it back now gives `null`. */
  lemma FailedWriteLosesState(ws: Workspace, d: Disk, state: Json)
    requires |ws.folders| > 0 && d.write.FailsAfterOpen?
    ensures var r := SaveState(ws, d, state);
      && r.0 == SaveFailed
      && ReadState(ws, r.1) == JNull
      && (forall p :: p != StateFilePath(ws).value && p in d.files ==> p in r.1.files && r.1.files[p] == d.files[p])
  {
  }

  /** Without a workspace folder nothing is written and nothing is read. */
  lemma NoFolderNoFile(ws: Workspace, d: Disk, state: Json)
    requires |ws.folders| == 0
    ensures SaveState(ws, d, state) == (NoStateFile, d)
    ensures ReadState(ws, d) == JNull
  {
  }
}

=== FILE: text.dfy ===
/** String helpers shared by the model: substring search (`includes`,
    `indexOf`), ASCII case folding, ECMAScript `trim`, decimal rendering,
    `join('\n')`, per-character replacement (a global one-character regex
    `replace`) and `String.prototype.replace` with a string pattern. */
module Text {

  datatype Option<+T> = None | Some(value: T)

  /** `t` occurs in `s` starting at index `i`. */
  predicate OccursAt(s: string, t: string, i: nat) {
    i + |t| <= |s| && s[i..i + |t|] == t
  }

  /** The first index at or after `from` where `t` occurs in `s`. */
  function IndexFrom(s: string, t: string, from: nat): (r: Option<nat>)
    decreases |s| - from
    ensures r.Some? ==> from <= r.value && OccursAt(s, t, r.value)
    ensures r.Some? ==> forall j :: from <= j < r.value ==> !OccursAt(s, t, j)
    ensures r.None? ==> forall j :: from <= j ==> !OccursAt(s, t, j)
  {
    if from + |t| > |s| then None
    else if s[from..from + |t|] == t then Some(from)
    else IndexFrom(s, t, from + 1)
  }

  /** JavaScript's `s.indexOf(t)`, with `None` for -1. */
  function IndexOf(s: string, t: string): Option<nat> {
    IndexFrom(s, t, 0)
  }

  /** JavaScript's `s.includes(t)`. */
  predicate Contains(s: string, t: string) {
    IndexOf(s, t).Some?
  }

  lemma ContainsIff(s: string, t: string)
    ensures Contains(s, t) <==> exists i: nat :: OccursAt(s, t, i)
  {
    if exists i: nat :: OccursAt(s, t, i) {
      var i: nat :| OccursAt(s, t, i);
      assert IndexOf(s, t).Some?;
    }
  }

  /** A string occurs in every string that extends it on either side. */
  lemma {:induction false} ContainsInContext(a: string, t: string, b: string)
    ensures Contains(a + t + b, t)
  {
    var s := a + t + b;
    assert s[|a|..|a| + |t|] == t;
    assert OccursAt(s, t, |a|);
    ContainsIff(s, t);
  }

  /** `toLowerCase` restricted to ASCII letters. */
  function LowerChar(c: char): char {
    if 'A' <= c <= 'Z' then (c as int + 32) as char else c
  }

  function ToLower(s: string): (r: string)
    ensures |r| == |s|
    ensures forall i :: 0 <= i < |s| ==> r[i] == LowerChar(s[i])
  {
    seq(|s|, i requires 0 <= i < |s| => LowerChar(s[i]))
  }

  /** The characters ECMAScript's `trim` removes: WhiteSpace and LineTerminator. */
  const JsWhitespace: set<char> := {
    '\t', '\n', '\U{000B}', '\U{000C}', '\r', ' ', '\U{00A0}', '\U{1680}',
    '\U{2000}', '\U{2001}', '\U{2002}', '\U{2003}', '\U{2004}', '\U{2005}',
    '\U{2006}', '\U{2007}', '\U{2008}', '\U{2009}', '\U{200A}', '\U{2028}',
    '\U{2029}', '\U{202F}', '\U{205F}', '\U{3000}', '\U{FEFF}'
  }

  predicate IsSpace(c: char) {
    c in JsWhitespace
  }

  predicate AllSpace(s: string) {
    forall i :: 0 <= i < |s| ==> IsSpace(s[i])
  }

  function TrimStart(s: string): (r: string)
    ensures |r| <= |s| && r == s[|s| - |r|..]
    ensures AllSpace(s[..|s| - |r|])
    ensures |r| > 0 ==> !IsSpace(r[0])
  {
    if |s| > 0 && IsSpace(s[0]) then TrimStart(s[1..]) else s
  }

  function TrimEnd(s: string): (r: string)
    ensures |r| <= |s| && r == s[..|r|]
    ensures AllSpace(s[|r|..])
    ensures |r| > 0 ==> !IsSpace(r[|r| - 1])
  {
    if |s| > 0 && IsSpace(s[|s| - 1]) then TrimEnd(s[..|s| - 1]) else s
  }

  /** JavaScript's `s.trim()`. */
  function Trim(s: string): (r: string)
    ensures r == "" <==> AllSpace(s)
    ensures |r| > 0 ==> !IsSpace(r[0]) && !IsSpace(r[|r| - 1])
  {
    var a := TrimStart(s);
    var r := TrimEnd(a);
    assert s == s[..|s| - |a|] + a;
    r
  }

  function Digit(d: nat): char
    requires d < 10
  {
    "0123456789"[d]
  }

  /** Decimal rendering of a natural number, as `String(n)` prints it. */
  function NatToString(n: nat): (r: string)
    ensures |r| >= 1
    ensures forall i :: 0 <= i < |r| ==> '0' <= r[i] <= '9'
  {
    if n < 10 then [Digit(n)] else NatToString(n / 10) + [Digit(n % 10)]
  }

  /** Decimal rendering of an integer, as a template literal prints it. */
  function IntToString(n: int): string {
    if n < 0 then "-" + NatToString(-n) else NatToString(n)
  }

  /** `parts.join('\n')`. */
  function JoinLines(parts: seq<string>): string
  {
    if |parts| == 0 then ""
    else if |parts| == 1 then parts[0]
    else parts[0] + "\n" + JoinLines(parts[1..])
  }

  /** The joined text starts with the first part and ends with the last. */
  lemma {:induction false} JoinLinesEnds(parts: seq<string>)
    requires |parts| > 0
    ensures |JoinLines(parts)| >= |parts[0]| && |JoinLines(parts)| >= |parts[|parts| - 1]|
    ensures JoinLines(parts)[..|parts[0]|] == parts[0]
    ensures JoinLines(parts)[|JoinLines(parts)| - |parts[|parts| - 1]|..] == parts[|parts| - 1]
  {
    if |parts| > 1 {
      JoinLinesEnds(parts[1..]);
      var rest := JoinLines(parts[1..]);
      assert JoinLines(parts) == parts[0] + "\n" + rest;
      assert parts[1..][|parts[1..]| - 1] == parts[|parts| - 1];
    }
  }

  /** Replaces every character of `s` by the string `f` gives for it. */
  function FlatMap(s: string, f: char -> string): string
  {
    if |s| == 0 then "" else f(s[0]) + FlatMap(s[1..], f)
  }

  lemma {:induction false} FlatMapAppend(a: string, b: string, f: char -> string)
    ensures FlatMap(a + b, f) == FlatMap(a, f) + FlatMap(b, f)
  {
    if |a| > 0 {
      assert (a + b)[1..] == a[1..] + b;
      FlatMapAppend(a[1..], b, f);
    } else {
      assert a + b == b;
    }
  }

  /** One pass of a global single-character regex replacement,
      `s.replace(/c/g, rep)`, for a `rep` that the replacement inserts
      verbatim (no `$$`, `$&`, `` $` `` or `$'` pattern in it). */
  function ReplaceChar(s: string, c: char, rep: string): string {
    FlatMap(s, Replacing(c, rep))
  }

  /** The character map of one replacement pass. */
  function Replacing(c: char, rep: string): char -> string {
    x => if x == c then rep else [x]
  }

  /** A pass leaves alone a string that does not contain its character. */
  lemma {:induction false} ReplaceCharAbsent(s: string, c: char, rep: string)
    requires c !in s
    ensures ReplaceChar(s, c, rep) == s
  {
    if |s| > 0 {
      assert c !in s[1..];
      ReplaceCharAbsent(s[1..], c, rep);
    }
  }

  /** The replacement text of `String.prototype.replace` for a string
      pattern (GetSubstitution with no capture groups): `$$` gives `$`,
      `$&` the match, `` $` `` the text before it, `$'` the text after it;
      every other `$` is literal. */
  function Substitute(rep: string, matched: string, before: string, after: string): string
    decreases |rep|
  {
    if |rep| == 0 then ""
    else if rep[0] == '$' && |rep| >= 2 && rep[1] == '$' then "$" + Substitute(rep[2..], matched, before, after)
    else if rep[0] == '$' && |rep| >= 2 && rep[1] == '&' then matched + Substitute(rep[2..], matched, before, after)
    else if rep[0] == '$' && |rep| >= 2 && rep[1] == '`' then before + Substitute(rep[2..], matched, before, after)
    else if rep[0] == '$' && |rep| >= 2 && rep[1] == '\'' then after + Substitute(rep[2..], matched, before, after)
    else [rep[0]] + Substitute(rep[1..], matched, before, after)
  }

  /** A replacement without `$` is inserted verbatim. */
  lemma {:induction false} SubstituteLiteral(rep: string, matched: string, before: string, after: string)
    requires '$' !in rep
    ensures Substitute(rep, matched, before, after) == rep
  {
    if |rep| > 0 {
      assert '$' !in rep[1..];
      SubstituteLiteral(rep[1..], matched, before, after);
    }
  }

  /** `s.replace(pattern, rep)` with a string pattern: only the first
      occurrence is replaced. */
  function ReplaceFirst(s: string, pattern: string, rep: string): string
  {
    match IndexOf(s, pattern)
    case None => s
    case Some(i) =>
      s[..i] + Substitute(rep, pattern, s[..i], s[i + |pattern|..]) + s[i + |pattern|..]
  }

  /** The replacement lands where the first occurrence was; a string without
      the pattern is returned unchanged. */
  lemma ReplaceFirstSpec(s: string, pattern: string, rep: string)
    requires '$' !in rep
    ensures IndexOf(s, pattern).None? ==> ReplaceFirst(s, pattern, rep) == s
    ensures IndexOf(s, pattern).Some? ==>
      var i := IndexOf(s, pattern).value;
      ReplaceFirst(s, pattern, rep) == s[..i] + rep + s[i + |pattern|..]
  {
    if IndexOf(s, pattern).Some? {
      var i := IndexOf(s, pattern).value;
      SubstituteLiteral(rep, pattern, s[..i], s[i + |pattern|..]);
    }
  }

  lemma ConcatAssoc<T>(a: seq<T>, b: seq<T>, c: seq<T>)
    ensures a + (b + c) == (a + b) + c
  {
  }

  /** Mapping every character to itself. */
  lemma {:induction false} FlatMapId(s: string)
    ensures FlatMap(s, x => [x]) == s
  {
    if |s| > 0 {
      FlatMapId(s[1..]);
    }
  }

  /** Functions that agree on the characters of `s` map it alike. */
  lemma {:induction false} FlatMapExt(s: string, f: char -> string, g: char -> string)
    requires forall i :: 0 <= i < |s| ==> f(s[i]) == g(s[i])
    ensures FlatMap(s, f) == FlatMap(s, g)
  {
    if |s| > 0 {
      FlatMapExt(s[1..], f, g);
    }
  }

  /** A replacement pass after a character map is one character map. */
  lemma {:induction false} FlatMapFuse(s: string, f: char -> string, c: char, rep: string)
    ensures ReplaceChar(FlatMap(s, f), c, rep) == FlatMap(s, x => ReplaceChar(f(x), c, rep))
  {
    if |s| > 0 {
      FlatMapAppend(f(s[0]), FlatMap(s[1..], f), Replacing(c, rep));
      FlatMapFuse(s[1..], f, c, rep);
    }
  }

  /** A replacement pass over one character. */
  lemma ReplaceCharSingle(x: char, c: char, rep: string)
    ensures ReplaceChar([x], c, rep) == if x == c then rep else [x]
  {
    assert FlatMap([x], Replacing(c, rep)) == Replacing(c, rep)(x) + FlatMap([x][1..], Replacing(c, rep));
    assert [x][1..] == [];
  }
}
